=== FILE: README.md ===
# padded-grid, modelled in Dafny

padded-grid is a React toolkit that lays grid overlays over a page.

- Column grids (`XGrid`) draw vertical lines or columns.
- Row grids (`YGrid`) draw baseline rows.
- Spacers, padders and boxes keep content on the baseline.

Strip away the hooks and the JSX and what remains is a set of small pure calculations. This project models those calculations and proves what they promise:

- **Column calculator** (`useGridCalculations`): it turns a container width and a line, pattern, fixed or auto configuration into a `grid-template-columns` string, a column count and a gap string. It relies on the configuration union and type guards of `types/hooks.ts` and on the runtime guards of `utils/validation.ts`.
- **CSS value handling** (`utils/units.ts`, `utils/styles.ts`):
  - parsing `<number><unit>`;
  - classifying units and converting them to pixels;
  - formatting numbers as `"<n>px"`;
  - joining class names and merging style objects;
  - rendering responsive values.
- **Baseline snapping**:
  - `MeasurementSystem.normalize` rounds to the nearest multiple of the unit;
  - the spacer hook and the `Spacer` component snap down;
  - `createSpacerSize` accepts only multiples of 8.
- **Padding**: `normalizePadding` turns every padding shape into block and inline pairs. From those pairs, `Padder` emits its spacers and `Box` computes its offsets.
- **Windowing**: the visible-line range of `useVisibleGridLines`, the row count and rows of both `YGrid` components, and `clamp`.
- **Config flow**:
  - the `useGridControls` validation and actions;
  - the `PaddedGrid` reducer, max-width formatting and config effect;
  - `useComponentConfig` and the theme;
  - the `useGridDimensions` update step.

Every `useMemo`/`useCallback` body is a pure function of explicit inputs. Anything the browser supplies is a parameter:

- the container's measured size and top edge;
- `window.innerHeight`;
- the viewport and font sizes `convertToPixels` reads.

Each source file is one Dafny module, under the same name. Three shared modules hold JavaScript and CSS semantics:

- `Js`: optional values, key presence, and numbers that can be NaN or infinite;
- `Text`: `${n}`, `parseInt`, `trim`, `join`, `split`;
- `Css`: CSS values, style objects and arbitrary JavaScript values.

Pixels are integers. `utils/units.ts` works on exact reals.

The repository is in the middle of a refactor: there are two `XGrid`/`YGrid` trees. Each is modelled on its own signature.

Several tests expect the behaviour of another revision; the model follows the code, not those expectations:

- `isValid` flags, `"none"` fallbacks, and a fixed grid reading its column width (`src/lib/hooks/__tests__/useGridCalculations.test.ts`);
- round-to-nearest in `Spacer`.

## Model

| member | source | states |
|---|---|---|
| Js.FloorDiv | src/lib/hooks/useGridCalculations.ts:49 | `Math.floor(a / b)` is the unique q with q·b ≤ a < q·b + b (or the mirrored bounds for b < 0) |
| Js.FloorQuotient | src/lib/hooks/useGridCalculations.ts:93-95 | floor of a quotient of JS numbers: the integer floor for a non-zero divisor, NaN for a NaN operand or 0/0, ±Infinity for a non-zero value over 0 |
| Js.CeilDiv | src/lib/components/Grid/YGrid.tsx:30 | `Math.ceil(a / b)` for a positive divisor is the unique q with q·b − b < a ≤ q·b |
| Js.CeilQuotient | src/lib/components/Grid/YGrid.tsx:30 | ceiling of a quotient of JS numbers: finite for a non-zero divisor, NaN for 0/0, ±Infinity otherwise over 0 |
| Js.Rem | src/lib/components/Box/Box.tsx:19 | the JS remainder `a % b`: NaN exactly for b = 0, smaller than the divisor in magnitude, with the dividend's sign |
| Js.RemMultiple | src/lib/hooks/useSpacerDimensions.ts:21 | subtracting the JS remainder leaves a multiple of b; the remainder is 0 exactly for multiples |
| Js.Min | src/lib/utils/performance.ts:59 | `Math.min`: NaN-propagating; on finite inputs, one of them and at most both |
| Js.Max | src/lib/utils/performance.ts:59 | `Math.max`: NaN-propagating; on finite inputs, one of them and at least both |
| Js.ArrayLength | src/lib/components/Grid/XGrid.tsx:24 | `Array.from({ length: n })` has n elements for 0 ≤ n < 2³² and no elements for NaN or negative lengths; it throws a RangeError exactly for lengths of 2³² or more |
| Text.IntToString | src/lib/utils/styles.ts:20 | `${n}` starts with '-' exactly for negatives and is otherwise all digits |
| Text.NatToStringValue | src/lib/utils/styles.ts:20 | the digits of n read back as n |
| Text.ParseIntOfFormatted | src/lib/hooks/useGridCalculations.ts:46 | `parseInt` of `${n}` followed by any non-digit text, such as "px", gives back n |
| Text.ParseIntNoDigits | src/lib/hooks/useGridCalculations.ts:46 | `parseInt` of text that starts with no space, sign or digit (such as "auto") is NaN |
| Text.SplitJoin | src/lib/utils/styles.ts:8 | joining parts that do not contain the separator, then splitting on it, gives the parts back |
| Text.TrimStart | src/lib/utils/styles.ts:8 | the result is a suffix of the text; everything cut off is white space (the ECMAScript white space and line terminators, the Zs space separators included) and the result does not start with white space; text that starts with no white space is unchanged |
| Text.TrimEnd | src/lib/utils/styles.ts:8 | the result is a prefix of the text; everything cut off is white space and the result does not end with white space; text that ends with no white space is unchanged |
| GridTypes.ToObject | src/lib/types/hooks.ts:20-48 | a line config has neither columns nor columnWidth; an auto config has columnWidth and no columns; a pattern config has a column list; a fixed config has a column count |
| GridTypes.GuardsDiscriminate | src/lib/types/hooks.ts:72-84 | on any config of the union, each of the four guards holds exactly for its own variant |
| GridTypes.ColumnGuardsExclusive | src/lib/types/hooks.ts:78-84 | the pattern and fixed guards never both hold, on any object |
| Validation.ColumnValueValidity | src/lib/utils/validation.ts:11-20 | every number is a valid column value and no non-string non-number is; a string is valid exactly when it is 'auto' or ends with one of the CSS units |
| Validation.ColumnValueExamples | src/lib/utils/validation.ts:11-20 | "100px", "1fr" and "50%" are valid; "invalid", an object and null are not |
| Validation.PatternValidity | src/lib/utils/validation.ts:22-26 | a pattern is valid exactly when both halves of it are; the empty array is valid and a non-array never is |
| Validation.GridValueIsColumnValue | src/lib/utils/validation.ts:28-33 | every grid value is a valid column value, while 'auto' is a column value but not a grid value |
| Validation.AlignmentIff | src/lib/utils/validation.ts:35-36 | a value is an alignment exactly when it is "start", "center" or "end" |
| Validation.ConfigGuardsExclusive | src/lib/utils/validation.ts:38-63 | at most one of the line, column and auto config guards holds for any value |
| Validation.ConfigGuardExamples | src/lib/utils/validation.ts:38-63 | the guards decide by key presence: `{variant:'line'}` is a line config, `{columns:12}` a column config, `{columnWidth:'100px'}` an auto config, and none crosses over |
| GridCalculations.ParseGapValue | src/lib/hooks/useGridCalculations.ts:21-26 | undefined and 'auto' give "auto", a number n gives "npx", any other string is kept |
| GridCalculations.GapParses | src/lib/hooks/useGridCalculations.ts:21-26 | a numeric gap formatted by `parseGapValue` reads back through `parseInt` as the same number; 'auto' reads back as NaN |
| GridCalculations.ParseColumnValue | src/lib/hooks/useGridCalculations.ts:28-35 | a number or string is formatted as a grid value; a responsive object is rendered as a responsive value, and throws exactly when it has a defined entry under a breakpoint |
| GridCalculations.ColumnTexts | src/lib/hooks/useGridCalculations.ts:65 | `columns.map(parseColumnValue)`: one text per column, each the column formatted; it throws exactly when formatting some column throws |
| GridCalculations.CalculateLine | src/lib/hooks/useGridCalculations.ts:42-57 | one 1px track per counted line; the reported gap is the effective gap formatted; an 'auto' gap gives a NaN count |
| GridCalculations.LineColumns | src/lib/hooks/useGridCalculations.ts:47-50 | for a gap g ≥ 0 the count is the number of lines g + 1 pixels apart that fit the width (at least 1); a NaN gap gives NaN |
| GridCalculations.LinesFit | src/lib/hooks/useGridCalculations.ts:47-50 | `max(1, floor(w / step) + 1)` is exactly the fitting line count for step ≥ 1 |
| GridCalculations.LineStep | src/lib/hooks/useGridCalculations.ts:43-50 | a line grid whose effective gap is a number g ≥ 0 draws as many lines as fit g + 1 apart |
| GridCalculations.LineExample | src/lib/hooks/useGridCalculations.ts:42-57 | width 100 with gap 8 gives "repeat(12, 1px)", 12 and "8px" |
| GridCalculations.CalculatePattern | src/lib/hooks/useGridCalculations.ts:59-69 | throws the breakpoint TypeError exactly when some column does; otherwise the count is the token count and the template the formatted tokens joined by single spaces, unvalidated |
| GridCalculations.PatternTokensRecoverable | src/lib/hooks/useGridCalculations.ts:65 | for plain tokens without spaces the pattern does not throw, and splitting the template on spaces gives each formatted token back, in order |
| GridCalculations.CalculateFixed | src/lib/hooks/useGridCalculations.ts:71-81 | N columns give "repeat(N, 1fr)" and count N |
| GridCalculations.FixedIgnoresColumnWidth | src/lib/hooks/useGridCalculations.ts:71-81 | the outcome of a fixed grid is the same whatever columnWidth holds |
| GridCalculations.CalculateAuto | src/lib/hooks/useGridCalculations.ts:83-102 | throws "Column width is required…" for a falsy column width, and the breakpoint TypeError for a width with a defined entry under a breakpoint, and otherwise does not throw; the template repeats the width max(1, count) times; in the numeric case the count is the number of columns that fit |
| GridCalculations.AutoColumns | src/lib/hooks/useGridCalculations.ts:93-95 | `floor((w + g) / (c + g))` is the number n of c-wide columns with gaps g between them that fit in w, n + 1 not fitting |
| GridCalculations.AutoFits | src/lib/hooks/useGridCalculations.ts:93-95 | the quotient meets the fit property whenever c + g > 0 |
| GridCalculations.FitsColumnsUnique | src/lib/hooks/useGridCalculations.ts:93-95 | at most one count fits, so the fit property determines the column count |
| GridCalculations.AutoParses | src/lib/hooks/useGridCalculations.ts:88-91 | with a numeric width and gap, both read back through `parseInt` as those numbers |
| GridCalculations.AutoGapReads | src/lib/hooks/useGridCalculations.ts:88-90 | an undefined or 'auto' gap counts as 0 in the arithmetic while being reported as "auto" |
| GridCalculations.AutoExample | src/lib/hooks/useGridCalculations.ts:83-102 | width 1000, 200px columns and gap 16 give "repeat(4, 200px)", 4 and "16px" |
| GridCalculations.AutoZeroColumns | src/lib/hooks/useGridCalculations.ts:93-101 | width 100 with 200px columns reports 0 columns but a template of one column |
| GridCalculations.AutoCount | src/lib/hooks/useGridCalculations.ts:93-95 | any count that meets the fit property is the reported count |
| GridCalculations.AutoGuardKeys | src/lib/utils/validation.ts:56-63 | the auto guard on the calculator's props holds exactly when columnWidth is present and variant and columns are absent |
| GridCalculations.CalculateGrid | src/lib/hooks/useGridCalculations.ts:104-124 | the line guard is tried first, then pattern, then fixed, then auto; when none holds the answer is "repeat(9, 1fr)", 9, "8px" |
| GridCalculations.ThrowingConfigurations | src/lib/hooks/useGridCalculations.ts:59-116 | the calculator throws exactly for an auto configuration whose column width is falsy or has an entry under a breakpoint, and for a pattern with a column that has one; line and fixed configurations always give a result |
| Units.ParseCssUnit | src/lib/utils/units.ts:56-65 | succeeds exactly when the whole string is a sign, digits and dots, then lower-case letters or '%'; the value is `parseFloat` of the number part and the unit is the rest |
| Units.SplitUnique | src/lib/utils/units.ts:57 | a match of the pattern can split the string at one place only: where the trailing unit run begins |
| Units.ParsePx | src/lib/utils/units.ts:56-65 | a formatted integer followed by "px" parses to that integer and "px" |
| Units.NumberThenUnit | src/lib/utils/units.ts:57-64 | any number part followed by any unit part parses to the number's value and that unit |
| Units.ParseCssUnitAccepts | src/lib/utils/units.ts:56-65 | "100px", "1.5rem", ".8em" and "-50%" parse to 100 px, 1.5 rem, 0.8 em and −50 % |
| Units.ParseCssUnitRejects | src/lib/utils/units.ts:57-58 | "invalid", "px100", "100" and "" give null |
| Units.NoUnitAtEnd | src/lib/utils/units.ts:57-58 | a string that does not end in a unit character gives null |
| Units.NoNumberAtStart | src/lib/utils/units.ts:57-58 | a string that does not start with a sign, digit or dot gives null |
| Units.ParseFloat | src/lib/utils/units.ts:62 | an unsigned string of digits reads as its decimal value |
| Units.ParseFloatFraction | src/lib/utils/units.ts:62 | digits, a dot and more digits read as the integer part plus the fraction over its power of ten |
| Units.UnitToPixels | src/lib/utils/units.ts:99-135 | a unit converts exactly when it is absolute or relative; px is the identity; NaN stays NaN |
| Units.ConvertsByUnitSize | src/lib/utils/units.ts:99-128 | every convertible unit converts by multiplying with the finite pixel size of one such unit |
| Units.AbsoluteSizes | src/lib/utils/units.ts:103-111 | an inch is 96 pixels and a pica 16 |
| Units.FontSizes | src/lib/utils/units.ts:95-117 | em and rem scale by the parent and root font size, each 16 by default |
| Units.ViewportSizes | src/lib/utils/units.ts:119-127 | vh, vmax and % take hundredths of the viewport height, of the larger viewport side and of the parent size |
| Units.AbsoluteIgnoresContext | src/lib/utils/units.ts:101-112 | an absolute unit converts the same whatever the context and the window |
| Units.ConvertToPixels | src/lib/utils/units.ts:84-136 | an unparseable value gives null; a parsed one converts by its unit |
| Units.ConvertibleIffClassified | src/lib/utils/units.ts:195-209 | a value converts to pixels exactly when it is classified absolute or relative, and never both |
| Units.UnitClassesDisjoint | src/lib/utils/units.ts:195-209 | no unit is both absolute and relative |
| Units.GridUnitConverts | src/lib/utils/units.ts:184-187 | of the grid units, % converts and fr does not |
| Units.ConvertPxExample | src/lib/utils/units.ts:101 | "100px" converts to 100 |
| Units.ConvertInchExample | src/lib/utils/units.ts:103 | "1in" converts to 96 |
| Units.ConvertPicaExample | src/lib/utils/units.ts:111 | "1pc" converts to 16 |
| Units.ConvertEmExample | src/lib/utils/units.ts:115 | "1em" converts to 16 without a context |
| Units.ConvertRemExample | src/lib/utils/units.ts:117 | "1rem" follows the root font size: 20 under a 20px root and a 10px parent |
| Units.ConvertVhExample | src/lib/utils/units.ts:119 | "10vh" of a 768px viewport is 76.8 |
| Units.ConvertVmaxExample | src/lib/utils/units.ts:125 | "10vmax" of a 1024×768 viewport is 102.4 |
| Units.ConvertPercentExample | src/lib/utils/units.ts:127 | "100%" of a 1000px parent is 1000 |
| Units.ConvertFrExample | src/lib/utils/units.ts:130-131 | "1fr" does not convert |
| Units.ConvertBareExample | src/lib/utils/units.ts:88-89 | "100" (no unit) does not convert |
| Units.FormatCssValue | src/lib/utils/units.ts:149-174 | a falsy value with a default d gives "dpx"; a number n gives "npx"; a non-empty string is kept; nothing at all gives "0"; the result is never empty |
| Units.ShowReal | src/lib/utils/units.ts:224 | a whole number is written as its integer digits |
| Units.NormalizeGridUnit | src/lib/utils/units.ts:218-227 | a value that does not convert is returned unchanged; a convertible one becomes its pixel size written out and followed by "px": "NaNpx" for NaN, "npx" for a whole n |
| Units.NormalizeGridUnitIdempotent | src/lib/utils/units.ts:218-227 | for a value that is not convertible, or converts to NaN or to a whole number of pixels, normalizing the result again changes nothing |
| Units.NormalizePxFixed | src/lib/utils/units.ts:218-227 | a pixel string is already normal |
| Units.NormalizeFrExample | src/lib/utils/units.ts:218-227 | "1fr" is left alone |
| Units.NormalizeInchExample | src/lib/utils/units.ts:218-227 | "1in" becomes "96px" |
| Styles.Kept | src/lib/utils/styles.ts:8 | the kept class names are non-empty, no more than the arguments, and none at all exactly when no argument is truthy |
| Styles.CombineClassNames | src/lib/utils/styles.ts:6-8 | with no truthy argument the result is "" |
| Styles.CombineClassNamesSplits | src/lib/utils/styles.ts:6-8 | for class names without white space, splitting the result on spaces gives exactly the truthy arguments, in order |
| Styles.JoinedSplits | src/lib/utils/styles.ts:8 | joining such names with single spaces and trimming loses nothing: splitting gives them back |
| Styles.CombineClassNamesExample | src/lib/utils/styles.ts:6-8 | ('a', false, 'b', null, undefined) gives "a b" |
| Styles.CombineStylesKeys | src/lib/utils/styles.ts:10-15 | the merged style has exactly the keys some defined argument has |
| Styles.CombineStylesLastWins | src/lib/utils/styles.ts:10-15 | each key takes its value from the last argument that defines it |
| Styles.CombineStylesSkipsUndefined | src/lib/utils/styles.ts:12-14 | an undefined argument anywhere changes nothing |
| Styles.CombinePair | src/lib/utils/styles.ts:10-15 | merging two styles is map union with the second winning |
| Styles.ParseScalar | src/lib/utils/styles.ts:18-21 | a string is kept, a number n becomes text ending in "px" that reads back as n |
| Styles.ParseGridValue | src/lib/utils/styles.ts:18-21 | a plain value is formatted as above; a responsive object stringifies to "[object Object]" |
| Styles.RenderEntry | src/lib/utils/styles.ts:32-35 | the base entry renders as its formatted value; any other entry reads `GRID.BREAKPOINTS`, which the constants do not define, and throws |
| Styles.RenderEntries | src/lib/utils/styles.ts:30-38 | throws exactly when a defined entry is under a breakpoint; otherwise no more texts than entries, every entry kept, formatted and in order when all are defined, none when all are undefined |
| Styles.ParseResponsiveGridValue | src/lib/utils/styles.ts:23-41 | undefined gives the default; a plain value gives its formatted value; a responsive value throws a TypeError exactly when it has a defined entry under a breakpoint, and otherwise gives a string |
| Styles.ResponsiveBaseOnly | src/lib/utils/styles.ts:29-41 | a responsive value with only a base entry renders like the plain value |
| Styles.ResponsiveUndefinedDropped | src/lib/utils/styles.ts:30-37 | undefined entries are dropped before the breakpoint table is read: a value holding only an undefined entry renders "", and a base entry beside an undefined breakpoint entry renders alone |
| Styles.ResponsiveBreakpointThrows | src/lib/utils/styles.ts:30-38 | a base entry together with a defined breakpoint entry throws, in either order |
| Measurement.RoundToUnit | src/lib/utils/measurement.ts:31 | `Math.round(num / unit) * unit` is a multiple of the unit within half a unit of num (halves going up), and NaN for a zero unit |
| Measurement.NormalizeAt | src/lib/utils/measurement.ts:20-49 | an unreadable value returns the unit and logs an error; a readable one returns its nearest multiple and warns exactly when that differs and warnings are not suppressed |
| Measurement.Normalize | src/lib/utils/measurement.ts:20 | the unit defaults to 8 and suppressWarnings to false |
| Measurement.NormalizeFixesNormalized | src/lib/utils/measurement.ts:31-54 | with a positive unit, normalize returns a readable value unchanged exactly when `isNormalized` holds of it, and then does not warn |
| Measurement.NormalizeIsNormalized | src/lib/utils/measurement.ts:51-54 | whatever normalize returns is normalized |
| Measurement.NormalizeIdempotent | src/lib/utils/measurement.ts:20-49 | normalizing twice gives what normalizing once gives, and the second pass is silent |
| Measurement.NormalizeExamples | src/lib/utils/measurement.ts:31 | at unit 8: 100 → 104, 95 → 96, 94 → 96, each with a warning |
| Measurement.DefaultRound | src/lib/utils/measurement.ts:31 | at the default unit, num goes to 8q exactly when 2·num + 8 lies in [16q, 16q + 16) |
| Measurement.NormalizeUnreadable | src/lib/utils/measurement.ts:22-48 | a string the reader cannot read comes back as the unit 8, with the error logged |
| Measurement.SuppressedIsSilent | src/lib/utils/measurement.ts:33-43 | with warnings suppressed, normalize never warns |
| Measurement.IsNormalizedExamples | src/lib/utils/measurement.ts:51-54 | 96 is normalized at 8 and 95 is not; 95 is at 5 |
| Measurement.PixelTextExamples | src/lib/utils/measurement.ts:20-49 | with "<n>px" text read as n: "96px" at unit 4 is 96 with no warning, and "100px" at the default unit is 104 with a warning |
| Spacing.NormalizeSpacing | src/lib/utils/spacing.ts:9-13 | n gives [n, n]; a tuple is kept; {start, end} gives [start, end] |
| Spacing.NormalizePadding | src/lib/utils/spacing.ts:27-63 | number p gives block [p,p], inline [p,p]; [b,i] gives [b,b],[i,i]; [t,r,b,l] gives [t,b],[l,r]; an object gives [start,end],[left,right] with 0 defaults; without padding each axis defaults to [0,0]; a padding key holding undefined is the TypeError |
| Spacing.PaddingWins | src/lib/utils/spacing.ts:31-57 | with the padding key present, block and inline are ignored |
| Spacing.AxesIndependent | src/lib/utils/spacing.ts:59-62 | without padding, each axis is its own spacing, normalised |
| Spacing.ShorthandMatchesAxes | src/lib/utils/spacing.ts:31-45 | padding p means block p and inline p; padding [b, i] means block b and inline i |
| Performance.Clamp | src/lib/utils/performance.ts:58-59 | never above hi; within [lo, hi] when lo ≤ hi; a value inside is returned unchanged; hi whenever lo > hi |
| Performance.ClampIdempotent | src/lib/utils/performance.ts:58-59 | clamping twice is clamping once when lo ≤ hi |
| Performance.ClampMonotone | src/lib/utils/performance.ts:58-59 | clamp is monotone in the value |
| Performance.ClampExample | src/lib/utils/performance.ts:58-59 | clamp(5, 10, 10) = 10, clamp(15, 0, 10) = 10, clamp(−5, 0, 10) = 0 |
| VisibleLines.InitialRange | src/lib/hooks/useVisibleGridLines.ts:17-20 | the initial range is every line |
| VisibleLines.CalculateRange | src/lib/hooks/useVisibleGridLines.ts:22-35 | with no element, every line; otherwise start ≥ 0 and end ≤ totalLines; start is 0 when the container top is at or below the viewport top; the bounds are the buffered floor and ceiling of the viewport edges over the line height |
| VisibleLines.ViewportTop | src/lib/hooks/useVisibleGridLines.ts:28 | the viewport top is max(0, −top) |
| VisibleLines.RangeStart | src/lib/hooks/useVisibleGridLines.ts:32 | start is max(0, floor(top / lh) − buffer), counted in lines, never negative |
| VisibleLines.RangeEnd | src/lib/hooks/useVisibleGridLines.ts:33 | end is min(total, ceil(bottom / lh) + buffer), never above the total |
| VisibleLines.RangeCoversVisible | src/lib/hooks/useVisibleGridLines.ts:27-34 | every line whose top lies in the viewport is inside the range |
| VisibleLines.RangeReachesWindow | src/lib/hooks/useVisibleGridLines.ts:29-33 | with a non-negative buffer the range reaches at least min(total, ceil(innerHeight / lh)) |
| VisibleLines.RangeExample | src/lib/hooks/useVisibleGridLines.ts:27-34 | a container 400px above the viewport, 16px lines, buffer 2 and a 100px window give [23, 34) |
| GridDimensions.Round | src/lib/hooks/useGridDimensions.ts:21-22 | `Math.round` is the integer within half a unit, halves going up |
| GridDimensions.Update | src/lib/hooks/useGridDimensions.ts:19-29 | the next state is the rounded measurement, and React sees a change exactly when it differs from the previous state |
| GridDimensions.Mount | src/lib/hooks/useGridDimensions.ts:9-13 | without an element the dimensions stay {0, 0} |
| GridDimensions.UpdateIdempotent | src/lib/hooks/useGridDimensions.ts:24-28 | a second report of the same measurement changes nothing |
| GridDimensions.SubPixelInvisible | src/lib/hooks/useGridDimensions.ts:21-28 | measurements that round alike give the same state |
| GridDimensions.UpdateExample | src/lib/hooks/useGridDimensions.ts:19-29 | 100.4 × 49.5 becomes 100 × 50 |
| SpacerDimensions.SnapDown | src/lib/hooks/useSpacerDimensions.ts:21 | `n − n % b` is a multiple of b; for n ≥ 0 and b > 0 it lies in (n − b, n] |
| SpacerDimensions.SnapBounds | src/lib/hooks/useSpacerDimensions.ts:21 | bounds of the JS remainder for either sign of n |
| SpacerDimensions.NormalizeSpacerSize | src/lib/hooks/useSpacerDimensions.ts:19-30 | the result is a multiple of the base (NaN for base 0); it warns exactly when it differs from the input |
| SpacerDimensions.SnapIdempotent | src/lib/hooks/useSpacerDimensions.ts:19-30 | a snapped size snaps to itself without a warning |
| SpacerDimensions.SnapExamples | src/lib/hooks/useSpacerDimensions.ts:19-30 | at base 8: 42 → 40 and 50 → 48 with a warning, 40 → 40 without one, and an unreadable "invalid" → 0 with a warning |
| SpacerDimensions.UseSpacerDimensions | src/lib/hooks/useSpacerDimensions.ts:32-75 | the line variant fills both ways; otherwise a truthy height is snapped and the width fills; else a truthy width is snapped; else both fill |
| SpacerDimensions.OneSideSized | src/lib/hooks/useSpacerDimensions.ts:39-73 | at most one side is a number, and each normalized value is reported exactly when its side is a number |
| SpacerDimensions.HeightFirst | src/lib/hooks/useSpacerDimensions.ts:49-54 | with a truthy height the width argument plays no part |
| SpacerDimensions.ZeroHeightIsAbsent | src/lib/hooks/useSpacerDimensions.ts:49-60 | a height of 0 counts as no height |
| Spacer.CreateSpacerSize | src/lib/components/Spacer/types.ts:8-13 | accepts exactly the multiples of the fixed base 8, unchanged; throws otherwise |
| Spacer.CreateSpacerSizeExamples | src/lib/components/Spacer/types.ts:8-13 | 16 and −24 are accepted, 12 is rejected |
| Spacer.Dimensions | src/lib/components/Spacer/Spacer.tsx:38-58 | the line variant fills both ways; otherwise each truthy side is snapped independently and each falsy side fills |
| Spacer.SnapOrFill | src/lib/components/Spacer/Spacer.tsx:48-49 | a side is a number exactly when it was truthy |
| Spacer.FlatMatchesDefault | src/lib/components/Spacer/Spacer.tsx:46-57 | the flat branch and the default branch compute the same dimensions |
| Spacer.BothSidesSnapped | src/lib/components/Spacer/Spacer.tsx:46-57 | unlike the hook, the component snaps a width given together with a height |
| Spacer.IndicatorCalls | src/lib/components/Spacer/Spacer.tsx:61-77 | the indicator is called only for a visible spacer with an indicator: once per numeric side, height before width |
| Spacer.HiddenByDefault | src/lib/components/Spacer/Spacer.tsx:25 | with the default visibility the indicator is never called |
| Spacer.BaseStyles | src/lib/components/Spacer/Spacer.tsx:79-96 | --padd-spacer-color is set exactly when a non-empty custom colour is given; the size, base and z-index keys are always set |
| Spacer.SpacerStyle | src/lib/components/Spacer/Spacer.tsx:79-96 | the result holds exactly the spacer's keys and the caller's; the caller's keys win, and every spacer key the caller does not set keeps the spacer's own value, so the snapped height and width reach the rendered style unless overridden |
| Spacer.DataVariant | src/lib/components/Spacer/Spacer.tsx:29-34 | the config's variant, else "line" |
| Padder.InlineSpacer | src/lib/components/Padder/Padder.tsx:31-37 | an inline spacer is emitted exactly for a positive inline padding |
| Padder.BlockSpacer | src/lib/components/Padder/Padder.tsx:38-44 | a block spacer is emitted exactly for a positive block padding |
| Padder.Elements | src/lib/components/Padder/Padder.tsx:31-59 | one element per positive side plus the children, which come after the start spacers; every spacer is visible |
| Padder.DrawsPadding | src/lib/components/Padder/Padder.tsx:31-59 | the spacers add up to exactly the positive padding on each axis |
| Padder.NothingToDraw | src/lib/components/Padder/Padder.tsx:31-59 | with no positive side, only the children are emitted |
| Padder.OwnStyle | src/lib/components/Padder/Padder.tsx:26-29 | the padder's own keys are --padder-width and --padder-height |
| Padder.Render | src/lib/components/Padder/Padder.tsx:9-62 | fails exactly when `normalizePadding` does; emits the elements of the normalised padding; its size keys are merged over the caller's style |
| Padder.RenderExample | src/lib/components/Padder/Padder.tsx:31-59 | a padding of 16 gives four 16px spacers around the children, in order |
| Box.Offset | src/lib/components/Box/Box.tsx:19-29 | an offset is the JS remainder of the side by the base unit, in px; "NaNpx" for a zero base |
| Box.OffsetIsRemainder | src/lib/components/Box/Box.tsx:19-29 | for a non-negative side and a positive base, the offset reads back as a number below the base that differs from the side by a multiple of the base |
| Box.OffsetOnGrid | src/lib/components/Box/Box.tsx:19-29 | the offset is "0px" exactly when the side is on the grid |
| Box.NegativeOffset | src/lib/components/Box/Box.tsx:19 | a negative side keeps its sign: −3 at base 8 gives "-3px" |
| Box.ContentStyle | src/lib/components/Box/Box.tsx:25-32 | the content box sets the four offsets, each the JS remainder of its side in px, and its width and height as given |
| Box.ContentBoxStyle | src/lib/components/Box/Box.tsx:18-32 | unless the caller's style sets them, a content box carries its width and height (fit-content by default), and for a positive base each non-negative side's offset reads back as a number below the base that differs from the side by a multiple of it |
| Box.PixelConfig | src/lib/components/Box/Box.tsx:54-57 | inside it, spacer and padder config lookups resolve base unit 1 and a box resolves its themed config |
| Box.Render | src/lib/components/Box/Box.tsx:39-76 | fails exactly when `normalizePadding` does; visibility 'none' (the default) renders the content box with the caller's style winning; any other visibility renders a padder of the same size and padding inside the pixel config |
| Box.ThemedBaseUnit | src/lib/components/Box/Box.tsx:18 | a box's base unit is the theme's 8 |
| Box.ShownDrawsPadding | src/lib/components/Box/Box.tsx:53-61 | a shown box requests its positive padding in full: the spacer sizes its padder asks for add up to the sides on each axis |
| Box.ShownSpacersSnapToEight | src/lib/components/Spacer/Spacer.tsx:20-58 | the spacers of a shown box do not see the pixel config: a 12-pixel padding side is requested as 12 pixels and drawn 8 wide, snapped down to SPACER's base of 8 |
| ConfigContext.UseComponentConfig | src/lib/context/ConfigContext.ts:21-34 | the result has baseUnit and zIndex, holds the theme's and the override's keys, and override keys win |
| ConfigContext.TopLevelShadowed | src/lib/context/ConfigContext.ts:26-30 | the parent's top-level baseUnit and zIndex never reach the result |
| ConfigContext.NoOverrideIsTheme | src/lib/context/ConfigContext.ts:26-31 | with no parent override for the component, the result is the theme's component config |
| ConfigContext.OverrideWins | src/lib/context/ConfigContext.ts:30-31 | a field the parent overrides takes the parent's value |
| Theme.WithRootDefaults | src/lib/context/theme.ts:40-44 | baseUnit and zIndex come first, and the component's own fields override them |
| Theme.ComponentTheme | src/lib/context/theme.ts:38-45 | each component's entry has its own keys plus baseUnit and zIndex |
| Theme.ThemeConfig | src/lib/context/theme.ts:36-46 | THEME carries ROOT's fields, and every component's entry is its config behind the root defaults |
| Theme.ThemeDefaults | src/lib/context/theme.ts:15-46 | every component has base unit 8, z-index 0 and hidden visibility; spacers default to line and padders to flat |
| Theme.OwnFields | src/lib/context/theme.ts:15-34 | no component sets a root field itself; each sets its visibility, and spacer and padder set their variants |
| GridControls.ClampBase | src/lib/hooks/useGridControls.ts:31-33 | the base lies in [1, 16]; inside it is kept; below it becomes 1, above it 16 |
| GridControls.ClampBaseIsClamp | src/lib/hooks/useGridControls.ts:32 | the validation is `clamp(base, 1, 16)` |
| GridControls.GetValidatedConfig | src/lib/hooks/useGridControls.ts:28-39 | the base is defined exactly when given, then clamped; align is kept exactly when it is an alignment; zIndex, maxWidth and all other keys pass through |
| GridControls.ValidateIdempotent | src/lib/hooks/useGridControls.ts:28-39 | validating twice is validating once |
| GridControls.UpdateConfigAction | src/lib/hooks/useGridControls.ts:20-22 | UPDATE_CONFIG carries the payload unchanged |
| GridControls.UpdateStylesAction | src/lib/hooks/useGridControls.ts:24-26 | UPDATE_STYLES carries the payload unchanged |
| GridControls.MaxWidthStyle | src/lib/hooks/useGridControls.ts:56-58 | a number n gives "npx", any other value is kept, undefined stays undefined |
| GridControls.GetGridProps | src/lib/hooks/useGridControls.ts:48-68 | other props are kept; the style holds the caller's keys plus the three grid keys, which override the caller's |
| GridControls.GridKeysWin | src/lib/hooks/useGridControls.ts:53-60 | the grid keys do not depend on the caller's style |
| PaddedGrid.Reduce | src/lib/components/PaddedGrid/PaddedGrid.tsx:24-45 | UPDATE_CONFIG replaces each non-nullish field and keeps the styles; UPDATE_STYLES merges the payload over the styles and keeps the config; any other action changes nothing |
| PaddedGrid.EmptyUpdateIsNoop | src/lib/components/PaddedGrid/PaddedGrid.tsx:26-33 | an empty UPDATE_CONFIG leaves the state as it is |
| PaddedGrid.ReduceIdempotent | src/lib/components/PaddedGrid/PaddedGrid.tsx:24-45 | applying an action twice is applying it once |
| PaddedGrid.GetMaxWidthValue | src/lib/components/PaddedGrid/PaddedGrid.tsx:62-75 | n gives "npx"; a string is kept; nothing gives "none"; a responsive value throws exactly when it has a defined entry under a breakpoint, and otherwise renders, or gives "none" when it renders empty |
| PaddedGrid.InitialMaxWidth | src/lib/components/PaddedGrid/PaddedGrid.tsx:16-22 | the initial state has no max width, so the container starts at "none" |
| PaddedGrid.EffectAsWritten | src/lib/components/PaddedGrid/PaddedGrid.tsx:77-91 | the effect as written dispatches the validated config whenever a validated field differs from the state's, an undefined one included |
| PaddedGrid.NeverSettles | src/lib/components/PaddedGrid/PaddedGrid.tsx:81-89 | a config without a base is dispatched again right after its own dispatch |
| PaddedGrid.Effect | src/lib/components/PaddedGrid/PaddedGrid.tsx:77-91 | the corrected effect dispatches exactly when the dispatch would change the state |
| PaddedGrid.SettlesAfterOneDispatch | src/lib/components/PaddedGrid/PaddedGrid.tsx:81-89 | after one corrected dispatch the same config asks for nothing more |
| PaddedGrid.CorrectedDispatchesLess | src/lib/components/PaddedGrid/PaddedGrid.tsx:81-89 | the corrected effect dispatches only when the original does, and with every field defined the two agree |
| GridXGrid.NumericGap | src/lib/components/Grid/XGrid.tsx:72-73 | a number gap is used as it is; a string that does not convert to pixels falls back to 8 |
| GridXGrid.PxGapIsNumber | src/lib/components/Grid/XGrid.tsx:72 | a gap "npx" counts the same as the number n |
| GridXGrid.LineGap | src/lib/components/Grid/XGrid.tsx:79 | max(0, g − 1): one pixel less, never negative, NaN preserved |
| GridXGrid.BuildConfig | src/lib/components/Grid/XGrid.tsx:71-115 | auto, pattern and fixed get their own configs with their own fields and the gap unchanged; any other variant, undefined included, becomes a line config with the gap one pixel less |
| GridXGrid.LineGapOneLess | src/lib/components/Grid/XGrid.tsx:75-114 | a line grid's gap is one pixel below what another variant gets (0 below one pixel); an unknown variant is built exactly as a line grid |
| GridXGrid.CalculatorIgnoresConfig | src/lib/components/Grid/XGrid.tsx:117-120 | called as written, the calculator answers "repeat(9, 1fr)", 9, "8px" whatever the configuration |
| GridXGrid.CalculateFlat | src/lib/components/Grid/XGrid.tsx:117-120 | called on the flattened configuration, the calculator throws only for a pattern or fixed configuration whose column list has an entry under a breakpoint |
| GridXGrid.FlatLineFits | src/lib/components/Grid/XGrid.tsx:76-81 | a line configuration with a whole gap g ≥ 0 draws as many lines as fit g + 1 apart, and reports the gap |
| GridXGrid.FlatAuto | src/lib/components/Grid/XGrid.tsx:83-89 | an auto configuration still falls back to nine columns: it names a variant, which the auto guard refuses |
| GridXGrid.FlatColumns | src/lib/components/Grid/XGrid.tsx:91-106 | a fixed count N gives N `1fr` columns; a column list that does not throw gives one column per token; the gap is the configured one |
| GridXGrid.ColumnElements | src/lib/components/Grid/XGrid.tsx:24-34 | one element per column, numbered from 0, each a line column exactly for the line variant |
| GridXGrid.PaddingText | src/lib/components/Grid/XGrid.tsx:139 | a string padding is kept; a number reads back from its "npx" text |
| GridXGrid.Render | src/lib/components/Grid/XGrid.tsx:122-155 | as written, whatever the configuration: template "repeat(9, 1fr)" and gap "8px"; visible exactly for 'visible', and then nine column elements numbered 0 to 8, each a line column exactly for the line variant; a hidden grid renders none; the padding follows the configuration |
| GridXGrid.RenderCorrected | src/lib/components/Grid/XGrid.tsx:117-155 | with the calculator called on the flattened configuration: an error exactly when the calculator throws or a visible grid has a count no array holds; otherwise visible exactly for 'visible', gap and template from the calculation, and one element per calculated column when visible |
| GridXGrid.RendersDiffer | src/lib/components/Grid/XGrid.tsx:117-120 | a visible fixed grid of four columns draws nine columns as written and four when the calculator is called on the flattened configuration |
| GridYGrid.RowCount | src/lib/components/Grid/YGrid.tsx:28-31 | the count lies in [1, 1000]; for a positive base the rows cover the height, and one row fewer would not |
| GridYGrid.RowCountClamped | src/lib/components/Grid/YGrid.tsx:30 | the clamped ceiling meets the covering property and the zero-base cases |
| GridYGrid.RowCountCovers | src/lib/components/Grid/YGrid.tsx:30 | the clamped ceiling is the least count in [1, 1000] that covers the height |
| GridYGrid.RowCountOf | src/lib/components/Grid/YGrid.tsx:30 | with a positive base the count is the rounded-up quotient clamped into [1, 1000] |
| GridYGrid.EmptyHeightOneRow | src/lib/components/Grid/YGrid.tsx:30 | a grid with no height still has one row |
| GridYGrid.RowCountExamples | src/lib/components/Grid/YGrid.tsx:28-31 | at base 8: 100px gives 13 rows, 1000px 125, and a very tall grid 1000 |
| GridYGrid.GridHeight | src/lib/components/Grid/YGrid.tsx:42 | a number height reads back from its "npx" text; a string is kept |
| GridYGrid.RowOpacity | src/lib/components/Grid/YGrid.tsx:57 | "0" exactly for even rows of a flat grid, "1" otherwise |
| GridYGrid.OpacityAlternates | src/lib/components/Grid/YGrid.tsx:57 | in a flat grid exactly one of two neighbouring rows is transparent; other grids are opaque |
| GridYGrid.RowStyleOf | src/lib/components/Grid/YGrid.tsx:52-60 | a row has the grid's colour and the opacity above |
| GridYGrid.RowGeometry | src/lib/components/Grid/YGrid.tsx:54-56 | row i's top reads back as i base units; a line row is 1px high, any other one base unit |
| GridYGrid.RowsTile | src/lib/components/Grid/YGrid.tsx:54-56 | rows that are a full base unit high tile the grid: each starts where the one before ends |
| GridYGrid.FlatRowsAlternate | src/lib/components/Grid/YGrid.tsx:57 | the same alternation, on the row styles |
| GridYGrid.VisibleRows | src/lib/components/Grid/YGrid.tsx:63-79 | the loop renders exactly the rows start..end−1, in order, each with its own style |
| GridYGrid.RowsAreWindow | src/lib/components/Grid/YGrid.tsx:63-79 | an index is rendered exactly when it lies in the window |
| GridYGrid.RowWindow | src/lib/components/Grid/YGrid.tsx:33-37 | the window is the visible range over the row count, with lines one base unit high |
| GridYGrid.ContainerStyle | src/lib/components/Grid/YGrid.tsx:39-45 | the container's own keys are exactly --grid-height, --grid-z-index and --grid-row-color: a numeric height reads back as that many pixels, no height gives "100%", the z-index defaults to 0 and the row colour to the line colour |
| GridYGrid.Render | src/lib/components/Grid/YGrid.tsx:11-95 | an absent config is a TypeError, since it is destructured without a default; otherwise the visible class exactly for 'visible' (a hidden grid still renders its rows); the container style is the caller's merged over the container's own, the caller's keys winning; the row count and rows are as above |
| XGrid.AdjustedGap | src/lib/components/XGrid/XGrid.tsx:34-40 | a line grid gets max(0, g − 1) for a numeric gap g and 7 otherwise; any other variant keeps the gap |
| XGrid.CalcPropsOf | src/lib/components/XGrid/XGrid.tsx:48-59 | the calculator always receives a columns value (default 9) and a variant key |
| XGrid.Calculate | src/lib/components/XGrid/XGrid.tsx:48-59 | the line calculator serves the line variant and a column calculator every other, so the auto calculator is never reached; it throws exactly for a column list with an entry under a breakpoint |
| XGrid.LineSpacing | src/lib/components/XGrid/XGrid.tsx:34-59 | a line grid with gap g ≥ 1 draws as many lines as fit g pixels apart |
| XGrid.DefaultLineSpacing | src/lib/components/XGrid/XGrid.tsx:36 | a line grid without a numeric gap draws its lines 8 pixels apart |
| XGrid.AutoVariantIsFixed | src/lib/components/XGrid/XGrid.tsx:48-59 | an 'auto' grid with no columns is drawn as nine `1fr` columns |
| XGrid.ColumnWidth | src/lib/components/XGrid/XGrid.tsx:42-46 | --column-width is "1px" exactly for the line variant, undefined otherwise |
| XGrid.OwnStyle | src/lib/components/XGrid/XGrid.tsx:61-76 | the container's template, gap, column count (`--grid-columns`) and column width come from the calculation and the variant |
| XGrid.Render | src/lib/components/XGrid/XGrid.tsx:29-111 | nothing unless show is true; a TypeError exactly when the calculation or the max width reads the undefined breakpoint table; a RangeError for a count no array holds; otherwise one column element per calculated column, the caller's style wins, and --column-width is "1px" exactly for line unless the caller sets it |
| XGrid.GridColumnsCountsElements | src/lib/components/XGrid/XGrid.tsx:61-108 | unless the caller's style sets it, the --grid-columns text of a shown grid reads back through `parseInt` as the number of column elements; a count that does not read as a non-negative number draws none |
| YGrid.ContainerStyleOf | src/lib/components/YGrid/YGrid.tsx:34-45 | the own keys are exactly --grid-height, opacity and visibility; opacity 1 and 'visible' exactly when shown, 0 and 'hidden' otherwise |
| YGrid.Render | src/lib/components/YGrid/YGrid.tsx:11-93 | null unless show is true (default false); when shown, `style ?? {}` is merged over the container's own style and its keys win, so opacity is 1 and visibility 'visible' only where the caller does not set them; exactly the rows of the visible window |

## Left out

- debounce and rafThrottle (src/lib/utils/performance.ts:9-48) schedule timers and animation frames. That is concurrency rather than logic.
- `round` (src/lib/utils/performance.ts:68-71) depends on IEEE rounding artefacts.
- Observers and listeners (src/lib/hooks/useVisibleGridLines.ts:37-58, src/lib/hooks/useGridDimensions.ts:32-39) are browser I/O. Their measurements (bounding box, top edge, `window.innerHeight`) are parameters.
- `console.warn` and `console.error` become boolean `warned`/`failed` outputs; the message text is not modelled.
- Floating point. Pixels are integers, and `utils/units.ts` works on exact reals. So "10vh" of 768px is exactly 76.8, and the cm, mm and pt factors are the exact decimals 37.8, 3.78 and 1.33.
- Units.ShowReal: `${x}` is exact only for whole numbers and for short fractions. JavaScript's shortest round-trip formatting of arbitrary doubles is not modelled.
- Units.ParseFloat: its contract names only digit strings. Decimals are covered by Units.ParseFloatFraction. Malformed number parts such as "1.2.3" or "." follow the body (leading digits, or NaN) but no lemma names them.
- Units.UnitToPixels: its contract states only when a unit converts. The individual factors are stated by the size lemmas for in, pc, em, rem, vh, vmax and %. The cm, mm, pt, vw and vmin factors are in the body but no lemma names them.
- Styles.CombineClassNames: its own contract covers only the all-falsy case. The full content is stated by Styles.CombineClassNamesSplits, for class names without white space; names containing white space are not characterised.
- Styles.CombineStyles itself carries no contract. Its meaning is stated by Styles.CombineStylesKeys, Styles.CombineStylesLastWins and Styles.CombineStylesSkipsUndefined.
- Text.ParseInt: its contract says only "NaN or finite". Its meaning is stated by Text.ParseIntOfFormatted and Text.ParseIntNoDigits.
- `extractCSSNumber` is not part of this model (it is imported from utils/styles.ts, which does not define it). A number reads as itself; how a string is read is a parameter (`CssReader`). Css.ReadPx, which reads exactly the "<n>px" texts, is one such reading used in examples.
- `isResponsiveValue` is not part of this model; a responsive value is its own constructor.
- `GRID.BREAKPOINTS` does not exist in the constants. The model follows the code: rendering a defined responsive entry under a breakpoint reads a property of undefined and throws a TypeError. The container-query text that branch would build is therefore never produced and is not modelled. The exact TypeError message is not modelled either.
- `parseCSSValue` (used by Spacer) is not part of this model; it is a function parameter.
- `isValidConfig` and `isFlatVariant` are not part of this model; each is a boolean parameter.
- `cx` and `cs` are not part of this model. Class strings are not modelled; `cs` is taken to merge like `combineStyles`.
- The `@utils` guards `isColumnPattern` and `isFixedColumns` (src/lib/hooks/useGridCalculations.ts:109-112) are not part of this model. The dispatch uses the pattern and fixed guards of src/lib/types/hooks.ts:78-84 and the auto guard of src/lib/utils/validation.ts:56-63.
- React rendering, memoisation, CSS-module class names and the JSX tree are out of scope. Views are datatypes that keep the index lists, style maps and visibility the properties talk about. Style objects are maps, so key order is not modelled.
- Units.NormalizeGridUnitIdempotent: covers only values whose pixel size is whole or NaN, because Units.ShowReal is exact only for whole numbers and short fractions.
- GridXGrid.Render: the view keeps the visible class, gap, template, padding and column elements. The colour, alignment, width (through `parseCSSValue`) and z-index properties and the caller's style are not modelled.
- `if (!show) return null` in src/lib/components/XGrid/XGrid.tsx:29 runs before the component's hooks, which breaks React's rules of hooks. The model renders nothing for `show` false and does not model hook ordering.
- The constant tables are inlined: base 8, 9 columns of `1fr`, an 8px gap, base limits [1, 16], row limits [1, 1000], buffer 160.
  - `GRID.DEFAULTS.MAX_WIDTH` does not exist in the constants, so it is undefined.
  - `X_GRID.variant` reads a component variant that does not exist, so Grid/XGrid's variant defaults to undefined and is built as a line grid.
- PaddedGrid.EffectAsWritten: `hasConfigChanged` compares a responsive `maxWidth` by reference (src/lib/components/PaddedGrid/PaddedGrid.tsx:84), and the model compares values structurally. A parent that re-creates an equal responsive object makes the source dispatch one redundant update that the model does not.
- VisibleLines.CalculateRange: no start ≤ end claim. The buffer is counted in lines, so a container scrolled past its end gives start > end.
- The demo app, build and test configuration, setup files and matchers are not library logic.

## Findings

| source | as written | input that shows it | evidently intended | confidence | as-written member | corrected member |
|---|---|---|---|---|---|---|
| src/lib/components/PaddedGrid/PaddedGrid.tsx:81-89 | `hasConfigChanged` compares every validated field with the state's, including fields `getValidatedConfig` leaves undefined. The reducer ignores undefined fields (`??`), so the comparison still finds a change right after the dispatch, and each run of the effect dispatches again. | config `{ align: 'center', zIndex: 0 }` (no base) in any state: `undefined !== state.base` before and after the dispatch | dispatch only when dispatching would change the state | high, not executed | PaddedGrid.NeverSettles | PaddedGrid.SettlesAfterOneDispatch |
| src/lib/components/Grid/XGrid.tsx:117-120 | the calculator is called with `{ containerWidth, config: gridConfig }`, but it reads variant, columns, columnWidth and gap from the top level of its props | `config = { variant: 'fixed', columns: 4 }` gives "repeat(9, 1fr)", 9 columns and "8px" | the calculator sees the configuration's fields (`{ containerWidth, ...gridConfig }`) | high, not executed | GridXGrid.CalculatorIgnoresConfig | GridXGrid.FlatColumns |

=== FILE: box.dfy ===
/** The box of components/Box/Box.tsx: with visibility 'none' a plain
    container whose padding offsets are custom properties; otherwise a
    padder whose spacers draw the padding, under a config that sets the
    spacer and padder base unit to 1. */
module Box {
  import opened Js
  import opened Text
  import opened Css
  import opened Styles
  import opened Spacing
  import opened Theme
  import Padder
  import Spacer
  import SpacerDimensions
  import ConfigContext

  /** The size `width` and `height` default to. */
  const FitContent := Str("fit-content")

  /** The props `Box` reads: size, visibility (default 'none'), the
      caller's style and the padding props in `spacingProps`. */
  datatype BoxProps = BoxProps(
    width: Option<Scalar>,
    height: Option<Scalar>,
    visibility: Option<Visibility>,
    style: Option<Style>,
    spacing: PaddingProps)

  /** `` `${num % baseUnit}px` ``: the JavaScript remainder, which keeps the
      sign of num and is NaN for a zero base. */
  function Offset(num: int, baseUnit: int): (s: string)
    ensures baseUnit == 0 ==> s == "NaNpx"
    ensures baseUnit != 0 ==> s == Px(Rem(num, baseUnit).v)
  {
    NumberToString(Rem(num, baseUnit)) + "px"
  }

  /** With a positive base, the offset of a non-negative side is what is
      left of it above the last whole base unit: it reads back as a number
      below the base that differs from the side by a multiple of the base. */
  lemma OffsetIsRemainder(num: int, baseUnit: int)
    requires num >= 0 && baseUnit > 0
    ensures var o := ReadPx(Offset(num, baseUnit));
            o.Some? && 0 <= o.value < baseUnit && (num - o.value) % baseUnit == 0
  {
    var r := Rem(num, baseUnit).v;
    OffsetReads(num, baseUnit, r);
    RemainderBounds(num, baseUnit, r);
  }

  /** The JavaScript remainder of a non-negative number by a positive base
      is the Euclidean one. */
  lemma RemainderBounds(num: int, baseUnit: int, r: int)
    requires num >= 0 && baseUnit > 0 && r == Rem(num, baseUnit).v
    ensures 0 <= r < baseUnit && (num - r) % baseUnit == 0
  {
    RemMultiple(num, baseUnit);
  }

  /** A side already on the grid, and only such a side, gives "0px". */
  lemma OffsetOnGrid(num: int, baseUnit: int)
    requires num >= 0 && baseUnit > 0
    ensures num % baseUnit == 0 <==> Offset(num, baseUnit) == "0px"
  {
    var r := Rem(num, baseUnit).v;
    RemMultiple(num, baseUnit);
    assert Offset(num, baseUnit) == Px(r);
    ZeroPx();
    if Offset(num, baseUnit) == "0px" {
      PxInjective(r, 0);
    }
  }

  lemma OffsetReads(num: int, baseUnit: int, r: int)
    requires baseUnit != 0 && r == Rem(num, baseUnit).v
    ensures ReadPx(Offset(num, baseUnit)) == Some(r)
  {
    ReadPxOfPx(r);
  }

  lemma ZeroPx()
    ensures Px(0) == "0px"
  {
    assert IntToString(0) == "0";
  }

  /** Two pixel strings are equal only for equal numbers. */
  lemma PxInjective(a: int, b: int)
    requires Px(a) == Px(b)
    ensures a == b
  {
    ReadPxOfPx(a);
    ReadPxOfPx(b);
  }

  /** A negative side keeps its sign: -3 on a base of 8 gives "-3px". */
  lemma NegativeOffset(num: int)
    requires num == -3
    ensures Offset(num, 8) == "-3px"
  {
    assert IntToString(3) == "3";
  }

  /** The content box's own custom properties: the four offsets and the
      size. */
  function ContentStyle(sides: Sides, baseUnit: int, width: Scalar, height: Scalar): (s: Style)
    ensures s.Keys == {"--box-block-start", "--box-block-end", "--box-inline-start", "--box-inline-end", "--box-width", "--box-height"}
    ensures s["--box-block-start"] == SStr(Offset(sides.block.start, baseUnit))
    ensures s["--box-block-end"] == SStr(Offset(sides.block.end, baseUnit))
    ensures s["--box-inline-start"] == SStr(Offset(sides.inline.start, baseUnit))
    ensures s["--box-inline-end"] == SStr(Offset(sides.inline.end, baseUnit))
    ensures s["--box-width"] == SValue(Plain(width)) && s["--box-height"] == SValue(Plain(height))
  {
    map[
      "--box-block-start" := SStr(Offset(sides.block.start, baseUnit)),
      "--box-block-end" := SStr(Offset(sides.block.end, baseUnit)),
      "--box-inline-start" := SStr(Offset(sides.inline.start, baseUnit)),
      "--box-inline-end" := SStr(Offset(sides.inline.end, baseUnit)),
      "--box-width" := SValue(Plain(width)),
      "--box-height" := SValue(Plain(height))]
  }

  /** The config a shown box puts around its padder: it asks for base unit
      1 for spacers and padders. Neither reads it: the padder looks up its
      config and never uses it, and a spacer takes its base unit from its
      own `config` prop, which the padder does not pass (see
      `ShownSpacersSnapToEight`). */
  function PixelConfig(): (c: ConfigContext.ConfigOverride)
    ensures ConfigContext.UseComponentConfig(Some(c), SpacerKey)[BaseUnitField] == FNum(1)
    ensures ConfigContext.UseComponentConfig(Some(c), PadderKey)[BaseUnitField] == FNum(1)
    ensures ConfigContext.UseComponentConfig(Some(c), BoxKey) == ConfigContext.UseComponentConfig(None, BoxKey)
  {
    var c := ConfigContext.ConfigOverride(None, None, PixelOverrides);
    ConfigContext.OverrideWins(c, SpacerKey, BaseUnitField);
    ConfigContext.OverrideWins(c, PadderKey, BaseUnitField);
    ConfigContext.NoOverrideIsTheme(Some(c), BoxKey);
    ConfigContext.NoOverrideIsTheme(None, BoxKey);
    c
  }

  /** The component overrides of the pixel config. */
  function PixelOverrides(key: ComponentKey): Option<Fields> {
    if key == SpacerKey || key == PadderKey then Some(map[BaseUnitField := FNum(1)]) else None
  }

  /** What a box renders: the content box with its style, or a padder
      inside the pixel config. */
  datatype BoxView = ContentBox(style: Style) | Padded(config: ConfigContext.ConfigOverride, padder: Padder.PadderView)

  /** `Box(props)` for a box whose resolved config has the given base unit
      (8 from the theme). None is the TypeError `normalizePadding` raises
      for a `padding` key holding undefined; the box computes the spacing
      whichever way it renders. A shown box hands the padder its size and
      padding props but not its style. */
  function Render(p: BoxProps, baseUnit: int): (r: Option<BoxView>)
    ensures r.None? <==> NormalizePadding(p.spacing).None?
    ensures r.Some? ==> (r.value.Padded? <==> p.visibility.GetOr(VisibilityNone) != VisibilityNone)
    ensures r.Some? && r.value.Padded? ==>
              r.value.config == PixelConfig()
              && Some(r.value.padder) == Padder.Render(Padder.PadderProps(Some(p.width.GetOr(FitContent)), Some(p.height.GetOr(FitContent)), None, p.spacing))
    ensures r.Some? && r.value.ContentBox? ==>
              var sides := NormalizePadding(p.spacing).value;
              var own := ContentStyle(sides, baseUnit, p.width.GetOr(FitContent), p.height.GetOr(FitContent));
              r.value.style.Keys == own.Keys + p.style.GetOr(map[]).Keys
              && (forall k :: k in p.style.GetOr(map[]) ==> r.value.style[k] == p.style.GetOr(map[])[k])
              && (forall k :: k in own && k !in p.style.GetOr(map[]) ==> r.value.style[k] == own[k])
  {
    match NormalizePadding(p.spacing)
    case None => None
    case Some(sides) =>
      var width := p.width.GetOr(FitContent);
      var height := p.height.GetOr(FitContent);
      if p.visibility.GetOr(VisibilityNone) != VisibilityNone then
        var padder := Padder.Render(Padder.PadderProps(Some(width), Some(height), None, p.spacing));
        Some(Padded(PixelConfig(), padder.value))
      else
        var own := ContentStyle(sides, baseUnit, width, height);
        CombinePair(own, p.style.GetOr(map[]));
        Some(ContentBox(CombineStyles([Some(own), Some(p.style.GetOr(map[]))])))
  }

  /** The content box's base unit is the theme's 8 unless a config
      overrides the box's own. */
  lemma ThemedBaseUnit()
    ensures ConfigContext.UseComponentConfig(None, BoxKey)[BaseUnitField] == FNum(8)
  {
    ConfigContext.NoOverrideIsTheme(None, BoxKey);
  }

  /** A shown box asks for its padding in full: the sizes its padder
      requests of its spacers add up to the positive sides on each axis.
      Each spacer then snaps its own size to its base of 8. */
  lemma ShownDrawsPadding(p: BoxProps)
    requires NormalizePadding(p.spacing).Some?
    requires p.visibility.GetOr(VisibilityNone) != VisibilityNone
    ensures var sides := NormalizePadding(p.spacing).value;
            var els := Render(p, 8).value.padder.elements;
            Padder.BlockDrawn(els) == Padder.Positive(sides.block.start) + Padder.Positive(sides.block.end)
            && Padder.InlineDrawn(els) == Padder.Positive(sides.inline.start) + Padder.Positive(sides.inline.end)
  {
    Padder.DrawsPadding(NormalizePadding(p.spacing).value);
  }

  /** The spacers of a shown box do not see the pixel config: with no
      `config` prop a spacer falls back to `SPACER.baseUnit`, 8. A 12-pixel
      inline padding is requested as a 12-pixel spacer and drawn 8 wide,
      snapped down to that base. */
  lemma ShownSpacersSnapToEight(read: CssReader)
    ensures Padder.InlineSpacer(12) == [Padder.SpacerEl(Num(12), Padder.Full, Visible)]
    ensures Spacer.Dimensions(read, Some(PxString("100%")), Some(PxNumber(12)), Spacer.DefaultBaseUnit,
                              SpacerDimensions.SpacerConfig(Missing, None, None, None), false).1
         == SpacerDimensions.Size(Fin(8))
  {
  }

  /** Where the caller's style leaves them alone, a content box's style
      carries the box's size (fit-content by default), and for a positive
      base each non-negative side's offset reads back as that side's
      remainder below the base. */
  lemma ContentBoxStyle(p: BoxProps, baseUnit: int)
    requires Render(p, baseUnit).Some? && Render(p, baseUnit).value.ContentBox?
    ensures var user := p.style.GetOr(map[]);
            var s := Render(p, baseUnit).value.style;
            ("--box-width" !in user ==> s["--box-width"] == SValue(Plain(p.width.GetOr(FitContent))))
            && ("--box-height" !in user ==> s["--box-height"] == SValue(Plain(p.height.GetOr(FitContent))))
    ensures var user := p.style.GetOr(map[]);
            var s := Render(p, baseUnit).value.style;
            var sides := NormalizePadding(p.spacing).value;
            baseUnit > 0 ==>
              ("--box-block-start" !in user && sides.block.start >= 0 ==> OffsetOf(s["--box-block-start"], sides.block.start, baseUnit))
              && ("--box-block-end" !in user && sides.block.end >= 0 ==> OffsetOf(s["--box-block-end"], sides.block.end, baseUnit))
              && ("--box-inline-start" !in user && sides.inline.start >= 0 ==> OffsetOf(s["--box-inline-start"], sides.inline.start, baseUnit))
              && ("--box-inline-end" !in user && sides.inline.end >= 0 ==> OffsetOf(s["--box-inline-end"], sides.inline.end, baseUnit))
  {
    var sides := NormalizePadding(p.spacing).value;
    var own := ContentStyle(sides, baseUnit, p.width.GetOr(FitContent), p.height.GetOr(FitContent));
    OwnUnlessOverridden(Render(p, baseUnit).value.style, own, p.style.GetOr(map[]), sides, baseUnit,
                        p.width.GetOr(FitContent), p.height.GetOr(FitContent));
  }

  lemma OwnUnlessOverridden(s: Style, own: Style, user: Style, sides: Sides, baseUnit: int, width: Scalar, height: Scalar)
    requires own == ContentStyle(sides, baseUnit, width, height)
    requires s.Keys == own.Keys + user.Keys
    requires forall k :: k in own && k !in user ==> s[k] == own[k]
    ensures "--box-width" !in user ==> s["--box-width"] == SValue(Plain(width))
    ensures "--box-height" !in user ==> s["--box-height"] == SValue(Plain(height))
    ensures baseUnit > 0 ==>
              ("--box-block-start" !in user && sides.block.start >= 0 ==> OffsetOf(s["--box-block-start"], sides.block.start, baseUnit))
              && ("--box-block-end" !in user && sides.block.end >= 0 ==> OffsetOf(s["--box-block-end"], sides.block.end, baseUnit))
              && ("--box-inline-start" !in user && sides.inline.start >= 0 ==> OffsetOf(s["--box-inline-start"], sides.inline.start, baseUnit))
              && ("--box-inline-end" !in user && sides.inline.end >= 0 ==> OffsetOf(s["--box-inline-end"], sides.inline.end, baseUnit))
  {
    if baseUnit > 0 {
      OffsetKept(s, own, user, "--box-block-start", sides.block.start, baseUnit);
      OffsetKept(s, own, user, "--box-block-end", sides.block.end, baseUnit);
      OffsetKept(s, own, user, "--box-inline-start", sides.inline.start, baseUnit);
      OffsetKept(s, own, user, "--box-inline-end", sides.inline.end, baseUnit);
    }
  }

  lemma OffsetKept(s: Style, own: Style, user: Style, key: string, num: int, baseUnit: int)
    requires s.Keys == own.Keys + user.Keys
    requires forall k :: k in own && k !in user ==> s[k] == own[k]
    requires key in own && own[key] == SStr(Offset(num, baseUnit)) && baseUnit > 0
    ensures key !in user && num >= 0 ==> OffsetOf(s[key], num, baseUnit)
  {
    if key !in user && num >= 0 {
      OffsetText(s[key], num, baseUnit);
    }
  }

  lemma OffsetText(v: StyleVal, num: int, baseUnit: int)
    requires v == SStr(Offset(num, baseUnit)) && num >= 0 && baseUnit > 0
    ensures OffsetOf(v, num, baseUnit)
  {
    OffsetIsRemainder(num, baseUnit);
  }

  /** A style value is the offset text of side num: a pixel string reading
      back as a number below the base that differs from num by a multiple of
      the base. */
  predicate OffsetOf(v: StyleVal, num: int, baseUnit: int)
    requires baseUnit > 0
  {
    v.SStr? && ReadPx(v.s).Some? && 0 <= ReadPx(v.s).value < baseUnit && (num - ReadPx(v.s).value) % baseUnit == 0
  }
}

=== FILE: config_context.dfy ===
/** Resolving a component's config from the theme and the nearest
    `ConfigContext` (context/ConfigContext.ts). */
module ConfigContext {
  import opened Js
  import opened Theme

  /** `ConfigOverride`: top-level base unit and z-index, and per-component
      partial configs. */
  datatype ConfigOverride = ConfigOverride(baseUnit: Option<int>, zIndex: Option<int>, components: ComponentKey -> Option<Fields>)

  /** `useComponentConfig(key)` with the context value passed in: the
      parent's top-level values (or the theme's), then the theme's
      component defaults, then the parent's component overrides, each
      spread over the last. */
  function UseComponentConfig(parent: Option<ConfigOverride>, key: ComponentKey): (r: Fields)
    ensures BaseUnitField in r && ZIndexField in r
    ensures r.Keys == ComponentTheme(key).Keys + ComponentOverride(parent, key).Keys
    ensures forall f :: f in ComponentOverride(parent, key) ==> r[f] == ComponentOverride(parent, key)[f]
    ensures forall f :: f in ComponentTheme(key) && f !in ComponentOverride(parent, key) ==>
              r[f] == ComponentTheme(key)[f]
  {
    var top := map[
      BaseUnitField := FNum(if parent.Some? then parent.value.baseUnit.GetOr(ThemeConfig().baseUnit) else ThemeConfig().baseUnit),
      ZIndexField := FNum(if parent.Some? then parent.value.zIndex.GetOr(ThemeConfig().zIndex) else ThemeConfig().zIndex)];
    top + ComponentTheme(key) + ComponentOverride(parent, key)
  }

  /** `parentConfig?.[key] || {}` */
  function ComponentOverride(parent: Option<ConfigOverride>, key: ComponentKey): Fields {
    if parent.Some? && parent.value.components(key).Some? then parent.value.components(key).value else map[]
  }

  /** The parent's top-level base unit and z-index never reach the result:
      the theme's component defaults always carry both keys. */
  lemma TopLevelShadowed(parent: ConfigOverride, key: ComponentKey)
    requires parent.components(key).None?
    ensures UseComponentConfig(Some(parent), key)[BaseUnitField] == FNum(RootBaseUnit)
    ensures UseComponentConfig(Some(parent), key)[ZIndexField] == FNum(RootZIndex)
  {
    OwnFields(key);
  }

  /** Without a parent config, or with one that does not override the
      component, the result is the theme's component defaults. */
  lemma NoOverrideIsTheme(parent: Option<ConfigOverride>, key: ComponentKey)
    requires parent.Some? ==> parent.value.components(key).None?
    ensures UseComponentConfig(parent, key) == ComponentTheme(key)
  {
    var t := ComponentTheme(key);
    var r := UseComponentConfig(parent, key);
    assert ComponentOverride(parent, key) == map[];
    assert r.Keys == t.Keys;
  }

  /** A field the parent overrides for the component takes the parent's
      value, whatever the theme says. */
  lemma OverrideWins(parent: ConfigOverride, key: ComponentKey, f: FieldName)
    requires parent.components(key).Some? && f in parent.components(key).value
    ensures f in UseComponentConfig(Some(parent), key)
    ensures UseComponentConfig(Some(parent), key)[f] == parent.components(key).value[f]
  {
    assert ComponentOverride(Some(parent), key) == parent.components(key).value;
  }
}

=== FILE: css.dfy ===
/** The CSS values and style objects the toolkit passes around. */
module Css {
  import opened Js
  import opened Text

  /** `Visibility`: 'none' | 'hidden' | 'visible'. */
  datatype Visibility = VisibilityNone | Hidden | Visible

  /** The breakpoint keys of a responsive value. */
  datatype Breakpoint = Base | Sm | Md | Lg | Xl | Xxl

  /** A CSS value as the toolkit stores it: a number of pixels or a string
      such as "1fr", "100%" or "auto". */
  datatype Scalar = Num(n: int) | Str(s: string)

  /** `ResponsiveValue<T>`: a plain value, or an object keyed by breakpoint.
      The object's entries are listed in insertion order, which is the order
      `Object.entries` reports them in; an entry may hold `undefined`. */
  datatype CssValue = Plain(v: Scalar) | Responsive(entries: seq<(Breakpoint, Option<Scalar>)>)

  /** The value of one property of a React style object. A key can be
      present and hold `undefined`. */
  datatype StyleVal = SStr(s: string) | SNum(n: int) | SValue(v: CssValue) | SUndefined

  type Style = map<string, StyleVal>

  /** An arbitrary JavaScript value, for the guards that take `unknown`.
      Object keys map to their values; a present key may hold undefined. */
  datatype JsVal =
    | JNum(n: int)
    | JStr(s: string)
    | JBool(b: bool)
    | JNull
    | JUndefined
    | JArray(items: seq<JsVal>)
    | JObject(fields: map<string, JsVal>)

  function BreakpointName(b: Breakpoint): string {
    match b
    case Base => "base"
    case Sm => "sm"
    case Md => "md"
    case Lg => "lg"
    case Xl => "xl"
    case Xxl => "xxl"
  }

  function ScalarToJs(v: Scalar): JsVal {
    match v
    case Num(n) => JNum(n)
    case Str(s) => JStr(s)
  }

  /** The JavaScript object a responsive value is. */
  function EntriesToJs(entries: seq<(Breakpoint, Option<Scalar>)>): map<string, JsVal> {
    if |entries| == 0 then map[]
    else
      var last := entries[|entries| - 1];
      EntriesToJs(entries[..|entries| - 1])[BreakpointName(last.0) := if last.1.Some? then ScalarToJs(last.1.value) else JUndefined]
  }

  function CssToJs(v: CssValue): JsVal {
    match v
    case Plain(s) => ScalarToJs(s)
    case Responsive(entries) => JObject(EntriesToJs(entries))
  }

  /** The sizes that `extractCSSNumber` reads: a number, or a string. */
  datatype PixelValue = PxNumber(n: int) | PxString(s: string)

  /** How `extractCSSNumber` reads a string. That helper is not part of this
      model, so every member that depends on it takes its reading of strings
      as a parameter; `null` is None. */
  type CssReader = string -> Option<int>

  /** `extractCSSNumber(v)`: a number reads as itself, a string as the
      reader says. */
  function ExtractCssNumber(read: CssReader, v: PixelValue): (r: Option<int>)
    ensures v.PxNumber? ==> r == Some(v.n)
  {
    match v
    case PxNumber(n) => Some(n)
    case PxString(s) => read(s)
  }

  /** The integer a pixel text `${n}px` stands for, and None for any other
      text. The model states what its own formatted sizes mean through it. */
  function ReadPx(s: string): (r: Option<int>)
    ensures r.Some? ==> EndsWith(s, "px")
  {
    if EndsWith(s, "px") then
      var digits := s[..|s| - 2];
      var n := ParseInt(digits);
      if n.Fin? && IntToString(n.v) == digits then Some(n.v)
      else None
    else None
  }

  /** A formatted pixel size reads back as the integer it was made from. */
  lemma ReadPxOfPx(n: int)
    ensures ReadPx(Px(n)) == Some(n)
  {
    var s := Px(n);
    assert s[..|s| - 2] == IntToString(n);
    ParseIntOfFormatted(n, "");
    assert IntToString(n) + "" == IntToString(n);
  }

  /** Conversely, a text is read only when it is the formatted pixel size
      of what it reads as. */
  lemma ReadPxOnlyPx(s: string)
    requires ReadPx(s).Some?
    ensures s == Px(ReadPx(s).value)
  {
    assert s == s[..|s| - 2] + "px";
  }
}

=== FILE: grid_calculations.dfy ===
/** The column-grid calculator (hooks/useGridCalculations.ts): from the
    container width and the grid props to a `grid-template-columns` string,
    a column count and a gap string. */
module GridCalculations {
  import opened Js
  import opened Text
  import opened Css
  import opened Styles
  import opened Validation
  import opened GridTypes

  /** `GridCalculationProps`, the keys the calculator reads. */
  datatype CalcProps = CalcProps(
    containerWidth: int,
    gap: Slot<CssValue>,
    columns: Slot<Columns>,
    variant: Slot<string>,
    columnWidth: Slot<CssValue>,
    baseFromConfig: Option<int>)

  /** `GridCalculationResult` */
  datatype CalcResult = CalcResult(template: string, count: Number, gap: string)

  /** The calculator either returns a result or throws. */
  datatype Outcome = Ok(result: CalcResult) | Throws(message: string)

  /** `GRID.DEFAULTS.BASE` */
  const DefaultBase := 8
  /** `GRID.DEFAULTS.COLUMNS` */
  const DefaultColumns := 9
  /** `GRID.DEFAULTS.GAP` */
  const DefaultGap := 8

  function PropsObject(p: CalcProps): GridObject {
    GridObject(p.variant, p.columns, p.columnWidth, p.gap)
  }

  /** The JavaScript object the props are, as far as the config guards of
      the validation utilities look at it. */
  function PropsJs(p: CalcProps): JsVal {
    var m0: map<string, JsVal> := map[];
    var m1 := if p.variant.Present() then m0["variant" := if p.variant.Has? then JStr(p.variant.value) else JUndefined] else m0;
    var m2 := if p.columns.Present() then m1["columns" := if p.columns.Has? then ColumnsJs(p.columns.value) else JUndefined] else m1;
    var m3 := if p.columnWidth.Present() then m2["columnWidth" := if p.columnWidth.Has? then CssToJs(p.columnWidth.value) else JUndefined] else m2;
    JObject(m3)
  }

  function ColumnsJs(c: Columns): JsVal {
    match c
    case ColumnCount(n) => JNum(n)
    case ColumnPattern(items) => JArray(seq(|items|, i requires 0 <= i < |items| => CssToJs(items[i])))
  }

  /** The auto guard is decided by key presence alone. */
  lemma AutoGuardKeys(p: CalcProps)
    ensures IsAutoCalculatedGrid(PropsJs(p)) <==>
              p.columnWidth.Present() && !p.variant.Present() && !p.columns.Present()
  {
  }

  /** `parseGapValue(gap)`: undefined and 'auto' give "auto"; anything else
      is formatted by `parseGridValue`. */
  function ParseGapValue(gap: Option<CssValue>): (r: string)
    ensures gap.None? || gap == Some(Plain(Str("auto"))) ==> r == "auto"
    ensures gap.Some? && gap.value.Plain? && gap.value.v.Num? ==> r == Px(gap.value.v.n)
    ensures gap.Some? && gap.value.Plain? && gap.value.v.Str? ==> r == gap.value.v.s
  {
    match gap
    case None => "auto"
    case Some(Plain(Str("auto"))) => "auto"
    case Some(v) => ParseGridValue(v)
  }

  /** The message of the TypeError `parseResponsiveGridValue` raises when
      it indexes the undefined `GRID.BREAKPOINTS`. */
  const BreakpointsMessage := "Cannot read properties of undefined"

  /** `parseColumnValue(column)`: a number or string by `parseGridValue`,
      a responsive value by `parseResponsiveGridValue`. None is the
      TypeError of a responsive entry under a breakpoint. */
  function ParseColumnValue(c: CssValue): (r: Option<string>)
    ensures c.Plain? ==> r == Some(ParseScalar(c.v))
    ensures r.None? <==> c.Responsive? && ReadsBreakpoints(c.entries)
    ensures c.Responsive? && r.Some? ==> ParseResponsiveGridValue(Some(c), None) == Rendered(r)
  {
    match c
    case Plain(s) => Some(ParseScalar(s))
    case Responsive(_) =>
      match ParseResponsiveGridValue(Some(c), None)
      case Rendered(t) => t
      case BreakpointsUndefined => None
  }

  /** `columns.map(parseColumnValue)`: each column formatted, in order;
      None when formatting one of them throws. */
  function ColumnTexts(items: seq<CssValue>): (r: Option<seq<string>>)
    ensures r.None? <==> exists i :: 0 <= i < |items| && ParseColumnValue(items[i]).None?
    ensures r.Some? ==> |r.value| == |items| && forall i :: 0 <= i < |items| ==> Some(r.value[i]) == ParseColumnValue(items[i])
  {
    if |items| == 0 then Some([])
    else
      var rest := ColumnTexts(items[1..]);
      assert forall i :: 1 <= i < |items| ==> items[i] == items[1..][i - 1];
      assert (exists i :: 0 <= i < |items[1..]| && ParseColumnValue(items[1..][i]).None?) ==>
               exists i :: 0 <= i < |items| && ParseColumnValue(items[i]).None? by {
        if exists i :: 0 <= i < |items[1..]| && ParseColumnValue(items[1..][i]).None? {
          var i :| 0 <= i < |items[1..]| && ParseColumnValue(items[1..][i]).None?;
          assert items[i + 1] == items[1..][i];
        }
      }
      match ParseColumnValue(items[0])
      case None => None
      case Some(t) => if rest.None? then None else Some([t] + rest.value)
  }

  function Repeat(count: Number, track: string): string {
    "repeat(" + NumberToString(count) + ", " + track + ")"
  }

  /** n lines, step pixels apart, are as many as fit in width w: the last
      one is still inside, one more would not be. */
  predicate FitsLines(w: int, step: int, n: int) {
    n >= 1 && (w >= 0 ==> Times(n - 1, step) <= w < Times(n - 1, step) + step) && (w < 0 ==> n == 1)
  }

  /** The gap a line grid works with: the props' gap, else the base from
      the config, else 8. */
  function LineGap(p: CalcProps): CssValue {
    match p.gap.Read()
    case Some(g) => g
    case None => Plain(Num(p.baseFromConfig.GetOr(DefaultBase)))
  }

  /** `calculateLineVariant()`: one 1px track per line, lines (gap + 1)px
      apart across the container. */
  function CalculateLine(p: CalcProps): (r: CalcResult)
    ensures r.template == Repeat(r.count, "1px")
    ensures r.gap == ParseGapValue(Some(LineGap(p)))
    ensures LineGap(p) == Plain(Str("auto")) ==> r.count.NaN?
  {
    var effectiveGap := ParseGapValue(Some(LineGap(p)));
    var numericGap := ParseInt(effectiveGap);
    var columns := LineColumns(p.containerWidth, numericGap);
    GapParses(LineGap(p));
    CalcResult(Repeat(columns, "1px"), columns, effectiveGap)
  }

  /** `Math.max(1, Math.floor(width / (gap + 1)) + 1)`: for a gap g >= 0,
      the number of lines (g + 1)px apart that fit the width; NaN for a gap
      that did not parse. */
  function LineColumns(w: int, numericGap: Number): (r: Number)
    ensures numericGap.Fin? && numericGap.v >= 0 ==> r.Fin? && FitsLines(w, numericGap.v + 1, r.v)
    ensures numericGap.NaN? ==> r.NaN?
  {
    var columns := Max(Fin(1), Add(FloorQuotient(Fin(w), Add(numericGap, Fin(1))), Fin(1)));
    assert numericGap.Fin? && numericGap.v >= 0 ==> columns.Fin? && FitsLines(w, numericGap.v + 1, columns.v) by {
      if numericGap.Fin? && numericGap.v >= 0 {
        LinesFit(w, numericGap.v + 1, FloorDiv(w, numericGap.v + 1), columns);
      }
    }
    columns
  }

  lemma LinesFit(w: int, step: int, q: int, n: Number)
    requires step >= 1 && q == FloorDiv(w, step) && n == Max(Fin(1), Fin(q + 1))
    ensures n.Fin? && FitsLines(w, step, n.v)
  {
    FloorDivSign(w, step);
    TimesMul(q, step);
  }

  /** A line grid whose gap is the number step - 1 >= 0 draws as many
      lines as fit the width step pixels apart. */
  lemma LineStep(p: CalcProps, step: int)
    requires LineGap(p) == Plain(Num(step - 1)) && step >= 1
    ensures CalculateLine(p).count.Fin?
    ensures FitsLines(p.containerWidth, step, CalculateLine(p).count.v)
  {
    NumericGapParses(step - 1);
    LineColumnsStep(p.containerWidth, step - 1, step, CalculateLine(p).count);
  }

  lemma LineColumnsStep(w: int, k: int, step: int, n: Number)
    requires k >= 0 && step == k + 1 && n == LineColumns(w, Fin(k))
    ensures n.Fin? && FitsLines(w, step, n.v)
  {
    FitsLinesSame(w, k + 1, step, n.v);
  }

  lemma FitsLinesSame(w: int, a: int, b: int, n: int)
    requires a == b && FitsLines(w, a, n)
    ensures FitsLines(w, b, n)
  {
  }

  /** A numeric gap reads back as its number, and 'auto' as NaN. */
  lemma GapParses(g: CssValue)
    ensures g.Plain? && g.v.Num? ==> ParseInt(ParseGapValue(Some(g))) == Fin(g.v.n)
    ensures g == Plain(Str("auto")) ==> ParseInt(ParseGapValue(Some(g))).NaN?
  {
    if g.Plain? && g.v.Num? {
      NumericGapParses(g.v.n);
    }
    if g == Plain(Str("auto")) {
      AutoGapParses(g.v.s);
    }
  }

  lemma NumericGapParses(n: int)
    ensures ParseInt(ParseGapValue(Some(Plain(Num(n))))) == Fin(n)
  {
    ParseIntOfFormatted(n, "px");
  }

  lemma AutoGapParses(s: string)
    requires s == "auto"
    ensures ParseInt(ParseGapValue(Some(Plain(Str(s))))).NaN?
  {
    ParseIntNoDigits(s);
  }

  /** `calculateColumnPattern()`: the columns formatted one by one and
      joined by single spaces; the tokens are not validated here. */
  function CalculatePattern(p: CalcProps, items: seq<CssValue>): (r: Outcome)
    ensures r.Throws? <==> exists i :: 0 <= i < |items| && ParseColumnValue(items[i]).None?
    ensures r.Throws? ==> r.message == BreakpointsMessage
    ensures r.Ok? ==> r.result.count == Fin(|items|) && r.result.gap == ParseGapValue(p.gap.Read())
    ensures r.Ok? ==> r.result.template == Join(ColumnTexts(items).value, " ")
  {
    match ColumnTexts(items)
    case None => Throws(BreakpointsMessage)
    case Some(texts) => Ok(CalcResult(Join(texts, " "), Fin(|items|), ParseGapValue(p.gap.Read())))
  }

  /** `calculateFixedColumns()`: N equal `1fr` tracks. */
  function CalculateFixed(p: CalcProps, n: int): (r: CalcResult)
    ensures r.count == Fin(n)
    ensures r.template == Repeat(Fin(n), "1fr")
    ensures r.gap == ParseGapValue(p.gap.Read())
  {
    CalcResult(Repeat(Fin(n), "1fr"), Fin(n), ParseGapValue(p.gap.Read()))
  }

  /** `!value` for a CSS value: undefined, 0 and "" are falsy, objects are
      not. */
  predicate FalsyCss(v: Option<CssValue>) {
    v.None? || v == Some(Plain(Num(0))) || v == Some(Plain(Str("")))
  }

  /** `calculateAutoGrid()`: as many columns of the given width as fit with
      the gap between them; 'auto' gap counts as 0 but is reported as
      "auto". The template never asks for fewer than one track, but the
      reported count can be 0. */
  function CalculateAuto(p: CalcProps): (r: Outcome)
    ensures r.Throws? <==> FalsyCss(p.columnWidth.Read()) || (p.columnWidth.Has? && ParseColumnValue(p.columnWidth.value).None?)
    ensures FalsyCss(p.columnWidth.Read()) ==> r == Throws("Column width is required for auto calculated grid")
    ensures r.Ok? ==> p.columnWidth.Has? && r.result.gap == ParseGapValue(p.gap.Read())
    ensures r.Ok? ==> r.result.template == Repeat(Max(Fin(1), r.result.count), ParseColumnValue(p.columnWidth.value).value)
    ensures r.Ok? && NumericAuto(p) ==>
              r.result.count.Fin? &&
              FitsColumns(p.containerWidth, AutoGap(p), p.columnWidth.value.v.n, r.result.count.v)
  {
    if FalsyCss(p.columnWidth.Read()) then Throws("Column width is required for auto calculated grid")
    else
      var parsedGap := ParseGapValue(p.gap.Read());
      match ParseColumnValue(p.columnWidth.value)
      case None => Throws(BreakpointsMessage)
      case Some(parsedWidth) =>
        var numericGap := ParseInt(if parsedGap == "auto" then "0" else parsedGap);
        var numericWidth := ParseInt(parsedWidth);
        AutoParses(p);
        var columns := AutoColumns(p.containerWidth, numericGap, numericWidth);
        assert NumericAuto(p) ==> columns.Fin? && FitsColumns(p.containerWidth, AutoGap(p), p.columnWidth.value.v.n, columns.v) by {
          if NumericAuto(p) {
            AutoFits(p.containerWidth, AutoGap(p), p.columnWidth.value.v.n, numericGap, numericWidth, columns);
          }
        }
        Ok(CalcResult(Repeat(Max(Fin(1), columns), parsedWidth), columns, parsedGap))
  }

  /** The column width is a number, the gap a non-negative number or
      absent or 'auto', and a column with its gap is at least a pixel. */
  predicate NumericAuto(p: CalcProps) {
    p.columnWidth.Has? && p.columnWidth.value.Plain? && p.columnWidth.value.v.Num?
    && (p.gap.Read().None? || p.gap.Read() == Some(Plain(Str("auto"))) || (p.gap.Read().value.Plain? && p.gap.Read().value.v.Num?))
    && AutoGap(p) >= 0 && p.columnWidth.value.v.n + AutoGap(p) > 0
  }

  /** n columns of width c with gap g between them fit in w, and n + 1 do
      not: n (c + g) <= w + g < (n + 1) (c + g). */
  predicate FitsColumns(w: int, g: int, c: int, n: int) {
    Times(n, c + g) <= w + g < Times(n, c + g) + (c + g)
  }

  /** The gap the auto calculation works with: a number as it is, 'auto'
      or an absent gap as 0. */
  function AutoGap(p: CalcProps): int {
    match p.gap.Read()
    case Some(Plain(Num(g))) => g
    case _ => 0
  }

  /** `Math.floor((width + gap) / (columnWidth + gap))` */
  function AutoColumns(w: int, numericGap: Number, numericWidth: Number): (r: Number)
    ensures numericGap.Fin? && numericWidth.Fin? && numericWidth.v + numericGap.v > 0 ==>
              r.Fin? && FitsColumns(w, numericGap.v, numericWidth.v, r.v)
  {
    var r := FloorQuotient(Add(Fin(w), numericGap), Add(numericWidth, numericGap));
    assert numericGap.Fin? && numericWidth.Fin? && numericWidth.v + numericGap.v > 0 ==>
             r.Fin? && FitsColumns(w, numericGap.v, numericWidth.v, r.v) by {
      if numericGap.Fin? && numericWidth.Fin? && numericWidth.v + numericGap.v > 0 {
        TimesMul(r.v, numericWidth.v + numericGap.v);
      }
    }
    r
  }

  lemma AutoFits(w: int, g: int, c: int, numericGap: Number, numericWidth: Number, columns: Number)
    requires numericGap == Fin(g) && numericWidth == Fin(c) && c + g > 0
    requires columns == AutoColumns(w, numericGap, numericWidth)
    ensures columns.Fin? && FitsColumns(w, g, c, columns.v)
  {
  }

  /** In the numeric case the width and the gap read back as numbers. */
  lemma AutoParses(p: CalcProps)
    ensures NumericAuto(p) ==>
              var parsedGap := ParseGapValue(p.gap.Read());
              ParseInt(if parsedGap == "auto" then "0" else parsedGap) == Fin(AutoGap(p))
              && ParseColumnValue(p.columnWidth.value).Some? && ParseInt(ParseColumnValue(p.columnWidth.value).value) == Fin(p.columnWidth.value.v.n)
  {
    if NumericAuto(p) {
      AutoGapReads(p);
    }
  }

  lemma AutoGapReads(p: CalcProps)
    requires p.gap.Read().None? || p.gap.Read() == Some(Plain(Str("auto"))) || (p.gap.Read().value.Plain? && p.gap.Read().value.v.Num?)
    ensures var parsedGap := ParseGapValue(p.gap.Read());
            ParseInt(if parsedGap == "auto" then "0" else parsedGap) == Fin(AutoGap(p))
  {
    if p.gap.Read().Some? && p.gap.Read().value.Plain? && p.gap.Read().value.v.Num? {
      var g := p.gap.Read().value.v.n;
      NumericGapParses(g);
      assert ParseGapValue(p.gap.Read()) != "auto";
    } else {
      ZeroParses();
    }
  }

  lemma ZeroParses()
    ensures ParseInt("0") == Fin(0)
  {
    ParseIntOfFormatted(0, "");
    assert IntToString(0) + "" == "0";
  }

  /** `useGridCalculations(props)`: the first guard that holds picks the
      calculator, in the order line, pattern, fixed, auto; with none the
      result is nine `1fr` columns with an 8px gap. */
  function CalculateGrid(p: CalcProps): (r: Outcome)
    ensures IsLineVariant(PropsObject(p)) ==> r == Ok(CalculateLine(p))
    ensures !IsLineVariant(PropsObject(p)) && IsPatternVariant(PropsObject(p)) ==>
              r == CalculatePattern(p, p.columns.value.items)
    ensures !IsLineVariant(PropsObject(p)) && IsFixedVariant(PropsObject(p)) ==>
              r == Ok(CalculateFixed(p, p.columns.value.count))
    ensures NoColumnGuard(p) && IsAutoCalculatedGrid(PropsJs(p)) ==> r == CalculateAuto(p)
    ensures NoColumnGuard(p) && !IsAutoCalculatedGrid(PropsJs(p)) ==>
              r == Ok(CalcResult("repeat(9, 1fr)", Fin(DefaultColumns), "8px"))
  {
    var o := PropsObject(p);
    if IsLineVariant(o) then Ok(CalculateLine(p))
    else if IsPatternVariant(o) then CalculatePattern(p, p.columns.value.items)
    else if IsFixedVariant(o) then Ok(CalculateFixed(p, p.columns.value.count))
    else if IsAutoCalculatedGrid(PropsJs(p)) then CalculateAuto(p)
    else
      assert IntToString(DefaultColumns) == "9";
      assert IntToString(DefaultGap) == "8";
      assert Repeat(Fin(DefaultColumns), "1fr") == "repeat(9, 1fr)";
      assert Px(DefaultGap) == "8px";
      Ok(CalcResult(Repeat(Fin(DefaultColumns), "1fr"), Fin(DefaultColumns), Px(DefaultGap)))
  }

  /** Neither the line guard nor a column guard holds. */
  predicate NoColumnGuard(p: CalcProps) {
    !IsLineVariant(PropsObject(p)) && !IsPatternVariant(PropsObject(p)) && !IsFixedVariant(PropsObject(p))
  }

  /** The calculator throws for exactly two kinds of configuration: an
      auto one whose column width is missing or has an entry under a
      breakpoint, and a pattern with a column that has one. A line or
      fixed configuration always yields a result. */
  lemma ThrowingConfigurations(p: CalcProps)
    ensures CalculateGrid(p).Throws? <==>
              (!IsLineVariant(PropsObject(p)) && !p.columns.Present() && !p.variant.Present() && p.columnWidth.Present()
               && (FalsyCss(p.columnWidth.Read()) || (p.columnWidth.Has? && ParseColumnValue(p.columnWidth.value).None?)))
              || (!IsLineVariant(PropsObject(p)) && IsPatternVariant(PropsObject(p))
                  && exists i :: 0 <= i < |p.columns.value.items| && ParseColumnValue(p.columns.value.items[i]).None?)
    ensures IsLineVariant(PropsObject(p)) || (!IsPatternVariant(PropsObject(p)) && IsFixedVariant(PropsObject(p))) ==>
              CalculateGrid(p).Ok?
  {
    AutoGuardKeys(p);
  }

  /** A fixed grid ignores the column width. */
  lemma FixedIgnoresColumnWidth(p: CalcProps, w: Slot<CssValue>)
    requires !IsLineVariant(PropsObject(p)) && IsFixedVariant(PropsObject(p))
    ensures CalculateGrid(p.(columnWidth := w)) == CalculateGrid(p)
  {
  }

  /** For a pattern of plain values without spaces, splitting the template
      at the spaces gives back each column's own formatting, one per
      column. */
  lemma PatternTokensRecoverable(p: CalcProps, items: seq<CssValue>)
    requires |items| > 0
    requires forall i :: 0 <= i < |items| ==> items[i].Plain? && NoSpaceIn(ParseScalar(items[i].v))
    ensures CalculatePattern(p, items).Ok?
    ensures Split(CalculatePattern(p, items).result.template, ' ') ==
              seq(|items|, i requires 0 <= i < |items| => ParseScalar(items[i].v))
  {
    var parts := seq(|items|, i requires 0 <= i < |items| => ParseScalar(items[i].v));
    assert forall i :: 0 <= i < |items| ==> ParseColumnValue(items[i]) == Some(parts[i]);
    var texts := ColumnTexts(items);
    assert texts.Some?;
    assert texts.value == parts;
    SplitJoin(parts, ' ');
  }

  predicate NoSpaceIn(s: string) {
    forall j :: 0 <= j < |s| ==> s[j] != ' '
  }

  /** Width 100 with an 8px line gap: lines 9px apart, twelve of them. */
  lemma LineExample(p: CalcProps)
    requires p == CalcProps(100, Has(Plain(Num(8))), Missing, Has("line"), Missing, None)
    ensures CalculateGrid(p) == Ok(CalcResult("repeat(12, 1px)", Fin(12), "8px"))
  {
    LineExampleResult(p);
    LineExampleText();
  }

  lemma LineExampleResult(p: CalcProps)
    requires p == CalcProps(100, Has(Plain(Num(8))), Missing, Has("line"), Missing, None)
    ensures CalculateGrid(p) == Ok(CalcResult(Repeat(Fin(12), "1px"), Fin(12), Px(8)))
  {
    assert IsLineVariant(PropsObject(p));
    assert LineGap(p) == Plain(Num(8));
    LineTwelve(p.containerWidth);
    LineOf(p, LineGap(p).v.n, Fin(12));
  }

  /** A line grid with a numeric gap: its count is the line count for
      that gap and its gap the gap in pixels. */
  lemma LineOf(p: CalcProps, gap: int, n: Number)
    requires LineGap(p) == Plain(Num(gap)) && n == LineColumns(p.containerWidth, Fin(gap))
    ensures CalculateLine(p) == CalcResult(Repeat(n, "1px"), n, Px(gap))
  {
    NumericGapParses(gap);
  }

  lemma LineExampleText()
    ensures Repeat(Fin(12), "1px") == "repeat(12, 1px)" && Px(8) == "8px"
  {
    Literals();
    RepeatText(12, "12", "1px");
  }

  lemma RepeatText(n: int, digits: string, track: string)
    requires IntToString(n) == digits
    ensures Repeat(Fin(n), track) == "repeat(" + digits + ", " + track + ")"
  {
  }

  lemma LineTwelve(w: int)
    requires w == 100
    ensures LineColumns(w, Fin(8)) == Fin(12)
  {
    NinthOf(w, Fin(w), Add(Fin(8), Fin(1)));
  }

  /** 100 / 9 floors to 11, with the operands passed in so that no
      literal call unfolds the recursive quotient. */
  lemma NinthOf(w: int, a: Number, b: Number)
    requires w == 100 && a == Fin(w) && b == Fin(9)
    ensures FloorQuotient(a, b) == Fin(11)
  {
    FloorDivUnique(w, 9, 11);
  }

  /** The decimal forms of the integers, and the template texts, that the
      examples use. */
  lemma Literals()
    ensures IntToString(0) == "0" && IntToString(1) == "1" && IntToString(4) == "4"
    ensures IntToString(8) == "8" && IntToString(12) == "12" && IntToString(16) == "16"
    ensures IntToString(200) == "200" && Px(16) == "16px" && Px(200) == "200px"
    ensures "repeat(" + "12" + ", " + "1px" + ")" == "repeat(12, 1px)"
    ensures "repeat(" + "4" + ", " + "200px" + ")" == "repeat(4, 200px)"
    ensures "repeat(" + "1" + ", " + "200px" + ")" == "repeat(1, 200px)"
  {
    assert NatToString(12) == NatToString(1) + [DigitChar(2)];
    assert NatToString(16) == NatToString(1) + [DigitChar(6)];
    assert NatToString(200) == NatToString(20) + [DigitChar(0)];
    assert NatToString(20) == NatToString(2) + [DigitChar(0)];
  }

  /** Width 1000, 200px columns and a 16px gap: four columns. */
  lemma AutoExample(p: CalcProps)
    requires p == CalcProps(1000, Has(Plain(Num(16))), Missing, Missing, Has(Plain(Num(200))), None)
    ensures CalculateGrid(p) == Ok(CalcResult("repeat(4, 200px)", Fin(4), "16px"))
  {
    AutoGuardKeys(p);
    assert NoColumnGuard(p);
    AutoFour(p);
  }

  lemma AutoFour(p: CalcProps)
    requires p == CalcProps(1000, Has(Plain(Num(16))), Missing, Missing, Has(Plain(Num(200))), None)
    ensures CalculateAuto(p) == Ok(CalcResult("repeat(4, 200px)", Fin(4), "16px"))
  {
    assert NumericAuto(p);
    AutoCount(p, 1000, 16, 4);
    Literals();
    AutoText(p, 4, "4", "16px", 200, "200px");
  }

  /** A container narrower than one column reports zero columns but still
      templates one track. */
  lemma AutoZeroColumns(p: CalcProps)
    requires p == CalcProps(100, Missing, Missing, Missing, Has(Plain(Num(200))), None)
    ensures CalculateGrid(p) == Ok(CalcResult("repeat(1, 200px)", Fin(0), "auto"))
  {
    AutoGuardKeys(p);
    assert NoColumnGuard(p);
    AutoNone(p);
  }

  lemma AutoNone(p: CalcProps)
    requires p == CalcProps(100, Missing, Missing, Missing, Has(Plain(Num(200))), None)
    ensures CalculateAuto(p) == Ok(CalcResult("repeat(1, 200px)", Fin(0), "auto"))
  {
    assert NumericAuto(p);
    AutoCount(p, 100, 0, 0);
    Literals();
    AutoText(p, 1, "1", "auto", 200, "200px");
  }

  /** The column count of the two auto examples, from the fit property. */
  lemma AutoCount(p: CalcProps, w: int, g: int, n: int)
    requires p.columnWidth == Has(Plain(Num(200))) && p.variant == Missing && p.columns == Missing
    requires p.containerWidth == w && AutoGap(p) == g && NumericAuto(p)
    requires FitsColumns(w, g, 200, n)
    ensures CalculateAuto(p).Ok? && CalculateAuto(p).result.count == Fin(n)
  {
    var r := CalculateAuto(p);
    FitsColumnsUnique(w, g, 200, r.result.count.v, n);
  }

  /** At most one column count fits. */
  lemma FitsColumnsUnique(w: int, g: int, c: int, m: int, n: int)
    requires c + g > 0 && FitsColumns(w, g, c, m) && FitsColumns(w, g, c, n)
    ensures m == n
  {
    TimesMul(m, c + g);
    TimesMul(n, c + g);
    ModUnique(w + g, c + g, m, w + g - m * (c + g));
    ModUnique(w + g, c + g, n, w + g - n * (c + g));
  }

  /** The template and the gap text of the two auto examples. */
  lemma AutoText(p: CalcProps, shown: int, digits: string, gap: string, c: int, track: string)
    requires p.columnWidth == Has(Plain(Num(c))) && Px(c) == track
    requires CalculateAuto(p).Ok? && Max(Fin(1), CalculateAuto(p).result.count) == Fin(shown)
    requires IntToString(shown) == digits
    requires ParseGapValue(p.gap.Read()) == gap
    ensures CalculateAuto(p) == Ok(CalcResult("repeat(" + digits + ", " + track + ")", CalculateAuto(p).result.count, gap))
  {
    ColumnTrack(p.columnWidth.value, c, track);
    var r := CalculateAuto(p).result;
    assert r.template == Repeat(Fin(shown), track);
    RepeatText(shown, digits, track);
  }

  lemma ColumnTrack(w: CssValue, c: int, track: string)
    requires w == Plain(Num(c)) && Px(c) == track
    ensures ParseColumnValue(w) == Some(track)
  {
  }
}

=== FILE: grid_controls.dfy ===
/** Config validation, action builders and container props for the padded
    grid (hooks/useGridControls.ts). */
module GridControls {
  import opened Js
  import opened Text
  import opened Css
  import opened Validation
  import Performance

  /** `GRID.LIMITS.BASE` */
  const BaseMin := 1
  const BaseMax := 16

  /** `Partial<PGConfig>`: every field may be undefined. `rest` holds any
      further keys the caller's object carries. */
  datatype PartialConfig = PartialConfig(
    base: Option<int>,
    maxWidth: Option<CssValue>,
    align: Option<string>,
    zIndex: Option<int>,
    rest: map<string, JsVal>)

  /** `PGState`: the config fields and the accumulated custom styles. The
      max width starts undefined. */
  datatype GridState = GridState(base: int, maxWidth: Option<CssValue>, align: string, zIndex: int, styles: Style)

  /** `PGActions`, with any other action type the reducer may be sent. */
  datatype Action =
    | UpdateConfig(config: PartialConfig)
    | UpdateStyles(styles: Style)
    | OtherAction(kind: string)

  /** `Math.max(MIN, Math.min(base, MAX))` */
  function ClampBase(base: int): (r: int)
    ensures BaseMin <= r <= BaseMax
    ensures BaseMin <= base <= BaseMax ==> r == base
    ensures base < BaseMin ==> r == BaseMin
    ensures base > BaseMax ==> r == BaseMax
  {
    var lowered := if base <= BaseMax then base else BaseMax;
    if lowered >= BaseMin then lowered else BaseMin
  }

  /** The order of the two bounds does not matter with MIN <= MAX: this is
      `clamp(base, MIN, MAX)`. */
  lemma ClampBaseIsClamp(base: int)
    ensures ClampBase(base) == Performance.Clamp(base, BaseMin, BaseMax)
  {
  }

  /** `getValidatedConfig(config)`: the base clamped into [1, 16], an
      alignment outside start/center/end dropped, everything else kept. */
  function GetValidatedConfig(config: PartialConfig): (r: PartialConfig)
    ensures r.base.Some? <==> config.base.Some?
    ensures config.base.Some? ==> BaseMin <= r.base.value <= BaseMax
    ensures config.base.Some? && BaseMin <= config.base.value <= BaseMax ==> r.base == config.base
    ensures r.align.Some? <==> config.align.Some? && config.align.value in GridAlignments
    ensures r.align.Some? ==> r.align == config.align
    ensures r.zIndex == config.zIndex && r.maxWidth == config.maxWidth && r.rest == config.rest
  {
    config.(
      base := if config.base.Some? then Some(ClampBase(config.base.value)) else None,
      align := if config.align.Some? && config.align.value != "" && config.align.value in GridAlignments then config.align else None,
      zIndex := config.zIndex)
  }

  /** Validating twice is validating once. */
  lemma ValidateIdempotent(config: PartialConfig)
    ensures GetValidatedConfig(GetValidatedConfig(config)) == GetValidatedConfig(config)
  {
  }

  /** `updateConfig(config)`: the payload goes out as given. */
  function UpdateConfigAction(config: PartialConfig): (a: Action)
    ensures a.UpdateConfig? && a.config == config
  {
    UpdateConfig(config)
  }

  /** `updateStyles(styles)`: the payload goes out as given. */
  function UpdateStylesAction(styles: Style): (a: Action)
    ensures a.UpdateStyles? && a.styles == styles
  {
    UpdateStyles(styles)
  }

  /** Props handed to `getGridProps`: an optional style and any other
      attributes. */
  datatype ElementProps = ElementProps(style: Option<Style>, attrs: map<string, JsVal>)

  /** The value of `--grid-max-width`: "<n>px" for a number, the value as
      it is otherwise. */
  function MaxWidthStyle(maxWidth: Option<CssValue>): (v: StyleVal)
    ensures maxWidth.Some? && maxWidth.value.Plain? && maxWidth.value.v.Num? ==> v == SStr(Px(maxWidth.value.v.n))
    ensures maxWidth.Some? && !(maxWidth.value.Plain? && maxWidth.value.v.Num?) ==> v == SValue(maxWidth.value)
    ensures maxWidth.None? ==> v == SUndefined
  {
    match maxWidth
    case Some(Plain(Num(n))) => SStr(Px(n))
    case Some(v) => SValue(v)
    case None => SUndefined
  }

  /** `getGridProps(props)`: the caller's style with the three grid
      properties laid over it; the other props are kept. */
  function GetGridProps(state: GridState, props: ElementProps): (r: ElementProps)
    ensures r.attrs == props.attrs && r.style.Some?
    ensures var s := r.style.value;
            "--grid-base" in s && s["--grid-base"] == SStr(Px(state.base))
            && "--grid-max-width" in s && s["--grid-max-width"] == MaxWidthStyle(state.maxWidth)
            && "--grid-z-index" in s && s["--grid-z-index"] == SNum(state.zIndex)
    ensures forall k :: k in r.style.value <==> k in GridKeys || (props.style.Some? && k in props.style.value)
    ensures forall k :: k !in GridKeys && props.style.Some? && k in props.style.value ==>
              r.style.value[k] == props.style.value[k]
  {
    var own := map[
      "--grid-base" := SStr(Px(state.base)),
      "--grid-max-width" := MaxWidthStyle(state.maxWidth),
      "--grid-z-index" := SNum(state.zIndex)];
    ElementProps(Some(props.style.GetOr(map[]) + own), props.attrs)
  }

  const GridKeys: set<string> := {"--grid-base", "--grid-max-width", "--grid-z-index"}

  /** The grid properties do not depend on the caller's style. */
  lemma GridKeysWin(state: GridState, a: ElementProps, b: ElementProps)
    ensures forall k :: k in GridKeys ==> GetGridProps(state, a).style.value[k] == GetGridProps(state, b).style.value[k]
  {
  }
}

=== FILE: grid_dimensions.dfy ===
/** Tracking the container size in whole pixels
    (hooks/useGridDimensions.ts). */
module GridDimensions {
  import opened Js

  /** `GridDimensions` */
  datatype Dims = Dims(width: int, height: int)

  /** A bounding box as measured, in fractional pixels. */
  datatype Rect = Rect(width: real, height: real)

  /** The state before the first measurement. */
  const Initial := Dims(0, 0)

  /** `Math.round(x)`: the nearest integer, halves up. */
  function Round(x: real): (n: int)
    ensures n as real - 0.5 <= x < n as real + 0.5
  {
    (x + 0.5).Floor
  }

  /** The result of one `setDimensions` update, and whether React sees a
      new state (false when the previous object is handed back). */
  datatype Step = Step(next: Dims, changed: bool)

  /** `updateDimensions()` as a step from the previous state: the rounded
      measurement, unless it equals what is already there. */
  function Update(prev: Dims, measured: Rect): (s: Step)
    ensures s.next == Dims(Round(measured.width), Round(measured.height))
    ensures s.changed <==> s.next != prev
  {
    var width := Round(measured.width);
    var height := Round(measured.height);
    if prev.width == width && prev.height == height then Step(prev, false)
    else Step(Dims(width, height), true)
  }

  /** The hook's state after mounting: unchanged without an element,
      otherwise the initial measurement applied to the initial state. */
  function Mount(element: Option<Rect>): (d: Dims)
    ensures element.None? ==> d == Initial
    ensures element.Some? ==> d == Dims(Round(element.value.width), Round(element.value.height))
  {
    match element
    case None => Initial
    case Some(rect) => Update(Initial, rect).next
  }

  /** A second report of the same measurement changes nothing. */
  lemma UpdateIdempotent(prev: Dims, measured: Rect)
    ensures Update(Update(prev, measured).next, measured) == Step(Update(prev, measured).next, false)
  {
  }

  /** Measurements that round alike give the same state. */
  lemma SubPixelInvisible(prev: Dims, a: Rect, b: Rect)
    requires Round(a.width) == Round(b.width) && Round(a.height) == Round(b.height)
    ensures Update(prev, a).next == Update(prev, b).next
  {
  }

  /** 100.4 x 49.5 rounds to 100 x 50. */
  lemma UpdateExample()
    ensures Update(Initial, Rect(100.4, 49.5)) == Step(Dims(100, 50), true)
  {
  }
}

=== FILE: grid_types.dfy ===
/** The column-grid configuration union and its type guards
    (types/hooks.ts). */
module GridTypes {
  import opened Js
  import opened Css

  /** `columns`: a column count or a list of column widths. */
  datatype Columns = ColumnCount(count: int) | ColumnPattern(items: seq<CssValue>)

  /** A grid configuration as the object the guards inspect: each of the
      keys they probe may be missing, present with `undefined`, or hold a
      value. */
  datatype GridObject = GridObject(
    variant: Slot<string>,
    columns: Slot<Columns>,
    columnWidth: Slot<CssValue>,
    gap: Slot<CssValue>)

  /** `GridConfig`: exactly one of four variants. Only the fixed variant may
      carry an (optional) column width next to its columns. */
  datatype GridConfig =
    | LineConfig(gap: Option<CssValue>)
    | PatternConfig(gap: Option<CssValue>, pattern: seq<CssValue>)
    | FixedConfig(gap: Option<CssValue>, count: int, fixedWidth: Option<CssValue>)
    | AutoConfig(gap: Option<CssValue>, autoWidth: CssValue)

  function OptionSlot<T>(o: Option<T>): Slot<T> {
    match o
    case None => Missing
    case Some(v) => Has(v)
  }

  /** The object a configuration literal builds. Keys the variant types as
      `never` are left out. */
  function ToObject(c: GridConfig): (o: GridObject)
    ensures c.LineConfig? ==> !o.columns.Present() && !o.columnWidth.Present()
    ensures c.AutoConfig? ==> !o.columns.Present() && o.columnWidth.Has?
    ensures c.PatternConfig? ==> o.columns.Has? && o.columns.value.ColumnPattern? && !o.columnWidth.Present()
    ensures c.FixedConfig? ==> o.columns.Has? && o.columns.value.ColumnCount?
  {
    match c
    case LineConfig(gap) => GridObject(Has("line"), Missing, Missing, OptionSlot(gap))
    case PatternConfig(gap, p) => GridObject(Has("pattern"), Has(ColumnPattern(p)), Missing, OptionSlot(gap))
    case FixedConfig(gap, n, w) => GridObject(Has("fixed"), Has(ColumnCount(n)), OptionSlot(w), OptionSlot(gap))
    case AutoConfig(gap, w) => GridObject(Has("auto"), Missing, Has(w), OptionSlot(gap))
  }

  /** `isLineVariant(config)` */
  predicate IsLineVariant(o: GridObject) {
    o.variant.Present() && o.variant.Read() == Some("line")
  }

  /** `isAutoVariant(config)` */
  predicate IsAutoVariant(o: GridObject) {
    o.variant.Read() == Some("auto")
  }

  /** `isPatternVariant(config)`: `Array.isArray(config.columns)` */
  predicate IsPatternVariant(o: GridObject) {
    o.columns.Has? && o.columns.value.ColumnPattern?
  }

  /** `isFixedVariant(config)`: `typeof config.columns === 'number'` */
  predicate IsFixedVariant(o: GridObject) {
    o.columns.Has? && o.columns.value.ColumnCount?
  }

  /** On a configuration built from one of the four variants, each guard
      holds exactly for its own variant; in particular line and auto
      configurations satisfy neither column guard. */
  lemma GuardsDiscriminate(c: GridConfig)
    ensures IsLineVariant(ToObject(c)) <==> c.LineConfig?
    ensures IsAutoVariant(ToObject(c)) <==> c.AutoConfig?
    ensures IsPatternVariant(ToObject(c)) <==> c.PatternConfig?
    ensures IsFixedVariant(ToObject(c)) <==> c.FixedConfig?
  {
  }

  /** The column guards never both hold, whatever the object. */
  lemma ColumnGuardsExclusive(o: GridObject)
    ensures !(IsPatternVariant(o) && IsFixedVariant(o))
  {
  }
}

=== FILE: grid_x_grid.dfy ===
/** The column grid of components/Grid/XGrid.tsx: it builds a calculator
    configuration from its own, asks the column calculator for the columns,
    and renders one element per column while visible. */
module GridXGrid {
  import opened Js
  import opened Text
  import opened Css
  import opened Units
  import opened GridTypes
  import Calc = GridCalculations

  /** `COMPONENTS.baseUnit`, the gap fallback. */
  const BaseUnit := 8

  /** `XGConfig`, the fields this component reads; each may be undefined. */
  datatype XGConfig = XGConfig(
    variant: Option<string>,
    columns: Option<Columns>,
    columnWidth: Option<CssValue>,
    gap: Option<Scalar>,
    padding: Option<Scalar>)

  /** The `config` prop defaults to `{ variant: 'line' }`. */
  const DefaultConfig := XGConfig(Some("line"), None, None, None, None)

  /** The `X_GRID` defaults for undefined fields: 9 columns of '1fr', a gap
      of 8 and no padding. `X_GRID.variant` and `X_GRID.visibility` read
      `COMPONENTS.variants.XGrid` and `COMPONENTS.visibility.XGrid`, which do
      not exist (the keys are spelt `xGrid`), so neither has a default. */
  const DefaultColumns := ColumnCount(9)
  const DefaultColumnWidth := Plain(Str("1fr"))
  const DefaultGap := Num(BaseUnit)
  const DefaultPadding := Num(0)

  /** `gapValue ?? COMPONENTS.baseUnit`: a number is used as it is; a
      string is converted to pixels, and is 8 when it cannot be. The page
      `convertToPixels` reads is passed in. */
  function NumericGap(gap: Scalar, ctx: Context, win: Window): (r: Float)
    ensures gap.Num? ==> r == F(gap.n as real)
    ensures gap.Str? && ConvertToPixels(gap.s, ctx, win).None? ==> r == F(BaseUnit as real)
  {
    match gap
    case Num(n) => F(n as real)
    case Str(s) => ConvertToPixels(s, ctx, win).GetOr(F(BaseUnit as real))
  }

  /** A gap written "<n>px" counts the same as the number n. */
  lemma PxGapIsNumber(n: int, ctx: Context, win: Window)
    ensures NumericGap(Str(Px(n)), ctx, win) == NumericGap(Num(n), ctx, win)
  {
    ParsePx(n);
  }

  /** The calculator configuration `gridConfig` builds. Each variant also
      carries `baseUnit: 8`, which the calculator does not read. */
  datatype BuiltConfig =
    | BuiltLine(gap: Float)
    | BuiltAuto(columnWidth: CssValue, gap: Float)
    | BuiltPattern(columns: Columns, gap: Float)
    | BuiltFixed(columns: Columns, columnWidth: CssValue, gap: Float)

  /** `Math.max(0, numGap - 1)`: one pixel less, but never negative; NaN
      stays NaN. */
  function LineGap(g: Float): (r: Float)
    ensures g.FNaN? <==> r.FNaN?
    ensures g.F? ==> r.x >= 0.0 && r.x >= g.x - 1.0 && (r.x == 0.0 || r.x == g.x - 1.0)
  {
    match g
    case FNaN => FNaN
    case F(x) => F(if x - 1.0 >= 0.0 then x - 1.0 else 0.0)
  }

  /** The variants with a builder of their own; anything else, undefined
      included, is built as a line grid. */
  predicate OwnBuilder(variant: Option<string>) {
    variant == Some("auto") || variant == Some("pattern") || variant == Some("fixed")
  }

  /** `gridConfig`: the configuration for the variant, with the gap one
      pixel narrower for line grids. */
  function BuildConfig(c: XGConfig, ctx: Context, win: Window): (r: BuiltConfig)
    ensures r.BuiltLine? <==> !OwnBuilder(c.variant)
    ensures r.BuiltAuto? <==> c.variant == Some("auto")
    ensures r.BuiltPattern? <==> c.variant == Some("pattern")
    ensures r.BuiltFixed? <==> c.variant == Some("fixed")
    ensures r.BuiltLine? ==> r.gap == LineGap(NumericGap(c.gap.GetOr(DefaultGap), ctx, win))
    ensures !r.BuiltLine? ==> r.gap == NumericGap(c.gap.GetOr(DefaultGap), ctx, win)
    ensures r.BuiltAuto? || r.BuiltFixed? ==> r.columnWidth == c.columnWidth.GetOr(DefaultColumnWidth)
    ensures r.BuiltPattern? || r.BuiltFixed? ==> r.columns == c.columns.GetOr(DefaultColumns)
  {
    var numGap := NumericGap(c.gap.GetOr(DefaultGap), ctx, win);
    match c.variant
    case Some("auto") => BuiltAuto(c.columnWidth.GetOr(DefaultColumnWidth), numGap)
    case Some("pattern") => BuiltPattern(c.columns.GetOr(DefaultColumns), numGap)
    case Some("fixed") => BuiltFixed(c.columns.GetOr(DefaultColumns), c.columnWidth.GetOr(DefaultColumnWidth), numGap)
    case _ => BuiltLine(LineGap(numGap))
  }

  /** A line grid gets one pixel less gap than any other variant would from
      the same config (none at all for a gap below one pixel), and an
      unrecognised variant is built exactly as a line grid. */
  lemma LineGapOneLess(c: XGConfig, other: string, unknown: Option<string>, ctx: Context, win: Window)
    requires other == "auto" || other == "pattern" || other == "fixed"
    requires !OwnBuilder(unknown)
    ensures var line := BuildConfig(c.(variant := Some("line")), ctx, win).gap;
            var own := BuildConfig(c.(variant := Some(other)), ctx, win).gap;
            (own.FNaN? <==> line.FNaN?)
            && (own.F? && own.x >= 1.0 ==> line.x + 1.0 == own.x)
            && (own.F? && own.x < 1.0 ==> line.x == 0.0)
    ensures BuildConfig(c.(variant := unknown), ctx, win) == BuildConfig(c.(variant := Some("line")), ctx, win)
  {
  }

  /** A gap as the calculator receives it: a whole number of pixels as that
      number, any other as the text `${gap}px` the calculator would format
      the number to. The calculator reads a gap only through that text. */
  function GapValue(g: Float): (v: CssValue)
    ensures Calc.ParseGapValue(Some(v)) == ShowFloat(g) + "px"
  {
    match g
    case F(x) =>
      if x == x.Floor as real then Plain(Num(x.Floor)) else Plain(Str(ShowFloat(g) + "px"))
    case FNaN => Plain(Str(ShowFloat(g) + "px"))
  }

  /** The props as written, `{ containerWidth: width, config: gridConfig }`.
      The calculator reads `variant`, `columns`, `columnWidth` and `gap` from
      the top level, where only the width is. */
  function PropsAsWritten(width: int, built: BuiltConfig): Calc.CalcProps {
    Calc.CalcProps(width, Missing, Missing, Missing, Missing, None)
  }

  /** As written, the calculator never sees the configuration: every grid
      gets its fallback of nine `1fr` columns and an 8px gap. */
  lemma CalculatorIgnoresConfig(width: int, built: BuiltConfig)
    ensures Calc.CalculateGrid(PropsAsWritten(width, built))
              == Calc.Ok(Calc.CalcResult("repeat(9, 1fr)", Fin(9), "8px"))
  {
    Calc.AutoGuardKeys(PropsAsWritten(width, built));
  }

  /** The props of the evidently intended call `{ containerWidth: width,
      ...gridConfig }`: the variant and the fields the variant carries. */
  function FlatProps(width: int, built: BuiltConfig): (p: Calc.CalcProps)
    ensures p.containerWidth == width && p.gap == Has(GapValue(built.gap))
    ensures p.variant.Has? && p.baseFromConfig.None?
  {
    match built
    case BuiltLine(g) => Calc.CalcProps(width, Has(GapValue(g)), Missing, Has("line"), Missing, None)
    case BuiltAuto(w, g) => Calc.CalcProps(width, Has(GapValue(g)), Missing, Has("auto"), Has(w), None)
    case BuiltPattern(cols, g) => Calc.CalcProps(width, Has(GapValue(g)), Has(cols), Has("pattern"), Missing, None)
    case BuiltFixed(cols, w, g) => Calc.CalcProps(width, Has(GapValue(g)), Has(cols), Has("fixed"), Has(w), None)
  }

  /** The calculator on the flattened props, the evidently intended call.
      It throws only for a column list with an entry under a breakpoint. */
  function CalculateFlat(width: int, built: BuiltConfig): (r: Calc.Outcome)
    ensures r.Throws? <==>
              (built.BuiltPattern? || built.BuiltFixed?) && built.columns.ColumnPattern?
              && exists i :: 0 <= i < |built.columns.items| && Calc.ParseColumnValue(built.columns.items[i]).None?
  {
    var p := FlatProps(width, built);
    Calc.AutoGuardKeys(p);
    var r := Calc.CalculateGrid(p);
    assert r.Throws? ==> built.BuiltPattern? || built.BuiltFixed? by {
      if built.BuiltLine? {
        assert IsLineVariant(Calc.PropsObject(p));
      }
    }
    assert (built.BuiltPattern? || built.BuiltFixed?) && built.columns.ColumnPattern? ==>
             r == Calc.CalculatePattern(p, built.columns.items);
    r
  }

  /** Called on the flattened props, the calculator uses a line
      configuration: with a whole, non-negative gap it draws as many lines
      as fit the width one gap plus one pixel apart, and it reports the gap
      the configuration asked for. */
  lemma FlatLineFits(width: int, g: Float)
    ensures var r := CalculateFlat(width, BuiltLine(g)).result;
            (g.F? && g.x >= 0.0 && g.x == g.x.Floor as real ==> r.count.Fin? && Calc.FitsLines(width, g.x.Floor + 1, r.count.v))
            && r.gap == ShowFloat(g) + "px"
  {
    FlatLine(width, g);
    LineOfGap(FlatProps(width, BuiltLine(g)), g);
  }

  lemma FlatLine(width: int, g: Float)
    ensures Calc.LineGap(FlatProps(width, BuiltLine(g))) == GapValue(g)
    ensures CalculateFlat(width, BuiltLine(g)) == Calc.Ok(Calc.CalculateLine(FlatProps(width, BuiltLine(g))))
  {
  }

  lemma LineOfGap(p: Calc.CalcProps, g: Float)
    requires Calc.LineGap(p) == GapValue(g)
    ensures var r := Calc.CalculateLine(p);
            (g.F? && g.x >= 0.0 && g.x == g.x.Floor as real ==> r.count.Fin? && Calc.FitsLines(p.containerWidth, g.x.Floor + 1, r.count.v))
            && r.gap == ShowFloat(g) + "px"
  {
    if g.F? && g.x >= 0.0 && g.x == g.x.Floor as real {
      Calc.LineStep(p, g.x.Floor + 1);
    }
  }

  /** An auto configuration still falls back to nine columns: the
      calculator's auto guard refuses any props that name a variant. */
  lemma FlatAuto(width: int, built: BuiltConfig)
    requires built.BuiltAuto?
    ensures CalculateFlat(width, built) == Calc.Ok(Calc.CalcResult("repeat(9, 1fr)", Fin(9), "8px"))
  {
    Calc.AutoGuardKeys(FlatProps(width, built));
  }

  /** Called on the flattened props, a column count or a column list gives
      that many columns, and the gap is the one the configuration asked
      for. */
  lemma FlatColumns(width: int, built: BuiltConfig)
    requires built.BuiltPattern? || built.BuiltFixed?
    ensures var o := CalculateFlat(width, built);
            (built.columns.ColumnCount? ==>
               o.Ok? && o.result.count == Fin(built.columns.count)
               && o.result.template == Calc.Repeat(Fin(built.columns.count), "1fr"))
            && (built.columns.ColumnPattern? && o.Ok? ==> o.result.count == Fin(|built.columns.items|))
            && (o.Ok? ==> o.result.gap == ShowFloat(built.gap) + "px")
  {
    var p := FlatProps(width, built);
    assert p.gap.Read() == Some(GapValue(built.gap));
  }

  /** A column element: its `data-column-index`, and whether it carries the
      line-column class. */
  datatype ColumnElement = ColumnElement(index: int, lineColumn: bool)

  /** `Array.from({ length: count }).map(...)`: one element per column,
      numbered from 0, each marked as a line column exactly for the line
      variant; None when the count is too large for an array (a
      RangeError). */
  function ColumnElements(count: Number, variant: Option<string>): (r: Option<seq<ColumnElement>>)
    ensures r.None? <==> ArrayLength(count).None?
    ensures r.Some? ==> |r.value| == ArrayLength(count).value
    ensures r.Some? ==> forall i :: 0 <= i < |r.value| ==>
                          r.value[i].index == i && (r.value[i].lineColumn <==> variant == Some("line"))
  {
    match ArrayLength(count)
    case None => None
    case Some(n) => Some(seq(n, i => ColumnElement(i, variant == Some("line"))))
  }

  /** `--padd-padding`: a string as it is, a number n as "<n>px". */
  function PaddingText(p: Scalar): (s: string)
    ensures p.Str? ==> s == p.s
    ensures p.Num? ==> ReadPx(s) == Some(p.n)
  {
    match p
    case Str(s) => s
    case Num(n) => ReadPxOfPx(n); Px(n)
  }

  /** What the component renders: the container's visible class, its
      custom properties for the gap, template and padding, and the column
      elements. */
  datatype XGridView = XGridView(visible: bool, gap: string, template: string, padding: string, columns: seq<ColumnElement>)

  /** The view of a calculation: hidden grids render no column elements,
      visible ones one per calculated column. None is the RangeError of a
      column count no array can hold. */
  function View(c: XGConfig, visibility: Option<Visibility>, result: Calc.CalcResult): Option<XGridView> {
    var shown := visibility == Some(Visible);
    var padding := PaddingText(c.padding.GetOr(DefaultPadding));
    if !shown then Some(XGridView(false, result.gap, result.template, padding, []))
    else
      match ColumnElements(result.count, c.variant)
      case None => None
      case Some(cols) => Some(XGridView(true, result.gap, result.template, padding, cols))
  }

  /** `XGrid({ config, visibility })` as written: the calculator is called
      with the configuration nested under `config`, so whatever the
      configuration, a visible grid draws nine columns, the template is
      "repeat(9, 1fr)" and the gap "8px". Only the padding and the
      line-column marks follow the configuration. */
  function Render(config: Option<XGConfig>, visibility: Option<Visibility>, width: int,
                  ctx: Context, win: Window): (r: Option<XGridView>)
    ensures r.Some?
    ensures r.value.visible <==> visibility == Some(Visible)
    ensures r.value.template == "repeat(9, 1fr)" && r.value.gap == "8px"
    ensures r.value.padding == PaddingText(config.GetOr(DefaultConfig).padding.GetOr(DefaultPadding))
    ensures r.value.visible ==>
              |r.value.columns| == 9
              && forall i :: 0 <= i < 9 ==>
                   r.value.columns[i].index == i
                   && (r.value.columns[i].lineColumn <==> config.GetOr(DefaultConfig).variant == Some("line"))
    ensures !r.value.visible ==> r.value.columns == []
  {
    var c := config.GetOr(DefaultConfig);
    var built := BuildConfig(c, ctx, win);
    CalculatorIgnoresConfig(width, built);
    View(c, visibility, Calc.CalculateGrid(PropsAsWritten(width, built)).result)
  }

  /** `XGrid` with the calculator called on the flattened configuration,
      the evidently intended call. The grid is visible only for visibility
      'visible'; a hidden grid renders no column elements, a visible one
      one per calculated column. None is an error thrown: the calculator's
      TypeError for a column list with an entry under a breakpoint, or the
      RangeError of a column count no array can hold. */
  function RenderCorrected(config: Option<XGConfig>, visibility: Option<Visibility>, width: int,
                           ctx: Context, win: Window): (r: Option<XGridView>)
    ensures var c := config.GetOr(DefaultConfig);
            var o := CalculateFlat(width, BuildConfig(c, ctx, win));
            (r.None? <==> o.Throws? || (visibility == Some(Visible) && ArrayLength(o.result.count).None?))
            && (r.Some? ==>
                  (r.value.visible <==> visibility == Some(Visible))
                  && r.value.gap == o.result.gap && r.value.template == o.result.template
                  && r.value.padding == PaddingText(c.padding.GetOr(DefaultPadding))
                  && (r.value.visible ==> r.value.columns == ColumnElements(o.result.count, c.variant).value)
                  && (!r.value.visible ==> r.value.columns == []))
  {
    var c := config.GetOr(DefaultConfig);
    match CalculateFlat(width, BuildConfig(c, ctx, win))
    case Throws(_) => None
    case Ok(result) => View(c, visibility, result)
  }

  /** The two renders part ways on a visible fixed grid of four columns:
      as written it draws nine columns, corrected it draws four. */
  lemma RendersDiffer(width: int, ctx: Context, win: Window)
    ensures var c := Some(XGConfig(Some("fixed"), Some(ColumnCount(4)), None, None, None));
            |Render(c, Some(Visible), width, ctx, win).value.columns| == 9
            && |RenderCorrected(c, Some(Visible), width, ctx, win).value.columns| == 4
  {
    var c := XGConfig(Some("fixed"), Some(ColumnCount(4)), None, None, None);
    var built := BuildConfig(c, ctx, win);
    FlatColumns(width, built);
  }
}

=== FILE: grid_y_grid.dfy ===
/** The row grid of components/Grid/YGrid.tsx: a row count derived from the
    height, the window of rows worth rendering, and each row's style. The
    standalone YGrid component reuses all of it. */
module GridYGrid {
  import opened Js
  import opened Text
  import opened Css
  import opened Styles
  import opened VisibleLines

  /** The limits `clamp` puts on the row count. */
  const MinRows := 1
  const MaxRows := 1000
  /** `GRID.defaults.baseUnit` */
  const DefaultBaseUnit := 8

  /** `typeof height === 'number' ? height : containerHeight`: a numeric
      height wins over the measured one. */
  function TotalHeight(height: Scalar, containerHeight: int): int {
    if height.Num? then height.n else containerHeight
  }

  /** `clamp(Math.ceil(totalHeight / baseUnit), 1, 1000)`: the number of
      rows, baseUnit pixels apart, that cover the height, kept within
      1..1000. A zero base divides to an infinity (clamped to an end) or,
      for a zero height, to NaN. */
  function RowCount(totalHeight: int, base: int): (r: Number)
    ensures base != 0 ==> r.Fin? && MinRows <= r.v <= MaxRows
    ensures base > 0 && totalHeight <= MaxRows * base ==> totalHeight <= Times(r.v, base)
    ensures base > 0 && r.Fin? && r.v > MinRows ==> Times(r.v - 1, base) < totalHeight
    ensures base > 0 && totalHeight > MaxRows * base ==> r == Fin(MaxRows)
    ensures base == 0 ==> (r.NaN? <==> totalHeight == 0)
    ensures base == 0 && totalHeight > 0 ==> r == Fin(MaxRows)
    ensures base == 0 && totalHeight < 0 ==> r == Fin(MinRows)
  {
    var rows := CeilQuotient(Fin(totalHeight), Fin(base));
    var r := Min(Max(rows, Fin(MinRows)), Fin(MaxRows));
    RowCountClamped(totalHeight, base, rows, r);
    r
  }

  lemma RowCountClamped(h: int, b: int, rows: Number, r: Number)
    requires rows == CeilQuotient(Fin(h), Fin(b)) && r == Min(Max(rows, Fin(MinRows)), Fin(MaxRows))
    ensures b != 0 ==> r.Fin? && MinRows <= r.v <= MaxRows
    ensures b > 0 ==> CoveringCount(h, b, r.v)
    ensures b == 0 ==> (r.NaN? <==> h == 0)
    ensures b == 0 && h > 0 ==> r == Fin(MaxRows)
    ensures b == 0 && h < 0 ==> r == Fin(MinRows)
  {
    if b > 0 {
      RowCountCovers(h, b);
    }
  }

  /** n rows of height b cover h (when 1000 rows can), none of them beyond
      the first is superfluous, and n stays within 1..1000. Times(n, b) is
      n b. */
  predicate CoveringCount(h: int, b: int, n: int) {
    MinRows <= n <= MaxRows
    && (h <= MaxRows * b ==> h <= Times(n, b))
    && (n > MinRows ==> Times(n - 1, b) < h)
    && (h > MaxRows * b ==> n == MaxRows)
  }

  lemma RowCountCovers(h: int, b: int)
    requires b > 0
    ensures CoveringCount(h, b, Min(Max(Fin(CeilDiv(h, b)), Fin(MinRows)), Fin(MaxRows)).v)
  {
    var q := CeilDiv(h, b);
    TimesMul(MaxRows, b);
    if q < MinRows {
      TimesGap(MinRows, q, b);
    } else if q > MaxRows {
      TimesGap(q, MaxRows - 1, b);
    } else {
      TimesStep(q - 1, b);
      if q < MaxRows {
        TimesGap(MaxRows, q, b);
      }
    }
  }

  /** `--grid-height`: a number of pixels formatted as "<n>px", a string
      as it is. */
  function GridHeight(height: Scalar): (s: string)
    ensures height.Num? ==> ReadPx(s) == Some(height.n)
    ensures height.Str? ==> s == height.s
  {
    match height
    case Num(n) => ReadPxOfPx(n); Px(n)
    case Str(s) => s
  }

  /** The custom properties `getRowStyles(idx)` sets. Grid/YGrid names them
      `--grid-row-top` and so on, the standalone YGrid `--row-top`; the
      values are the same. */
  datatype RowStyle = RowStyle(top: string, color: string, height: string, opacity: string)

  /** `variant === 'flat' && idx % 2 === 0 ? '0' : '1'`: the even rows of a
      flat grid are transparent. JavaScript's remainder is 0 exactly for the
      even indices, negative ones included. */
  function RowOpacity(i: int, variant: string): (o: string)
    ensures o == "0" <==> variant == "flat" && i % 2 == 0
    ensures o == "0" || o == "1"
  {
    RemMultiple(i, 2);
    if variant == "flat" && Rem(i, 2) == Fin(0) then "0" else "1"
  }

  /** `getRowStyles(idx)`: row i starts i base units down; a line row is a
      single pixel high and any other row a full base unit. */
  function RowStyleOf(i: int, base: int, color: string, variant: string): (s: RowStyle)
    ensures s.opacity == "0" <==> variant == "flat" && i % 2 == 0
    ensures s.opacity == "0" || s.opacity == "1"
    ensures s.color == color
  {
    RowStyle(Px(Times(i, base)), color, if variant == "line" then "1px" else Px(base), RowOpacity(i, variant))
  }

  /** A row's top edge reads back as i base units; its height as one pixel
      for a line grid and as one base unit otherwise. */
  lemma RowGeometry(i: int, base: int, color: string, variant: string)
    ensures ReadPx(RowStyleOf(i, base, color, variant).top) == Some(i * base)
    ensures variant == "line" ==> RowStyleOf(i, base, color, variant).height == "1px"
    ensures variant != "line" ==> ReadPx(RowStyleOf(i, base, color, variant).height) == Some(base)
  {
    TimesMul(i, base);
    TopReads(i, base, color, variant, Times(i, base));
    if variant != "line" {
      HeightReads(i, base, color, variant);
    }
  }

  /** next starts where here ends: here's top and height are pixel sizes
      and next's top is the pixel size of their sum. */
  ghost predicate Follows(here: RowStyle, next: RowStyle) {
    exists top, height :: here.top == Px(top) && here.height == Px(height) && next.top == Px(top + height)
  }

  /** Rows that are a full base unit high tile the grid: each starts where
      the one before it ends. */
  lemma RowsTile(i: int, base: int, color: string, variant: string)
    requires variant != "line"
    ensures Follows(RowStyleOf(i, base, color, variant), RowStyleOf(i + 1, base, color, variant))
  {
    var t := Times(i, base);
    TimesStep(i, base);
    assert RowStyleOf(i + 1, base, color, variant).top == Px(t + base);
    assert RowStyleOf(i, base, color, variant).height == Px(base);
  }

  lemma TopReads(i: int, base: int, color: string, variant: string, t: int)
    requires t == Times(i, base)
    ensures ReadPx(RowStyleOf(i, base, color, variant).top) == Some(t)
  {
    ReadPxOfPx(t);
  }

  lemma HeightReads(i: int, base: int, color: string, variant: string)
    requires variant != "line"
    ensures ReadPx(RowStyleOf(i, base, color, variant).height) == Some(base)
  {
    ReadPxOfPx(base);
  }

  /** In a flat grid the rows alternate: of two neighbours exactly one is
      transparent. In any other grid every row is opaque. */
  lemma FlatRowsAlternate(i: int, base: int, color: string, variant: string)
    ensures variant == "flat" ==>
              (RowStyleOf(i, base, color, variant).opacity == "0") != (RowStyleOf(i + 1, base, color, variant).opacity == "0")
    ensures variant != "flat" ==> RowStyleOf(i, base, color, variant).opacity == "1"
  {
    OpacityAlternates(i, variant);
  }

  lemma OpacityAlternates(i: int, variant: string)
    ensures variant == "flat" ==> (RowOpacity(i, variant) == "0") != (RowOpacity(i + 1, variant) == "0")
    ensures variant != "flat" ==> RowOpacity(i, variant) == "1"
  {
    assert i % 2 == 0 <==> (i + 1) % 2 != 0;
  }

  /** A rendered row: its `data-row-index` and its style. */
  datatype Row = Row(index: int, style: RowStyle)

  /** rows are what `for (let i = start; i < end; i++)` pushes: one row per
      index from start up to end, in increasing order, and none when either
      end is not a finite number (a comparison with NaN is false, and the
      start is never below 0 nor an infinity the loop could not leave). */
  predicate RendersWindow(rows: seq<Row>, range: Range, base: int, color: string, variant: string) {
    if range.start.Fin? && range.end.Fin? then
      |rows| == Bigger(0, range.end.v - range.start.v) && RowsFrom(rows, range.start.v, base, color, variant)
    else rows == []
  }

  /** `visibleRows`: the loop over the visible window. */
  method VisibleRows(range: Range, base: int, color: string, variant: string) returns (rows: seq<Row>)
    ensures RendersWindow(rows, range, base, color, variant)
  {
    rows := [];
    if range.start.Fin? && range.end.Fin? {
      var start, end := range.start.v, range.end.v;
      var i := start;
      while i < end
        invariant start <= i <= Bigger(start, end)
        invariant |rows| == i - start
        invariant RowsFrom(rows, start, base, color, variant)
      {
        ExtendRows(rows, start, base, color, variant);
        rows := rows + [Row(i, RowStyleOf(i, base, color, variant))];
        i := i + 1;
      }
    }
  }

  /** rows holds the rows from start on, one per index. */
  predicate RowsFrom(rows: seq<Row>, start: int, base: int, color: string, variant: string) {
    forall k :: 0 <= k < |rows| ==> rows[k] == Row(start + k, RowStyleOf(start + k, base, color, variant))
  }

  lemma ExtendRows(rows: seq<Row>, start: int, base: int, color: string, variant: string)
    requires RowsFrom(rows, start, base, color, variant)
    ensures var i := start + |rows|;
            RowsFrom(rows + [Row(i, RowStyleOf(i, base, color, variant))], start, base, color, variant)
  {
  }

  /** Each index appears in the rendered rows exactly when it lies in the
      window, and at the position of its distance from the start. */
  lemma RowsAreWindow(rows: seq<Row>, range: Range, base: int, color: string, variant: string, i: int)
    requires RendersWindow(rows, range, base, color, variant)
    requires range.start.Fin? && range.end.Fin?
    ensures (exists k :: 0 <= k < |rows| && rows[k].index == i) <==> range.start.v <= i < range.end.v
  {
    if range.start.v <= i < range.end.v {
      var k := i - range.start.v;
      assert rows[k].index == i;
    }
  }

  /** `useVisibleGridLines({ totalLines: rowCount, lineHeight: baseUnit })`.
      The row count is NaN only for a zero base and height, and then the
      window ends at NaN. */
  function RowWindow(rowCount: Number, base: int, top: Option<int>, innerHeight: int): (r: Range)
    ensures rowCount.Fin? ==> r == CalculateRange(rowCount.v, base, DefaultBuffer, top, innerHeight)
    ensures !rowCount.Fin? ==> r.end.NaN?
  {
    match rowCount
    case Fin(n) => CalculateRange(n, base, DefaultBuffer, top, innerHeight)
    case _ =>
      match top
      case None => Range(Fin(0), NaN)
      case Some(t) => Range(RangeStart(ViewportTop(t), base, DefaultBuffer), NaN)
  }

  /** `GRID.defaults.colors.yGrid` */
  const DefaultColor := "var(--grid-color-line)"

  /** `YGConfig`: every field may be undefined. */
  datatype YGConfig = YGConfig(
    variant: Option<string>,
    color: Option<string>,
    height: Option<Scalar>,
    baseUnit: Option<int>,
    zIndex: Option<Scalar>)

  /** The container's own custom properties (`baseStyles`), before the
      caller's style is merged over them: the height as `--grid-height`
      writes it, the z-index as given (0 by default) and the row colour. */
  function ContainerStyle(c: YGConfig): (s: Style)
    ensures s.Keys == {"--grid-height", "--grid-z-index", "--grid-row-color"}
    ensures s["--grid-height"].SStr?
    ensures c.height.Some? && c.height.value.Num? ==> ReadPx(s["--grid-height"].s) == Some(c.height.value.n)
    ensures c.height.None? ==> s["--grid-height"] == SStr("100%")
    ensures s["--grid-z-index"] == SValue(Plain(c.zIndex.GetOr(Num(0))))
    ensures s["--grid-row-color"] == SStr(c.color.GetOr(DefaultColor))
  {
    map[
      "--grid-height" := SStr(GridHeight(c.height.GetOr(Str("100%")))),
      "--grid-z-index" := SValue(Plain(c.zIndex.GetOr(Num(0)))),
      "--grid-row-color" := SStr(c.color.GetOr(DefaultColor))]
  }

  /** What the hooks measure: the container's rounded height, its top edge
      relative to the viewport (None while no element is attached), and the
      window's height. */
  datatype Viewport = Viewport(containerHeight: int, top: Option<int>, innerHeight: int)

  /** What Grid/YGrid renders: the container's visible class, its style,
      the row count, and the rows. */
  datatype YGridView = YGridView(visible: bool, style: Style, rowCount: Number, rows: seq<Row>)

  /** `YGrid({ visibility, config, style })`. The `config` prop is optional
      but is destructured without a default, so an absent config is the
      TypeError None. The caller's style (`{}` by default) is merged over
      the container's own, so the caller's keys win. The visibility only
      picks the container's class: a hidden grid still renders its rows. */
  method Render(visibility: Option<Visibility>, config: Option<YGConfig>, style: Option<Style>, view: Viewport)
    returns (r: Option<YGridView>)
    ensures r.None? <==> config.None?
    ensures r.Some? ==>
              var c := config.value;
              var base := c.baseUnit.GetOr(DefaultBaseUnit);
              (r.value.visible <==> visibility == Some(Visible))
              && MergedOver(r.value.style, ContainerStyle(c), style.GetOr(map[]))
              && r.value.rowCount == RowCount(TotalHeight(c.height.GetOr(Str("100%")), view.containerHeight), base)
              && RendersWindow(r.value.rows, RowWindow(r.value.rowCount, base, view.top, view.innerHeight),
                               base, c.color.GetOr(DefaultColor), c.variant.GetOr("line"))
  {
    if config.None? {
      return None;
    }
    var c := config.value;
    var height := c.height.GetOr(Str("100%"));
    var base := c.baseUnit.GetOr(DefaultBaseUnit);
    var rowCount := RowCount(TotalHeight(height, view.containerHeight), base);
    var range := RowWindow(rowCount, base, view.top, view.innerHeight);
    var rows := VisibleRows(range, base, c.color.GetOr(DefaultColor), c.variant.GetOr("line"));
    var user := style.GetOr(map[]);
    CombinePair(ContainerStyle(c), user);
    var merged := CombineStyles([Some(ContainerStyle(c)), Some(user)]);
    r := Some(YGridView(visibility == Some(Visible), merged, rowCount, rows));
  }

  /** At the default base a 100px grid has 13 rows, a 1000px grid 125,
      and a very tall grid stops at 1000. */
  lemma RowCountExamples(h: int, base: int)
    requires h == 100 && base == DefaultBaseUnit
    ensures RowCount(h, base) == Fin(13)
    ensures RowCount(10 * h, base) == Fin(125)
    ensures RowCount(1000 * h, base) == Fin(MaxRows)
  {
    CeilDivUnique(h, base, 13);
    RowCountOf(h, base, 13);
    CeilDivUnique(10 * h, base, 125);
    RowCountOf(10 * h, base, 125);
    CeilDivUnique(1000 * h, base, 12500);
    RowCountOf(1000 * h, base, 12500);
  }

  /** With a positive base the row count is the rounded-up quotient,
      clamped. */
  lemma RowCountOf(h: int, base: int, q: int)
    requires base > 0 && CeilDiv(h, base) == q
    ensures RowCount(h, base) == Fin(if q < MinRows then MinRows else if q > MaxRows then MaxRows else q)
  {
  }

  /** A grid with no height still has one row. */
  lemma EmptyHeightOneRow(h: int, base: int)
    requires base > 0 && h <= 0
    ensures RowCount(h, base) == Fin(MinRows)
  {
    var r := RowCount(h, base);
    if r.v > MinRows {
      TimesGap(r.v - 1, 0, base);
    }
  }
}

=== FILE: js.dfy ===
/** JavaScript value semantics that the toolkit relies on: optional values,
    object keys that may be absent or hold `undefined`, the IEEE special
    numbers that integer arithmetic can run into, and the rounding and
    remainder operators of `Math` and `%`. */
module Js {

  /** `T | undefined`, where `??` falls back on None. */
  datatype Option<+T> = None | Some(value: T) {

    /** `x ?? d` */
    function GetOr(default: T): T {
      match this
      case Some(v) => v
      case None => default
    }
  }

  /** One named property of a JavaScript object. `'key' in obj` tells a
      Missing key apart from a key holding `undefined`; reading the property
      does not. */
  datatype Slot<+T> = Missing | Undefined | Has(value: T) {

    /** `'key' in obj` */
    predicate Present() {
      !Missing?
    }

    /** `obj.key`: a missing key reads as undefined */
    function Read(): Option<T> {
      if Has? then Some(value) else None
    }
  }

  /** The JavaScript numbers that integer arithmetic in the toolkit can
      produce: integers, the two infinities from a division by zero, and NaN
      from `parseInt` of a non-numeric string. Negative zero is not told apart
      from zero. */
  datatype Number = NaN | PosInf | NegInf | Fin(v: int)

  /** `Math.floor(a / b)` for integers, the divisor of either sign: the q
      with q b <= a < q b + b (for b > 0), found by stepping a towards
      [0, b) one divisor at a time. The bounds are stated with Times, so
      that a proof only meets the product where it asks for it
      (FloorDivBounds). */
  function FloorDiv(a: int, b: int): (q: int)
    requires b != 0
    ensures b > 0 ==> Times(q, b) <= a < Times(q, b) + b
    ensures b < 0 ==> Times(q, b) + b < a <= Times(q, b)
    decreases if b < 0 then 1 else 0, if a >= 0 then a else (if b > 0 then b else 0) - a
  {
    if b < 0 then
      var q := FloorDiv(-a, -b);
      TimesNegate(q, b);
      q
    else if a < 0 then
      var q := FloorDiv(a + b, b);
      TimesStep(q - 1, b);
      q - 1
    else if a < b then 0
    else
      var q := FloorDiv(a - b, b);
      TimesStep(q, b);
      q + 1
  }

  /** The floor quotient's bounds as products. */
  lemma FloorDivBounds(a: int, b: int)
    requires b > 0
    ensures FloorDiv(a, b) * b <= a < FloorDiv(a, b) * b + b
  {
    TimesMul(FloorDiv(a, b), b);
  }

  /** A quotient that meets the bounds is the floor quotient. */
  lemma FloorDivUnique(a: int, b: int, q: int)
    requires b > 0 && q * b <= a < q * b + b
    ensures FloorDiv(a, b) == q
  {
    var p := FloorDiv(a, b);
    TimesMul(q, b);
    if p > q {
      TimesGap(p, q, b);
    } else if p < q {
      TimesGap(q, p, b);
    }
  }

  /** n * b written out as repeated addition, for predicates that compare
      multiples: it unfolds only as far as a proof takes it, and TimesMul
      turns it into the product where one is wanted. */
  function Times(n: int, b: int): int
    decreases if n >= 0 then n else -n
  {
    if n == 0 then 0
    else if n > 0 then Times(n - 1, b) + b
    else Times(n + 1, b) - b
  }

  lemma {:induction false} TimesMul(n: int, b: int)
    ensures Times(n, b) == n * b
    decreases if n >= 0 then n else -n
  {
    if n > 0 {
      TimesMul(n - 1, b);
      assert n * b == (n - 1) * b + b;
    } else if n < 0 {
      TimesMul(n + 1, b);
      assert n * b == (n + 1) * b - b;
    }
  }

  lemma {:induction false} TimesDouble(n: int, b: int)
    ensures Times(n, 2 * b) == 2 * Times(n, b)
    decreases if n >= 0 then n else -n
  {
    if n > 0 {
      TimesDouble(n - 1, b);
    } else if n < 0 {
      TimesDouble(n + 1, b);
    }
  }

  lemma TimesStep(n: int, b: int)
    ensures Times(n + 1, b) == Times(n, b) + b
  {
  }

  lemma {:induction false} TimesNegate(n: int, b: int)
    ensures Times(n, -b) == -Times(n, b)
    decreases if n >= 0 then n else -n
  {
    if n > 0 {
      TimesNegate(n - 1, b);
    } else if n < 0 {
      TimesNegate(n + 1, b);
    }
  }

  /** Multiples of a positive b grow with the multiplier, by at least b a
      step. */
  lemma {:induction false} TimesGap(p: int, q: int, b: int)
    requires b > 0 && p > q
    ensures Times(p, b) >= Times(q, b) + b
    decreases p - q
  {
    TimesStep(q, b);
    if p > q + 1 {
      TimesGap(p, q + 1, b);
    }
  }

  lemma {:induction false} TimesOpposite(n: int, b: int)
    ensures Times(-n, b) == -Times(n, b)
    decreases if n >= 0 then n else -n
  {
    if n > 0 {
      TimesOpposite(n - 1, b);
      TimesStep(-n, b);
    } else if n < 0 {
      TimesOpposite(n + 1, b);
      TimesStep(-n - 1, b);
    }
  }

  /** With a positive divisor, the floor quotient has the dividend's sign. */
  lemma FloorDivSign(a: int, b: int)
    requires b > 0
    ensures a >= 0 <==> FloorDiv(a, b) >= 0
  {
    var q := FloorDiv(a, b);
    if q < 0 {
      TimesGap(0, q, b);
    } else if q > 0 {
      TimesGap(q, 0, b);
    }
  }

  /** The floor quotient by a positive divisor is monotone in the
      dividend. */
  lemma FloorDivMono(a: int, c: int, b: int)
    requires b > 0 && a <= c
    ensures FloorDiv(a, b) <= FloorDiv(c, b)
  {
    var q := FloorDiv(a, b);
    var p := FloorDiv(c, b);
    if q > p {
      TimesGap(q, p, b);
    }
  }

  /** x <= i * b puts the floor of x / b at most i. */
  lemma FloorDivAtMost(x: int, i: int, b: int)
    requires b > 0 && x <= i * b
    ensures FloorDiv(x, b) <= i
  {
    var q := FloorDiv(x, b);
    TimesMul(i, b);
    if q > i {
      TimesGap(q, i, b);
    }
  }

  /** i * b < x puts the ceiling of x / b above i. */
  lemma CeilDivAbove(x: int, i: int, b: int)
    requires b > 0 && i * b < x
    ensures i < CeilDiv(x, b)
  {
    var q := CeilDiv(x, b);
    TimesMul(i, b);
    if q < i {
      TimesGap(i, q, b);
    }
  }

  /** `Math.ceil(a / b)` for integers and a positive divisor: the q with
      q b - b < a <= q b. */
  function CeilDiv(a: int, b: int): (q: int)
    requires b > 0
    ensures Times(q, b) - b < a <= Times(q, b)
  {
    var p := FloorDiv(-a, b);
    TimesOpposite(p, b);
    -p
  }

  /** A quotient that meets the bounds is the ceiling quotient. */
  lemma CeilDivUnique(a: int, b: int, q: int)
    requires b > 0 && q * b - b < a <= q * b
    ensures CeilDiv(a, b) == q
  {
    FloorDivUnique(-a, b, -q);
  }

  /** The ceiling quotient's bounds as products. */
  lemma CeilDivBounds(a: int, b: int)
    requires b > 0
    ensures CeilDiv(a, b) * b - b < a <= CeilDiv(a, b) * b
  {
    TimesMul(CeilDiv(a, b), b);
  }

  /** JavaScript `a % b` on integers: the remainder takes the sign of the
      dividend (truncating division), and a zero divisor gives NaN. */
  function Rem(a: int, b: int): (r: Number)
    ensures b == 0 <==> r.NaN?
    ensures r.Fin? ==> -b < r.v < b || b < r.v < -b
    ensures r.Fin? && a >= 0 ==> r.v >= 0
    ensures r.Fin? && a <= 0 ==> r.v <= 0
  {
    if b == 0 then NaN
    else if a >= 0 then Fin(a % b)
    else Fin(-((-a) % b))
  }

  /** What is left after taking away the JavaScript remainder is a multiple
      of the divisor, and the remainder is zero exactly when the divisor
      divides the dividend. */
  lemma RemMultiple(a: int, b: int)
    requires b != 0
    ensures (a - Rem(a, b).v) % b == 0
    ensures Rem(a, b).v == 0 <==> a % b == 0
  {
    if a >= 0 {
      var q := a / b;
      assert a - Rem(a, b).v == b * q;
      MultipleMod(b, q);
    } else {
      var q := (-a) / b;
      assert -a == b * q + (-a) % b;
      assert a - Rem(a, b).v == b * -q;
      MultipleMod(b, -q);
      MultipleMod(b, -1);
      NegMod(a, b);
    }
  }

  lemma MultipleMod(b: int, k: int)
    requires b != 0
    ensures (b * k) % b == 0
  {
    ModUnique(b * k, b, k, 0);
  }

  /** Euclidean division is unique: a decomposition x == b * q + r with the
      remainder in range fixes both quotient and remainder. */
  lemma ModUnique(x: int, b: int, q: int, r: int)
    requires b != 0
    requires x == b * q + r
    requires 0 <= r < (if b > 0 then b else -b)
    ensures x % b == r && x / b == q
  {
    var d := x / b;
    var m := x % b;
    assert b * d + m == b * q + r;
    var t := q - d;
    assert b * t == m - r;
    if t > 0 {
      if b > 0 {
        MulAtLeast(b, t);
      } else {
        MulAtLeast(-b, t);
      }
      assert false;
    } else if t < 0 {
      if b > 0 {
        MulAtLeast(b, -t);
      } else {
        MulAtLeast(-b, -t);
      }
      assert false;
    }
  }

  lemma {:induction false} MulAtLeast(b: int, t: int)
    requires b > 0 && t >= 1
    ensures b * t >= b
    decreases t
  {
    if t > 1 {
      MulAtLeast(b, t - 1);
      assert b * t == b * (t - 1) + b;
    }
  }

  lemma NegMod(a: int, b: int)
    requires b != 0
    ensures a % b == 0 <==> (-a) % b == 0
  {
    if a % b == 0 {
      assert a == b * (a / b);
      MultipleMod(b, -(a / b));
      assert -a == b * -(a / b);
    }
    if (-a) % b == 0 {
      assert -a == b * ((-a) / b);
      MultipleMod(b, -((-a) / b));
      assert a == b * -((-a) / b);
    }
  }

  /** `a + b` */
  function Add(a: Number, b: Number): Number {
    match (a, b)
    case (Fin(x), Fin(y)) => Fin(x + y)
    case (NaN, _) => NaN
    case (_, NaN) => NaN
    case (PosInf, NegInf) => NaN
    case (NegInf, PosInf) => NaN
    case (PosInf, _) => PosInf
    case (_, PosInf) => PosInf
    case (NegInf, _) => NegInf
    case (_, NegInf) => NegInf
  }

  /** `Math.floor(a / b)`: a zero divisor gives an infinity of the
      dividend's sign, or NaN for `0 / 0`. */
  function FloorQuotient(a: Number, b: Number): (r: Number)
    ensures a.Fin? && b.Fin? && b.v != 0 ==> r == Fin(FloorDiv(a.v, b.v))
    ensures a.NaN? || b.NaN? ==> r.NaN?
    ensures a.Fin? && b == Fin(0) ==> (r.NaN? <==> a.v == 0) && (a.v > 0 ==> r == PosInf) && (a.v < 0 ==> r == NegInf)
  {
    match (a, b)
    case (NaN, _) => NaN
    case (_, NaN) => NaN
    case (Fin(x), Fin(y)) =>
      if y != 0 then Fin(FloorDiv(x, y))
      else if x > 0 then PosInf
      else if x < 0 then NegInf
      else NaN
    case (Fin(_), _) => Fin(0)
    case (PosInf, Fin(y)) => if y >= 0 then PosInf else NegInf
    case (NegInf, Fin(y)) => if y >= 0 then NegInf else PosInf
    case (_, _) => NaN
  }

  /** `-a` */
  function Neg(a: Number): Number {
    match a
    case NaN => NaN
    case PosInf => NegInf
    case NegInf => PosInf
    case Fin(x) => Fin(-x)
  }

  /** `Math.ceil(a / b)`, as the negated floor of -a / b. */
  function CeilQuotient(a: Number, b: Number): (r: Number)
    ensures a.Fin? && b.Fin? && b.v > 0 ==> r == Fin(CeilDiv(a.v, b.v))
    ensures a.Fin? && b.Fin? && b.v != 0 ==> r.Fin?
    ensures a.NaN? || b.NaN? ==> r.NaN?
    ensures a.Fin? && b == Fin(0) ==> (r.NaN? <==> a.v == 0) && (a.v > 0 ==> r == PosInf) && (a.v < 0 ==> r == NegInf)
  {
    Neg(FloorQuotient(Neg(a), b))
  }

  /** `Math.min(a, b)`: NaN if either argument is NaN. */
  function Min(a: Number, b: Number): (r: Number)
    ensures a.NaN? || b.NaN? ==> r.NaN?
    ensures a.Fin? && b.Fin? ==> r.Fin? && r.v <= a.v && r.v <= b.v && (r.v == a.v || r.v == b.v)
  {
    match (a, b)
    case (NaN, _) => NaN
    case (_, NaN) => NaN
    case (Fin(x), Fin(y)) => if x <= y then a else b
    case (NegInf, _) => NegInf
    case (_, NegInf) => NegInf
    case (PosInf, _) => b
    case (_, PosInf) => a
  }

  /** `Math.max(a, b)`: NaN if either argument is NaN. */
  function Max(a: Number, b: Number): (r: Number)
    ensures a.NaN? || b.NaN? ==> r.NaN?
    ensures a.Fin? && b.Fin? ==> r.Fin? && r.v >= a.v && r.v >= b.v && (r.v == a.v || r.v == b.v)
  {
    match (a, b)
    case (NaN, _) => NaN
    case (_, NaN) => NaN
    case (Fin(x), Fin(y)) => if x >= y then a else b
    case (PosInf, _) => PosInf
    case (_, PosInf) => PosInf
    case (NegInf, _) => b
    case (_, NegInf) => a
  }

  /** The element count `Array.from({ length: n })` produces: ToLength
      clamps NaN and negatives to 0, and a length above 2^32 - 1 raises a
      RangeError (None). */
  function ArrayLength(n: Number): (r: Option<nat>)
    ensures n.Fin? && 0 <= n.v < 0x1_0000_0000 ==> r == Some(n.v)
    ensures n.NaN? || n.NegInf? || (n.Fin? && n.v <= 0) ==> r == Some(0)
    ensures r.None? <==> n.PosInf? || (n.Fin? && n.v >= 0x1_0000_0000)
  {
    match n
    case NaN => Some(0)
    case NegInf => Some(0)
    case PosInf => None
    case Fin(v) => if v <= 0 then Some(0) else if v < 0x1_0000_0000 then Some(v) else None
  }
}

=== FILE: measurement.dfy ===
/** Baseline snapping to the nearest multiple of a unit
    (utils/measurement.ts, `MeasurementSystem`). */
module Measurement {
  import opened Js
  import opened Css
  import Text

  /** `COMPONENTS.baseUnit`, the default unit. */
  const BaseUnit := 8

  /** The optional second argument of `normalize`. */
  datatype NormalizeConfig = NormalizeConfig(unit: Option<int>, suppressWarnings: Option<bool>)

  /** What `normalize` returns, with the console output it makes: `warned`
      for the `console.warn`, `failed` for the caught error that
      `console.error` reports. */
  datatype Normalized = Normalized(value: Number, warned: bool, failed: bool)

  /** `Math.round(num / unit) * unit`. Rounding num / unit half up is the
      floor of (2 num + unit) / (2 unit), for either sign of the unit. A
      zero unit divides to an infinity (or NaN), and that times 0 is NaN. */
  function RoundToUnit(num: int, unit: int): (r: Number)
    ensures unit == 0 <==> r.NaN?
    ensures unit != 0 ==> r.Fin? && r.v % unit == 0
    ensures unit > 0 ==> -unit < 2 * (r.v - num) <= unit
    ensures unit < 0 ==> unit <= 2 * (r.v - num) < -unit
  {
    if unit == 0 then NaN
    else
      var q := FloorDiv(2 * num + unit, 2 * unit);
      RoundedBounds(num, unit, q);
      Fin(Times(q, unit))
  }

  lemma RoundedBounds(num: int, unit: int, q: int)
    requires unit != 0 && q == FloorDiv(2 * num + unit, 2 * unit)
    ensures Times(q, unit) % unit == 0
    ensures unit > 0 ==> -unit < 2 * (Times(q, unit) - num) <= unit
    ensures unit < 0 ==> unit <= 2 * (Times(q, unit) - num) < -unit
  {
    TimesDouble(q, unit);
    TimesMultiple(q, unit);
  }

  lemma TimesMultiple(q: int, unit: int)
    requires unit != 0
    ensures Times(q, unit) % unit == 0
  {
    TimesMul(q, unit);
    MultipleMod(unit, q);
    assert q * unit == unit * q;
  }

  /** `MeasurementSystem.normalize(value, { unit, suppressWarnings })` with
      the defaults filled in, for a given reading of strings. An unreadable
      value is caught and answered with the unit itself. */
  function NormalizeAt(read: CssReader, value: PixelValue, unit: int, suppressWarnings: bool): (r: Normalized)
    ensures ExtractCssNumber(read, value).None? ==> r == Normalized(Fin(unit), false, true)
    ensures ExtractCssNumber(read, value).Some? ==> !r.failed
    ensures ExtractCssNumber(read, value).Some? && unit > 0 ==>
              var num := ExtractCssNumber(read, value).value;
              r.value.Fin? && r.value.v % unit == 0 && -unit < 2 * (r.value.v - num) <= unit
    ensures ExtractCssNumber(read, value).Some? ==>
              (r.warned <==> r.value != Fin(ExtractCssNumber(read, value).value) && !suppressWarnings)
  {
    match ExtractCssNumber(read, value)
    case None => Normalized(Fin(unit), false, true)
    case Some(num) =>
      var normalized := RoundToUnit(num, unit);
      Normalized(normalized, normalized != Fin(num) && !suppressWarnings, false)
  }

  /** `normalize` with its optional config: the unit defaults to 8 and
      warnings are on unless suppressed. */
  function Normalize(read: CssReader, value: PixelValue, config: NormalizeConfig): (r: Normalized)
    ensures config.unit.None? ==> r == NormalizeAt(read, value, BaseUnit, config.suppressWarnings.GetOr(false))
    ensures config.suppressWarnings.None? ==> r == NormalizeAt(read, value, config.unit.GetOr(BaseUnit), false)
  {
    NormalizeAt(read, value, config.unit.GetOr(BaseUnit), config.suppressWarnings.GetOr(false))
  }

  /** `MeasurementSystem.isNormalized(value, { unit })`: the value reads as
      a number whose JavaScript remainder by the unit is 0. */
  predicate IsNormalized(read: CssReader, value: PixelValue, unit: int) {
    ExtractCssNumber(read, value).Some? && Rem(ExtractCssNumber(read, value).value, unit) == Fin(0)
  }

  /** A multiple of the unit within half a unit of num is num itself. */
  lemma NearestMultipleIsSelf(d: int, unit: int)
    requires unit > 0 && d % unit == 0 && -unit < 2 * d <= unit
    ensures d == 0
  {
    var k := d / unit;
    assert d == unit * k;
    if k >= 1 {
      MulAtLeast(unit, k);
    } else if k <= -1 {
      MulAtLeast(unit, -k);
    }
  }

  /** With a positive unit, normalizing leaves a value alone exactly when it
      is already normalized, and then warns nothing. */
  lemma NormalizeFixesNormalized(read: CssReader, value: PixelValue, unit: int, suppressWarnings: bool)
    requires unit > 0 && ExtractCssNumber(read, value).Some?
    ensures IsNormalized(read, value, unit) <==>
              NormalizeAt(read, value, unit, suppressWarnings).value == Fin(ExtractCssNumber(read, value).value)
    ensures IsNormalized(read, value, unit) ==> !NormalizeAt(read, value, unit, suppressWarnings).warned
  {
    var num := ExtractCssNumber(read, value).value;
    var r := NormalizeAt(read, value, unit, suppressWarnings).value.v;
    RemMultiple(num, unit);
    SnapFixes(num, r, unit);
  }

  /** A multiple r of the unit within half a unit of num is num exactly
      when num is itself a multiple. */
  lemma SnapFixes(num: int, r: int, unit: int)
    requires unit > 0 && r % unit == 0 && -unit < 2 * (r - num) <= unit
    ensures num % unit == 0 <==> r == num
  {
    if num % unit == 0 {
      ModSub(r, num, unit);
      NearestMultipleIsSelf(r - num, unit);
    }
  }

  /** The difference of two multiples of b is a multiple of b. */
  lemma ModSub(a: int, c: int, b: int)
    requires b > 0 && a % b == 0 && c % b == 0
    ensures (a - c) % b == 0
  {
    var p := a / b;
    var q := c / b;
    assert a == b * p && c == b * q;
    assert a - c == b * (p - q);
    MultipleMod(b, p - q);
  }

  /** What normalizing produces is normalized. */
  lemma NormalizeIsNormalized(read: CssReader, value: PixelValue, unit: int, suppressWarnings: bool)
    requires unit > 0 && ExtractCssNumber(read, value).Some?
    ensures IsNormalized(read, PxNumber(NormalizeAt(read, value, unit, suppressWarnings).value.v), unit)
  {
    var r := NormalizeAt(read, value, unit, suppressWarnings).value.v;
    RemMultiple(r, unit);
  }

  /** Normalizing twice gives what normalizing once gives, and the second
      pass warns nothing. */
  lemma NormalizeIdempotent(read: CssReader, value: PixelValue, unit: int, suppressWarnings: bool)
    requires unit > 0 && ExtractCssNumber(read, value).Some?
    ensures var once := NormalizeAt(read, value, unit, suppressWarnings).value;
            var twice := NormalizeAt(read, PxNumber(once.v), unit, suppressWarnings);
            twice.value == once && !twice.warned
  {
    var once := NormalizeAt(read, value, unit, suppressWarnings).value;
    NormalizeIsNormalized(read, value, unit, suppressWarnings);
    NormalizeFixesNormalized(read, PxNumber(once.v), unit, suppressWarnings);
  }

  /** At the default unit 8: 100 goes to 104, 95 and 94 to 96. */
  lemma NormalizeExamples(read: CssReader, a: int, b: int, c: int)
    requires a == 100 && b == 95 && c == 94
    ensures Normalize(read, PxNumber(a), NormalizeConfig(None, None)) == Normalized(Fin(104), true, false)
    ensures Normalize(read, PxNumber(b), NormalizeConfig(None, None)) == Normalized(Fin(96), true, false)
    ensures Normalize(read, PxNumber(c), NormalizeConfig(None, None)) == Normalized(Fin(96), true, false)
  {
    DefaultRound(read, a, 13);
    DefaultRound(read, b, 12);
    DefaultRound(read, c, 12);
  }

  /** At the default unit, num rounds to q units when 2 num + 8 lies in
      [16 q, 16 q + 16). */
  lemma DefaultRound(read: CssReader, num: int, q: int)
    requires 16 * q <= 2 * num + BaseUnit < 16 * q + 16
    ensures Normalize(read, PxNumber(num), NormalizeConfig(None, None)).value == Fin(8 * q)
  {
    FloorDivUnique(2 * num + BaseUnit, 2 * BaseUnit, q);
    TimesMul(q, BaseUnit);
  }

  /** A string the reading rejects, such as "auto" or "invalid", comes
      back as the unit, with the error logged and no warning. */
  lemma NormalizeUnreadable(read: CssReader, s: string)
    requires read(s).None?
    ensures Normalize(read, PxString(s), NormalizeConfig(None, None)) == Normalized(Fin(BaseUnit), false, true)
  {
  }

  /** Under a reading of pixel text, "96px" is normalized at unit 4 and
      comes back unchanged and silent, while "100px" at the default unit
      becomes 104. */
  lemma PixelTextExamples()
    ensures Normalize(ReadPx, PxString(Text.Px(96)), NormalizeConfig(Some(4), None)) == Normalized(Fin(96), false, false)
    ensures Normalize(ReadPx, PxString(Text.Px(100)), NormalizeConfig(None, None)) == Normalized(Fin(104), true, false)
  {
    ReadPxOfPx(96);
    ReadPxOfPx(100);
    FloorDivUnique(2 * 96 + 4, 8, 24);
    TimesMul(24, 4);
    DefaultRound(ReadPx, 100, 13);
  }

  /** Suppressed warnings stay silent, whatever the value. */
  lemma SuppressedIsSilent(read: CssReader, value: PixelValue, unit: int)
    ensures !NormalizeAt(read, value, unit, true).warned
  {
  }

  /** 96 is normalized at unit 8 and 95 is not; 95 is at unit 5. */
  lemma IsNormalizedExamples(read: CssReader)
    ensures IsNormalized(read, PxNumber(96), BaseUnit)
    ensures !IsNormalized(read, PxNumber(95), BaseUnit)
    ensures IsNormalized(read, PxNumber(95), 5)
  {
  }
}

=== FILE: padded_grid.dfy ===
/** The PaddedGrid container: its reducer, the max-width formatting and the
    effect that pushes a validated config into the state
    (components/PaddedGrid/PaddedGrid.tsx). */
module PaddedGrid {
  import opened Js
  import opened Text
  import opened Css
  import opened Styles
  import opened GridControls

  /** `initialState`: base 8, no max width (`GRID.DEFAULTS.MAX_WIDTH` is
      not defined), centred, z-index 0, no styles. */
  const InitialState := GridState(8, None, "center", 0, map[])

  /** `defaultGridReducer(state, action)` */
  function Reduce(state: GridState, action: Action): (r: GridState)
    ensures action.UpdateConfig? ==>
              r == state.(base := action.config.base.GetOr(state.base),
                          maxWidth := if action.config.maxWidth.Some? then action.config.maxWidth else state.maxWidth,
                          align := action.config.align.GetOr(state.align),
                          zIndex := action.config.zIndex.GetOr(state.zIndex))
    ensures action.UpdateConfig? ==> r.styles == state.styles
    ensures action.UpdateStyles? ==>
              r.base == state.base && r.maxWidth == state.maxWidth && r.align == state.align && r.zIndex == state.zIndex
    ensures action.UpdateStyles? ==>
              forall k :: k in r.styles <==> k in state.styles || k in action.styles
    ensures action.UpdateStyles? ==>
              forall k :: k in action.styles ==> r.styles[k] == action.styles[k]
    ensures action.OtherAction? ==> r == state
  {
    match action
    case UpdateConfig(p) =>
      state.(base := p.base.GetOr(state.base),
             maxWidth := if p.maxWidth.Some? then p.maxWidth else state.maxWidth,
             align := p.align.GetOr(state.align),
             zIndex := p.zIndex.GetOr(state.zIndex))
    case UpdateStyles(s) =>
      CombinePair(state.styles, s);
      state.(styles := CombineStyles([Some(state.styles), Some(s)]))
    case OtherAction(_) => state
  }

  /** An update with nothing in it leaves the state as it was. */
  lemma EmptyUpdateIsNoop(state: GridState, rest: map<string, JsVal>)
    ensures Reduce(state, UpdateConfig(PartialConfig(None, None, None, None, rest))) == state
  {
  }

  /** Applying the same action twice is applying it once. */
  lemma ReduceIdempotent(state: GridState, action: Action)
    ensures Reduce(Reduce(state, action), action) == Reduce(state, action)
  {
    if action.UpdateStyles? {
      CombinePair(state.styles, action.styles);
      CombinePair(state.styles + action.styles, action.styles);
      assert state.styles + action.styles + action.styles == state.styles + action.styles;
    }
  }

  /** `getMaxWidthValue(maxWidth)`: "<n>px" for a number, a string as it
      is, a responsive value rendered (or "none" when that is empty), and
      "none" for anything else. None is the TypeError of a responsive entry
      under a breakpoint. */
  function GetMaxWidthValue(maxWidth: Option<CssValue>): (r: Option<string>)
    ensures maxWidth.Some? && maxWidth.value.Plain? && maxWidth.value.v.Num? ==> r == Some(Px(maxWidth.value.v.n))
    ensures maxWidth.Some? && maxWidth.value.Plain? && maxWidth.value.v.Str? ==> r == Some(maxWidth.value.v.s)
    ensures maxWidth.None? ==> r == Some("none")
    ensures r.None? <==> maxWidth.Some? && maxWidth.value.Responsive? && ReadsBreakpoints(maxWidth.value.entries)
    ensures maxWidth.Some? && maxWidth.value.Responsive? && r.Some? ==>
              var parsed := ParseResponsiveGridValue(maxWidth, None).text.value;
              r.value == (if parsed == "" then "none" else parsed)
  {
    match maxWidth
    case Some(Plain(Num(n))) => Some(Px(n))
    case Some(Plain(Str(s))) => Some(s)
    case Some(Responsive(_)) =>
      (match ParseResponsiveGridValue(maxWidth, None)
       case BreakpointsUndefined => None
       case Rendered(t) => Some(if t.value == "" then "none" else t.value))
    case None => Some("none")
  }

  /** The initial state has no max width, so the container starts with
      `max-width: none`. */
  lemma InitialMaxWidth()
    ensures GetMaxWidthValue(InitialState.maxWidth) == Some("none")
  {
  }

  /** `hasConfigChanged` as written: each validated field is compared with
      the state's, an undefined field included. */
  predicate HasConfigChanged(valid: PartialConfig, state: GridState) {
    valid.base != Some(state.base) || valid.maxWidth != state.maxWidth
    || valid.align != Some(state.align) || valid.zIndex != Some(state.zIndex)
  }

  /** Whether dispatching the validated config would change the config part
      of the state. Fields left undefined do not count: the reducer keeps
      the state's value for them. */
  predicate WouldChange(valid: PartialConfig, state: GridState) {
    var next := Reduce(state, UpdateConfig(valid));
    next.base != state.base || next.maxWidth != state.maxWidth
    || next.align != state.align || next.zIndex != state.zIndex
  }

  /** The effect as written: dispatch the validated config whenever
      `hasConfigChanged` holds. `isValid` is `isValidConfig(config)`, which
      is not part of this model. */
  function EffectAsWritten(config: Option<PartialConfig>, isValid: bool, state: GridState): (r: Option<Action>)
    ensures r.Some? <==> config.Some? && isValid && HasConfigChanged(GetValidatedConfig(config.value), state)
    ensures r.Some? ==> r.value == UpdateConfig(GetValidatedConfig(config.value))
  {
    if config.Some? && isValid then
      var valid := GetValidatedConfig(config.value);
      if HasConfigChanged(valid, state) then Some(UpdateConfigAction(valid)) else None
    else None
  }

  /** A config without a base is validated to an undefined base, which the
      reducer ignores, so the comparison as written finds a change again
      right after the dispatch: the effect never settles. */
  lemma NeverSettles(state: GridState)
    ensures var config := PartialConfig(None, None, Some("center"), Some(0), map[]);
            var action := EffectAsWritten(Some(config), true, state);
            action.Some? && EffectAsWritten(Some(config), true, Reduce(state, action.value)).Some?
  {
  }

  /** The effect with the corrected comparison: dispatch only when the
      dispatch would change something. */
  function Effect(config: Option<PartialConfig>, isValid: bool, state: GridState): (r: Option<Action>)
    ensures r.Some? <==> config.Some? && isValid && WouldChange(GetValidatedConfig(config.value), state)
    ensures r.Some? ==> r.value == UpdateConfig(GetValidatedConfig(config.value))
  {
    if config.Some? && isValid then
      var valid := GetValidatedConfig(config.value);
      if WouldChange(valid, state) then Some(UpdateConfigAction(valid)) else None
    else None
  }

  /** With the corrected comparison one dispatch is enough: in the state it
      produces, the same config asks for nothing more. */
  lemma SettlesAfterOneDispatch(config: Option<PartialConfig>, isValid: bool, state: GridState)
    ensures var action := Effect(config, isValid, state);
            action.Some? ==> Effect(config, isValid, Reduce(state, action.value)).None?
  {
  }

  /** Whenever the corrected effect dispatches, so does the one as written,
      and with every field defined the two agree. */
  lemma CorrectedDispatchesLess(config: Option<PartialConfig>, isValid: bool, state: GridState)
    ensures Effect(config, isValid, state).Some? ==> EffectAsWritten(config, isValid, state).Some?
    ensures config.Some? && GetValidatedConfig(config.value).base.Some? && GetValidatedConfig(config.value).align.Some?
            && config.value.zIndex.Some? && config.value.maxWidth.Some? ==>
              (Effect(config, isValid, state).Some? <==> EffectAsWritten(config, isValid, state).Some?)
  {
  }
}

=== FILE: padder.dfy ===
/** The padding container of components/Padder/Padder.tsx: the children
    framed by visible spacers, one per side whose padding is positive. */
module Padder {
  import opened Js
  import opened Css
  import opened Styles
  import opened Spacing

  /** The size `width` and `height` default to. */
  const FitContent := Str("fit-content")
  /** The size a spacer takes across its side. */
  const Full := Str("100%")

  /** What a padder lays out, in order: a spacer of the given width and
      height, or the padder's children. */
  datatype Element = SpacerEl(width: Scalar, height: Scalar, visibility: Visibility) | Content

  /** The part of a padding that is drawn. */
  function Positive(n: int): nat {
    if n > 0 then n else 0
  }

  /** An inline spacer (n wide, as tall as the padder) for a positive
      padding n, nothing otherwise. */
  function InlineSpacer(n: int): (r: seq<Element>)
    ensures |r| == if n > 0 then 1 else 0
  {
    if n > 0 then [SpacerEl(Num(n), Full, Visible)] else []
  }

  /** A block spacer (as wide as the padder, n tall) for a positive padding
      n, nothing otherwise. */
  function BlockSpacer(n: int): (r: seq<Element>)
    ensures |r| == if n > 0 then 1 else 0
  {
    if n > 0 then [SpacerEl(Full, Num(n), Visible)] else []
  }

  /** How many sides of s carry a positive padding. */
  function SidesDrawn(s: Sides): nat {
    |InlineSpacer(s.inline.start)| + |BlockSpacer(s.block.start)| + |BlockSpacer(s.block.end)| + |InlineSpacer(s.inline.end)|
  }

  /** The padder's elements: inline start, block start, the children, block
      end, inline end; every spacer visible, the children exactly once. */
  function Elements(s: Sides): (r: seq<Element>)
    ensures |r| == 1 + SidesDrawn(s)
    ensures var c := |InlineSpacer(s.inline.start)| + |BlockSpacer(s.block.start)|;
            c < |r| && r[c] == Content && forall i :: 0 <= i < |r| && i != c ==> r[i].SpacerEl?
    ensures forall i :: 0 <= i < |r| && r[i].SpacerEl? ==> r[i].visibility == Visible
  {
    var before := InlineSpacer(s.inline.start) + BlockSpacer(s.block.start);
    var after := BlockSpacer(s.block.end) + InlineSpacer(s.inline.end);
    var r := before + [Content] + after;
    assert forall i :: 0 <= i < |before| ==> r[i] == before[i];
    assert forall i :: |before| < i < |r| ==> r[i] == after[i - |before| - 1];
    r
  }

  /** The height a spacer adds down the block axis: its height when it
      spans the padder's width. */
  function BlockPart(e: Element): int {
    if e.SpacerEl? && e.width == Full && e.height.Num? then e.height.n else 0
  }

  /** The width a spacer adds along the inline axis: its width when it
      spans the padder's height. */
  function InlinePart(e: Element): int {
    if e.SpacerEl? && e.height == Full && e.width.Num? then e.width.n else 0
  }

  /** The padding drawn along the block axis. */
  function BlockDrawn(els: seq<Element>): int {
    if |els| == 0 then 0 else BlockDrawn(els[..|els| - 1]) + BlockPart(els[|els| - 1])
  }

  /** The padding drawn along the inline axis. */
  function InlineDrawn(els: seq<Element>): int {
    if |els| == 0 then 0 else InlineDrawn(els[..|els| - 1]) + InlinePart(els[|els| - 1])
  }

  /** The drawn padding of a concatenation is the sum of its parts'. */
  lemma {:induction false} DrawnAppend(a: seq<Element>, b: seq<Element>)
    ensures BlockDrawn(a + b) == BlockDrawn(a) + BlockDrawn(b)
    ensures InlineDrawn(a + b) == InlineDrawn(a) + InlineDrawn(b)
  {
    if |b| > 0 {
      var b' := b[..|b| - 1];
      assert (a + b)[..|a + b| - 1] == a + b';
      DrawnAppend(a, b');
    } else {
      assert a + b == a;
    }
  }

  /** A padder draws exactly its positive padding on each axis: the
      spacers' heights add up to the positive block sides and their widths
      to the positive inline sides. */
  lemma DrawsPadding(s: Sides)
    ensures BlockDrawn(Elements(s)) == Positive(s.block.start) + Positive(s.block.end)
    ensures InlineDrawn(Elements(s)) == Positive(s.inline.start) + Positive(s.inline.end)
  {
    var ins := InlineSpacer(s.inline.start);
    var bs := BlockSpacer(s.block.start);
    var be := BlockSpacer(s.block.end);
    var ie := InlineSpacer(s.inline.end);
    Spacers(s.inline.start);
    Spacers(s.block.start);
    Spacers(s.block.end);
    Spacers(s.inline.end);
    DrawnAppend(ins, bs);
    DrawnAppend(ins + bs, [Content]);
    DrawnAppend(be, ie);
    DrawnAppend(ins + bs + [Content], be + ie);
    ElementsSplit(s);
  }

  /** A spacer draws its padding along its own axis and nothing across. */
  lemma Spacers(n: int)
    ensures BlockDrawn(InlineSpacer(n)) == 0 && InlineDrawn(InlineSpacer(n)) == Positive(n)
    ensures BlockDrawn(BlockSpacer(n)) == Positive(n) && InlineDrawn(BlockSpacer(n)) == 0
    ensures BlockDrawn([Content]) == 0 && InlineDrawn([Content]) == 0
  {
    if n > 0 {
      assert InlineSpacer(n)[..0] == [] && BlockSpacer(n)[..0] == [];
    }
    assert [Content][..0] == [];
  }

  lemma ElementsSplit(s: Sides)
    ensures Elements(s) == InlineSpacer(s.inline.start) + BlockSpacer(s.block.start) + [Content]
                           + (BlockSpacer(s.block.end) + InlineSpacer(s.inline.end))
  {
  }

  /** With no positive padding the padder holds its children alone. */
  lemma NothingToDraw(s: Sides)
    requires s.block.start <= 0 && s.block.end <= 0 && s.inline.start <= 0 && s.inline.end <= 0
    ensures Elements(s) == [Content]
  {
  }

  /** The props `Padder` reads: its size, the caller's style and the
      padding props gathered in `spacingProps`. */
  datatype PadderProps = PadderProps(width: Option<Scalar>, height: Option<Scalar>, style: Option<Style>, spacing: PaddingProps)

  datatype PadderView = PadderView(style: Style, elements: seq<Element>)

  /** The container's own custom properties. */
  function OwnStyle(width: Scalar, height: Scalar): (s: Style)
    ensures s.Keys == {"--padder-width", "--padder-height"}
  {
    map["--padder-width" := SValue(Plain(width)), "--padder-height" := SValue(Plain(height))]
  }

  /** `Padder(props)`. None is the TypeError `normalizePadding` raises for
      a `padding` key holding undefined. The size properties are spread
      over the caller's style, so they win. */
  function Render(p: PadderProps): (r: Option<PadderView>)
    ensures r.None? <==> NormalizePadding(p.spacing).None?
    ensures r.Some? ==> r.value.elements == Elements(NormalizePadding(p.spacing).value)
    ensures r.Some? ==> "--padder-width" in r.value.style && "--padder-height" in r.value.style
                        && r.value.style["--padder-width"] == SValue(Plain(p.width.GetOr(FitContent)))
                        && r.value.style["--padder-height"] == SValue(Plain(p.height.GetOr(FitContent)))
    ensures r.Some? ==> forall k :: k in p.style.GetOr(map[]) && k !in {"--padder-width", "--padder-height"} ==>
                          k in r.value.style && r.value.style[k] == p.style.GetOr(map[])[k]
    ensures r.Some? ==> r.value.style.Keys == p.style.GetOr(map[]).Keys + {"--padder-width", "--padder-height"}
  {
    match NormalizePadding(p.spacing)
    case None => None
    case Some(sides) =>
      var own := OwnStyle(p.width.GetOr(FitContent), p.height.GetOr(FitContent));
      CombinePair(p.style.GetOr(map[]), own);
      Some(PadderView(CombineStyles([Some(p.style.GetOr(map[])), Some(own)]), Elements(sides)))
  }

  /** A padding of 16 all round frames the children with four 16px
      spacers, inline start first. */
  lemma RenderExample(n: int)
    requires n == 16
    ensures var r := Render(PadderProps(None, None, None, PaddingProps(Has(PadNumber(n)), None, None)));
            r.Some? && r.value.elements == [SpacerEl(Num(n), Full, Visible), SpacerEl(Full, Num(n), Visible), Content,
                                             SpacerEl(Full, Num(n), Visible), SpacerEl(Num(n), Full, Visible)]
  {
  }
}

=== FILE: performance.dfy ===
/** `clamp` from utils/performance.ts. */
module Performance {

  /** `Math.min(Math.max(value, min), max)` */
  function Clamp(value: int, lo: int, hi: int): (r: int)
    ensures r <= hi
    ensures lo <= hi ==> lo <= r
    ensures lo <= value <= hi ==> r == value
    ensures value < lo <= hi ==> r == lo
    ensures value > hi ==> r == hi
    ensures lo > hi ==> r == hi
  {
    var raised := if value >= lo then value else lo;
    if raised <= hi then raised else hi
  }

  /** Clamping twice is clamping once. */
  lemma ClampIdempotent(value: int, lo: int, hi: int)
    requires lo <= hi
    ensures Clamp(Clamp(value, lo, hi), lo, hi) == Clamp(value, lo, hi)
  {
  }

  /** Clamping is monotone in the value. */
  lemma ClampMonotone(a: int, b: int, lo: int, hi: int)
    requires a <= b
    ensures Clamp(a, lo, hi) <= Clamp(b, lo, hi)
  {
  }

  /** `clamp(5, 10, 10)` is 10. */
  lemma ClampExample()
    ensures Clamp(5, 10, 10) == 10
    ensures Clamp(15, 0, 10) == 10
    ensures Clamp(-5, 0, 10) == 0
  {
  }
}

=== FILE: spacer.dfy ===
/** The Spacer component (components/Spacer/Spacer.tsx) and its size
    validator (components/Spacer/types.ts). */
module Spacer {
  import opened Js
  import opened Css
  import opened Styles
  import opened SpacerDimensions

  /** `SPACER`: the spacer defaults taken from the component config. */
  const DefaultBaseUnit := 8
  const DefaultVariant := "line"
  const DefaultVisibility := Hidden
  const DefaultZIndex := 0

  /** `GRID.DEFAULTS.BASE` */
  const GridBase := 8

  /** What `createSpacerSize` does: hand the value back or throw. */
  datatype SizeOutcome = Accepted(size: int) | Rejected(message: string)

  /** `createSpacerSize(value)`: only multiples of the fixed grid base 8 are
      accepted, whatever base a spacer is configured with. */
  function CreateSpacerSize(value: int): (r: SizeOutcome)
    ensures r.Accepted? <==> value % GridBase == 0
    ensures r.Accepted? ==> r.size == value
  {
    RemMultiple(value, GridBase);
    if Rem(value, GridBase) != Fin(0) then Rejected("SpacerSize must be a multiple of the base value")
    else Accepted(value)
  }

  /** The dimensions memo. `isFlat` stands for `isFlatVariant(config)`,
      which is not part of this model: the flat branch and the default
      branch compute the same thing. Unlike the hook, a truthy height and a
      truthy width are both snapped. */
  function Dimensions(read: CssReader, height: Option<PixelValue>, width: Option<PixelValue>, baseUnit: int, config: SpacerConfig, isFlat: bool): (d: (Dim, Dim))
    ensures IsLine(config) ==> d == (Full, Full)
    ensures !IsLine(config) ==>
              d.0 == (if TruthySize(height) then Size(NormalizeSpacerSize(read, height.value, baseUnit).value) else Full)
              && d.1 == (if TruthySize(width) then Size(NormalizeSpacerSize(read, width.value, baseUnit).value) else Full)
  {
    if IsLine(config) then (Full, Full)
    else if isFlat then
      (SnapOrFill(read, height, baseUnit), SnapOrFill(read, width, baseUnit))
    else
      (SnapOrFill(read, height, baseUnit), SnapOrFill(read, width, baseUnit))
  }

  /** `v ? normalizeSpacerSize(v, baseUnit) : '100%'` */
  function SnapOrFill(read: CssReader, v: Option<PixelValue>, baseUnit: int): (d: Dim)
    ensures TruthySize(v) <==> d.Size?
  {
    if TruthySize(v) then Size(NormalizeSpacerSize(read, v.value, baseUnit).value) else Full
  }

  /** Whether the config says flat or not changes nothing. */
  lemma FlatMatchesDefault(read: CssReader, height: Option<PixelValue>, width: Option<PixelValue>, baseUnit: int, config: SpacerConfig)
    ensures Dimensions(read, height, width, baseUnit, config, true) == Dimensions(read, height, width, baseUnit, config, false)
  {
  }

  /** The component snaps both sides where the hook snaps only the height:
      16 x 24 at base 8 stays 16 x 24 here. */
  lemma BothSidesSnapped(read: CssReader)
    ensures Dimensions(read, Some(PxNumber(16)), Some(PxNumber(24)), 8, SpacerConfig(Missing, None, None, None), false)
         == (Size(Fin(16)), Size(Fin(24)))
    ensures UseSpacerDimensions(read, Some(PxNumber(16)), Some(PxNumber(24)), 8, SpacerConfig(Missing, None, None, None)).width == Full
  {
  }

  /** One call of `indicatorNode(value, side)`. */
  datatype IndicatorCall = IndicatorCall(value: Number, side: string)

  /** The measurements memo, as the calls it makes: none at all (null)
      unless the spacer is visible and has an indicator; then one per
      numeric side, height first. */
  function IndicatorCalls(visibility: Visibility, hasIndicator: bool, dims: (Dim, Dim)): (r: Option<seq<IndicatorCall>>)
    ensures r.Some? <==> visibility == Visible && hasIndicator
    ensures r.Some? ==> |r.value| == (if dims.0.Size? then 1 else 0) + (if dims.1.Size? then 1 else 0)
    ensures r.Some? && dims.0.Size? ==> r.value[0] == IndicatorCall(dims.0.n, "height")
    ensures r.Some? && dims.1.Size? ==> r.value[|r.value| - 1] == IndicatorCall(dims.1.n, "width")
  {
    if visibility != Visible || !hasIndicator then None
    else
      var h := if dims.0.Size? then [IndicatorCall(dims.0.n, "height")] else [];
      var w := if dims.1.Size? then [IndicatorCall(dims.1.n, "width")] else [];
      Some(h + w)
  }

  /** With the default visibility the indicator is never called. */
  lemma HiddenByDefault(hasIndicator: bool, dims: (Dim, Dim))
    ensures IndicatorCalls(DefaultVisibility, hasIndicator, dims).None?
  {
  }

  /** The spacer's own style keys. `format` stands for `parseCSSValue`,
      which is not part of this model. The colour key is set only for a
      truthy custom colour. */
  function BaseStyles(dims: (Dim, Dim), baseUnit: int, zIndex: int, customColor: Option<string>, format: Dim -> string): (s: Style)
    ensures "--padd-spacer-color" in s <==> customColor.Some? && customColor.value != ""
    ensures "--padd-spacer-color" in s ==> s["--padd-spacer-color"] == SStr(customColor.value)
    ensures s.Keys >= {"--padd-spacer-height", "--padd-spacer-width", "--padd-base-unit", "--padd-z-index"}
    ensures s["--padd-spacer-height"] == SStr(format(dims.0)) && s["--padd-spacer-width"] == SStr(format(dims.1))
    ensures s["--padd-base-unit"] == SNum(baseUnit) && s["--padd-z-index"] == SNum(zIndex)
  {
    var base := map[
      "--padd-spacer-height" := SStr(format(dims.0)),
      "--padd-spacer-width" := SStr(format(dims.1)),
      "--padd-base-unit" := SNum(baseUnit),
      "--padd-z-index" := SNum(zIndex)];
    if customColor.Some? && customColor.value != "" then base["--padd-spacer-color" := SStr(customColor.value)]
    else base
  }

  /** The style the container gets: the spacer's keys, then the caller's
      style on top (`cs`, taken to be `combineStyles`). */
  function SpacerStyle(dims: (Dim, Dim), config: SpacerConfig, style: Style, format: Dim -> string): (s: Style)
    ensures forall k :: k in style ==> k in s && s[k] == style[k]
    ensures forall k :: k in s <==> k in style || k in BaseStyles(dims, config.baseUnit.GetOr(DefaultBaseUnit), config.zIndex.GetOr(DefaultZIndex), config.color, format)
    ensures MergedOver(s, BaseStyles(dims, config.baseUnit.GetOr(DefaultBaseUnit), config.zIndex.GetOr(DefaultZIndex), config.color, format), style)
  {
    var base := BaseStyles(dims, config.baseUnit.GetOr(DefaultBaseUnit), config.zIndex.GetOr(DefaultZIndex), config.color, format);
    CombinePair(base, style);
    CombineStyles([Some(base), Some(style)])
  }

  /** `data-variant`: the config's variant, else "line". */
  function DataVariant(config: SpacerConfig): (v: string)
    ensures config.variant.Has? ==> v == config.variant.value
    ensures !config.variant.Has? ==> v == DefaultVariant
  {
    config.variant.Read().GetOr(DefaultVariant)
  }

  lemma CreateSpacerSizeExamples()
    ensures CreateSpacerSize(16) == Accepted(16)
    ensures CreateSpacerSize(-24) == Accepted(-24)
    ensures CreateSpacerSize(12).Rejected?
  {
  }
}

=== FILE: spacer_dimensions.dfy ===
/** Spacer sizes snapped down to the baseline (hooks/useSpacerDimensions.ts). */
module SpacerDimensions {
  import opened Js
  import opened Css
  import Text

  /** One side of `SpacerDimensions`: "100%" or a number of pixels. */
  datatype Dim = Full | Size(n: Number)

  /** The spacer configuration as far as the dimension logic reads it. */
  datatype SpacerConfig = SpacerConfig(variant: Slot<string>, baseUnit: Option<int>, zIndex: Option<int>, color: Option<string>)

  /** `isLineVariant(config)`: a `variant` key equal to "line". */
  predicate IsLine(config: SpacerConfig) {
    config.variant.Present() && config.variant.Read() == Some("line")
  }

  /** JavaScript truthiness of an optional pixel value: undefined, 0 and ""
      are falsy. */
  predicate TruthySize(v: Option<PixelValue>) {
    match v
    case None => false
    case Some(PxNumber(n)) => n != 0
    case Some(PxString(s)) => s != ""
  }

  /** The snapped size and whether `console.warn` fired. */
  datatype Snapped = Snapped(value: Number, warned: bool)

  /** `normalizeSpacerSize(size, baseUnit)`: `num - num % baseUnit`, for a
      given reading of strings. A size that does not read as a number is
      `null`, which the arithmetic turns
      into 0, and `0 !== null` warns. A zero base makes the remainder NaN. */
  function NormalizeSpacerSize(read: CssReader, size: PixelValue, baseUnit: int): (r: Snapped)
    ensures baseUnit == 0 <==> r.value.NaN?
    ensures baseUnit != 0 ==> r.value.Fin? && r.value.v % baseUnit == 0
    ensures ExtractCssNumber(read, size).None? ==> r.warned && (baseUnit != 0 ==> r.value == Fin(0))
    ensures ExtractCssNumber(read, size).Some? ==> (r.warned <==> r.value != Fin(ExtractCssNumber(read, size).value))
    ensures ExtractCssNumber(read, size).Some? && baseUnit > 0 ==>
              var num := ExtractCssNumber(read, size).value;
              (num >= 0 ==> num - baseUnit < r.value.v <= num && r.value.v >= 0)
              && (num < 0 ==> num <= r.value.v < num + baseUnit && r.value.v <= 0)
  {
    var num := ExtractCssNumber(read, size);
    if baseUnit == 0 then Snapped(NaN, true)
    else
      var normalized := Fin(SnapDown(num.GetOr(0), baseUnit));
      Snapped(normalized, num.None? || normalized != Fin(num.value))
  }

  /** `n - n % b` with JavaScript's truncating remainder: the multiple of b
      next to n on the side of 0. */
  function SnapDown(n: int, b: int): (r: int)
    requires b != 0
    ensures r % b == 0
    ensures b > 0 && n >= 0 ==> n - b < r <= n && r >= 0
    ensures b > 0 && n < 0 ==> n <= r < n + b && r <= 0
    ensures n == 0 ==> r == 0
  {
    var rem := Rem(n, b).v;
    SnapBounds(n, b, rem);
    n - rem
  }

  lemma SnapBounds(n: int, b: int, rem: int)
    requires b != 0 && rem == Rem(n, b).v
    ensures (n - rem) % b == 0
    ensures b > 0 && n >= 0 ==> 0 <= rem <= n && rem < b
    ensures b > 0 && n < 0 ==> n <= rem <= 0 && -b < rem
    ensures n == 0 ==> rem == 0
  {
    RemMultiple(n, b);
    if b > 0 {
      if n >= 0 {
        ModAtMost(n, b);
      } else {
        ModAtMost(-n, b);
      }
    }
  }

  /** The remainder of a non-negative number is at most the number. */
  lemma ModAtMost(a: int, b: int)
    requires a >= 0 && b > 0
    ensures a % b <= a
  {
    if a >= b {
      assert a % b < b;
    } else {
      assert a / b == 0;
    }
  }

  /** `UseSpacerDimensionsResult`, with the warning the snap may raise. */
  datatype SpacerResult = SpacerResult(height: Dim, width: Dim, normalizedHeight: Option<Number>, normalizedWidth: Option<Number>, warned: bool)

  /** `useSpacerDimensions(...)`: the line variant fills both ways; otherwise
      a truthy height is snapped and the width fills, else a truthy width is
      snapped and the height fills, else both fill. */
  function UseSpacerDimensions(read: CssReader, height: Option<PixelValue>, width: Option<PixelValue>, baseUnit: int, config: SpacerConfig): (r: SpacerResult)
    ensures IsLine(config) ==> r == SpacerResult(Full, Full, None, None, false)
    ensures !IsLine(config) && TruthySize(height) ==>
              var s := NormalizeSpacerSize(read, height.value, baseUnit);
              r == SpacerResult(Size(s.value), Full, Some(s.value), None, s.warned)
    ensures !IsLine(config) && !TruthySize(height) && TruthySize(width) ==>
              var s := NormalizeSpacerSize(read, width.value, baseUnit);
              r == SpacerResult(Full, Size(s.value), None, Some(s.value), s.warned)
    ensures !TruthySize(height) && !TruthySize(width) ==> r == SpacerResult(Full, Full, None, None, false)
  {
    if IsLine(config) then SpacerResult(Full, Full, None, None, false)
    else if TruthySize(height) then
      var s := NormalizeSpacerSize(read, height.value, baseUnit);
      SpacerResult(Size(s.value), Full, Some(s.value), None, s.warned)
    else if TruthySize(width) then
      var s := NormalizeSpacerSize(read, width.value, baseUnit);
      SpacerResult(Full, Size(s.value), None, Some(s.value), s.warned)
    else SpacerResult(Full, Full, None, None, false)
  }

  /** At most one side is a number, and each normalized value is reported
      exactly when its side is a number. */
  lemma OneSideSized(read: CssReader, height: Option<PixelValue>, width: Option<PixelValue>, baseUnit: int, config: SpacerConfig)
    ensures var r := UseSpacerDimensions(read, height, width, baseUnit, config);
            !(r.height.Size? && r.width.Size?)
            && (r.normalizedHeight.Some? <==> r.height.Size?)
            && (r.normalizedWidth.Some? <==> r.width.Size?)
  {
  }

  /** When the height is truthy, the width argument plays no part. */
  lemma HeightFirst(read: CssReader, height: Option<PixelValue>, w1: Option<PixelValue>, w2: Option<PixelValue>, baseUnit: int, config: SpacerConfig)
    requires TruthySize(height)
    ensures UseSpacerDimensions(read, height, w1, baseUnit, config) == UseSpacerDimensions(read, height, w2, baseUnit, config)
  {
  }

  /** A height of 0 counts as no height. */
  lemma ZeroHeightIsAbsent(read: CssReader, width: Option<PixelValue>, baseUnit: int, config: SpacerConfig)
    ensures UseSpacerDimensions(read, Some(PxNumber(0)), width, baseUnit, config) == UseSpacerDimensions(read, None, width, baseUnit, config)
  {
  }

  /** A snapped size snaps to itself without warning. */
  lemma SnapIdempotent(read: CssReader, size: PixelValue, baseUnit: int)
    requires baseUnit != 0 && ExtractCssNumber(read, size).Some?
    ensures var once := NormalizeSpacerSize(read, size, baseUnit).value.v;
            NormalizeSpacerSize(read, PxNumber(once), baseUnit) == Snapped(Fin(once), false)
  {
    var once := NormalizeSpacerSize(read, size, baseUnit).value.v;
    RemMultiple(once, baseUnit);
  }

  /** At base 8: 42 snaps to 40 with a warning, 50 to 48, 40 stays; a
      string the reading rejects becomes 0, with a warning. */
  lemma SnapExamples(read: CssReader)
    requires read("invalid").None?
    ensures NormalizeSpacerSize(read, PxNumber(42), 8) == Snapped(Fin(40), true)
    ensures NormalizeSpacerSize(read, PxNumber(50), 8) == Snapped(Fin(48), true)
    ensures NormalizeSpacerSize(read, PxNumber(40), 8) == Snapped(Fin(40), false)
    ensures NormalizeSpacerSize(read, PxString("invalid"), 8) == Snapped(Fin(0), true)
  {
  }
}

=== FILE: spacing.dfy ===
/** Padding shapes normalised to block and inline pairs
    (utils/spacing.ts). */
module Spacing {
  import opened Js

  /** `Spacing`: one value for both ends, a `[start, end]` tuple, or a
      `{ start, end }` object. */
  datatype Spacing = Both(n: int) | Tuple(first: int, second: int) | Range(start: int, end: int)

  /** The `padding` shorthand: a number, a `[block, inline]` pair, a
      `[top, right, bottom, left]` quadruple, or an object whose four keys
      may each be left out. */
  datatype PaddingShape =
    | PadNumber(p: int)
    | PadPair(block: int, inline: int)
    | PadQuad(top: int, rightSide: int, bottom: int, leftSide: int)
    | PadObject(start: Option<int>, end: Option<int>, left: Option<int>, right: Option<int>)

  /** The props `normalizePadding` reads. */
  datatype PaddingProps = PaddingProps(padding: Slot<PaddingShape>, block: Option<Spacing>, inline: Option<Spacing>)

  /** A `[start, end]` pair. */
  datatype Pair = Pair(start: int, end: int)

  /** `{ block: [s, e], inline: [s, e] }` */
  datatype Sides = Sides(block: Pair, inline: Pair)

  /** `normalizeSpacing(value)` */
  function NormalizeSpacing(value: Spacing): (r: Pair)
    ensures value.Both? ==> r.start == r.end == value.n
    ensures value.Tuple? ==> r.start == value.first && r.end == value.second
    ensures value.Range? ==> r.start == value.start && r.end == value.end
  {
    match value
    case Both(n) => Pair(n, n)
    case Tuple(a, b) => Pair(a, b)
    case Range(s, e) => Pair(s, e)
  }

  /** `normalizePadding(props)`. A `padding` key that is present but holds
      undefined reaches the object destructuring and throws a TypeError
      (None). */
  function NormalizePadding(props: PaddingProps): (r: Option<Sides>)
    ensures r.None? <==> props.padding.Undefined?
    ensures props.padding.Has? && props.padding.value.PadNumber? ==>
              var p := props.padding.value.p;
              r == Some(Sides(Pair(p, p), Pair(p, p)))
    ensures props.padding.Has? && props.padding.value.PadPair? ==>
              var pad := props.padding.value;
              r == Some(Sides(Pair(pad.block, pad.block), Pair(pad.inline, pad.inline)))
    ensures props.padding.Has? && props.padding.value.PadQuad? ==>
              var pad := props.padding.value;
              r == Some(Sides(Pair(pad.top, pad.bottom), Pair(pad.leftSide, pad.rightSide)))
    ensures props.padding.Has? && props.padding.value.PadObject? ==>
              var pad := props.padding.value;
              r == Some(Sides(Pair(pad.start.GetOr(0), pad.end.GetOr(0)), Pair(pad.left.GetOr(0), pad.right.GetOr(0))))
    ensures props.padding.Missing? ==>
              r.Some? && (props.block.None? ==> r.value.block == Pair(0, 0))
              && (props.inline.None? ==> r.value.inline == Pair(0, 0))
  {
    match props.padding
    case Has(PadNumber(p)) => Some(Sides(Pair(p, p), Pair(p, p)))
    case Has(PadPair(b, i)) => Some(Sides(Pair(b, b), Pair(i, i)))
    case Has(PadQuad(t, rt, b, l)) => Some(Sides(Pair(t, b), Pair(l, rt)))
    case Has(PadObject(s, e, l, rt)) => Some(Sides(Pair(s.GetOr(0), e.GetOr(0)), Pair(l.GetOr(0), rt.GetOr(0))))
    case Undefined => None
    case Missing =>
      Some(Sides(NormalizeSpacing(props.block.GetOr(Both(0))), NormalizeSpacing(props.inline.GetOr(Both(0)))))
  }

  /** With the `padding` key present, the block and inline keys are
      ignored. */
  lemma PaddingWins(props: PaddingProps, block: Option<Spacing>, inline: Option<Spacing>)
    requires props.padding.Present()
    ensures NormalizePadding(props.(block := block, inline := inline)) == NormalizePadding(props)
  {
  }

  /** Without `padding`, each axis is the spacing given for it, normalised
      on its own. */
  lemma AxesIndependent(props: PaddingProps)
    requires props.padding.Missing?
    ensures props.block.Some? ==> NormalizePadding(props).value.block == NormalizeSpacing(props.block.value)
    ensures props.inline.Some? ==> NormalizePadding(props).value.inline == NormalizeSpacing(props.inline.value)
  {
  }

  /** The shorthand and the per-axis forms agree: a number p means
      `block: p, inline: p`, and a pair [b, i] means `block: b, inline: i`. */
  lemma ShorthandMatchesAxes(p: int, b: int, i: int)
    ensures NormalizePadding(PaddingProps(Has(PadNumber(p)), None, None))
         == NormalizePadding(PaddingProps(Missing, Some(Both(p)), Some(Both(p))))
    ensures NormalizePadding(PaddingProps(Has(PadPair(b, i)), None, None))
         == NormalizePadding(PaddingProps(Missing, Some(Both(b)), Some(Both(i))))
  {
  }
}

=== FILE: styles.dfy ===
/** Class-name joining, style merging and the formatting of grid values
    (utils/styles.ts). */
module Styles {
  import opened Js
  import opened Text
  import opened Css

  /** One argument of `combineClassNames`: a string, a boolean, or nullish. */
  datatype ClassArg = CStr(s: string) | CBool(b: bool) | CNullish

  /** `Boolean(arg)` */
  predicate Truthy(a: ClassArg) {
    match a
    case CStr(s) => s != ""
    case CBool(b) => b
    case CNullish => false
  }

  /** The string `join` makes of a kept argument. */
  function ClassText(a: ClassArg): string {
    match a
    case CStr(s) => s
    case CBool(b) => if b then "true" else "false"
    case CNullish => ""
  }

  /** `classes.filter(Boolean)`, as the strings `join` writes: the truthy
      arguments, in order. */
  function Kept(args: seq<ClassArg>): (r: seq<string>)
    ensures |r| <= |args|
    ensures forall i :: 0 <= i < |r| ==> r[i] != ""
    ensures |r| == 0 <==> forall i :: 0 <= i < |args| ==> !Truthy(args[i])
  {
    if |args| == 0 then []
    else
      var rest := Kept(args[1..]);
      assert forall i :: 1 <= i < |args| ==> args[i] == args[1..][i - 1];
      if Truthy(args[0]) then [ClassText(args[0])] + rest else rest
  }

  /** `combineClassNames(...classes)` */
  function CombineClassNames(args: seq<ClassArg>): (r: string)
    ensures (forall i :: 0 <= i < |args| ==> !Truthy(args[i])) ==> r == ""
  {
    Trim(Join(Kept(args), " "))
  }

  predicate Bare(s: string) {
    |s| > 0 && !IsSpace(s[0]) && !IsSpace(s[|s| - 1])
  }

  lemma TrimBare(s: string)
    requires Bare(s)
    ensures Trim(s) == s
  {
    assert TrimStart(s) == s;
  }

  predicate NoSpace(s: string) {
    forall j :: 0 <= j < |s| ==> s[j] != ' '
  }

  /** Joining never starts or ends with a space when the first and the last
      part do not. */
  lemma {:induction false} JoinBare(parts: seq<string>)
    requires |parts| > 0
    requires forall i :: 0 <= i < |parts| ==> Bare(parts[i])
    ensures Bare(Join(parts, " "))
  {
    if |parts| > 1 {
      JoinBare(parts[1..]);
      var tail := Join(parts[1..], " ");
      assert Join(parts, " ") == parts[0] + " " + tail;
    }
  }

  /** When the kept class names carry no white space, the result is those
      names joined by single spaces: splitting it at the spaces gives them
      back, in the order they were passed. */
  lemma CombineClassNamesSplits(args: seq<ClassArg>)
    requires forall i :: 0 <= i < |args| && Truthy(args[i]) ==> Bare(ClassText(args[i])) && NoSpace(ClassText(args[i]))
    requires exists i :: 0 <= i < |args| && Truthy(args[i])
    ensures Split(CombineClassNames(args), ' ') == Kept(args)
  {
    KeptBare(args);
    JoinedSplits(Kept(args));
  }

  /** Bare names without spaces, joined by single spaces and trimmed, split
      back into themselves. */
  lemma JoinedSplits(kept: seq<string>)
    requires |kept| > 0
    requires forall i :: 0 <= i < |kept| ==> Bare(kept[i]) && NoSpace(kept[i])
    ensures Split(Trim(Join(kept, " ")), ' ') == kept
  {
    JoinBare(kept);
    TrimBare(Join(kept, " "));
    SplitJoin(kept, ' ');
  }

  lemma {:induction false} KeptBare(args: seq<ClassArg>)
    requires forall i :: 0 <= i < |args| && Truthy(args[i]) ==> Bare(ClassText(args[i])) && NoSpace(ClassText(args[i]))
    ensures forall i :: 0 <= i < |Kept(args)| ==> Bare(Kept(args)[i]) && NoSpace(Kept(args)[i])
  {
    if |args| > 0 {
      assert forall i :: 1 <= i < |args| ==> args[i] == args[1..][i - 1];
      KeptBare(args[1..]);
    }
  }

  /** `combineClassNames('a', false, 'b', null, undefined)` is "a b". */
  lemma CombineClassNamesExample()
    ensures CombineClassNames([CStr("a"), CBool(false), CStr("b"), CNullish, CNullish]) == "a b"
  {
    var args := [CStr("a"), CBool(false), CStr("b"), CNullish, CNullish];
    assert Kept(args[4..]) == [];
    assert Kept(args[3..]) == [];
    assert Kept(args[2..]) == ["b"];
    assert Kept(args[1..]) == ["b"];
    assert Kept(args) == ["a", "b"];
    assert Join(["a", "b"], " ") == "a b";
    TrimBare("a b");
  }

  /** Argument i defines key k. */
  predicate Defines(styles: seq<Option<Style>>, i: int, k: string)
    requires 0 <= i < |styles|
  {
    styles[i].Some? && k in styles[i].value
  }

  /** `combineStyles(...styles)`: the arguments merged left to right, each
      later one spread over the earlier ones, undefined ones skipped. */
  function CombineStyles(styles: seq<Option<Style>>): Style {
    if |styles| == 0 then map[]
    else
      var acc := CombineStyles(styles[..|styles| - 1]);
      match styles[|styles| - 1]
      case None => acc
      case Some(s) => acc + s
  }

  /** The merged style has exactly the keys some argument defines. */
  lemma {:induction false} CombineStylesKeys(styles: seq<Option<Style>>, k: string)
    ensures k in CombineStyles(styles) <==> exists i :: 0 <= i < |styles| && Defines(styles, i, k)
  {
    if |styles| > 0 {
      var n := |styles| - 1;
      var acc := CombineStyles(styles[..n]);
      CombineStylesKeys(styles[..n], k);
      assert k in CombineStyles(styles) <==> k in acc || Defines(styles, n, k);
      if k in acc {
        var i :| 0 <= i < n && Defines(styles[..n], i, k);
        assert Defines(styles, i, k);
      }
      if exists i :: 0 <= i < |styles| && Defines(styles, i, k) {
        var i :| 0 <= i < |styles| && Defines(styles, i, k);
        if i < n {
          assert Defines(styles[..n], i, k);
        }
      }
    }
  }

  /** Each key of the merged style takes its value from the last argument
      that defines it. */
  lemma {:induction false} CombineStylesLastWins(styles: seq<Option<Style>>, k: string, i: int)
    requires 0 <= i < |styles| && Defines(styles, i, k)
    requires forall j :: i < j < |styles| ==> !Defines(styles, j, k)
    ensures k in CombineStyles(styles) && CombineStyles(styles)[k] == styles[i].value[k]
  {
    var n := |styles| - 1;
    if i < n {
      assert !Defines(styles, n, k);
      assert forall j :: i < j < n ==> !Defines(styles[..n], j, k) by {
        forall j | i < j < n ensures !Defines(styles[..n], j, k) {
          assert !Defines(styles, j, k);
        }
      }
      assert Defines(styles[..n], i, k);
      CombineStylesLastWins(styles[..n], k, i);
    }
  }

  /** An undefined argument can be dropped anywhere without changing the
      merged style. */
  lemma CombineStylesSkipsUndefined(a: seq<Option<Style>>, b: seq<Option<Style>>)
    ensures CombineStyles(a + [None] + b) == CombineStyles(a + b)
  {
    var s := a + [None] + b;
    var t := a + b;
    forall k
      ensures k in CombineStyles(s) <==> k in CombineStyles(t)
      ensures k in CombineStyles(s) ==> CombineStyles(s)[k] == CombineStyles(t)[k]
    {
      SkipOne(a, b, k);
    }
  }

  lemma SkipOne(a: seq<Option<Style>>, b: seq<Option<Style>>, k: string)
    ensures k in CombineStyles(a + [None] + b) <==> k in CombineStyles(a + b)
    ensures k in CombineStyles(a + b) ==> CombineStyles(a + [None] + b)[k] == CombineStyles(a + b)[k]
  {
    SkipKeys(a, b, k);
    if k in CombineStyles(a + b) {
      SkipValue(a, b, k);
    }
  }

  /** Where the arguments sit once the undefined one is inserted. */
  lemma Shifted(a: seq<Option<Style>>, b: seq<Option<Style>>)
    ensures |a + [None] + b| == |a + b| + 1 && (a + [None] + b)[|a|] == None
    ensures forall j :: 0 <= j < |a| ==> (a + [None] + b)[j] == (a + b)[j]
    ensures forall j :: |a| < j < |a + [None] + b| ==> (a + [None] + b)[j] == (a + b)[j - 1]
  {
  }

  lemma SkipKeys(a: seq<Option<Style>>, b: seq<Option<Style>>, k: string)
    ensures k in CombineStyles(a + [None] + b) <==> k in CombineStyles(a + b)
  {
    var s := a + [None] + b;
    var t := a + b;
    Shifted(a, b);
    CombineStylesKeys(s, k);
    CombineStylesKeys(t, k);
    if exists i :: 0 <= i < |s| && Defines(s, i, k) {
      var i :| 0 <= i < |s| && Defines(s, i, k);
      if i < |a| { assert Defines(t, i, k); } else { assert Defines(t, i - 1, k); }
    }
    if exists i :: 0 <= i < |t| && Defines(t, i, k) {
      var i :| 0 <= i < |t| && Defines(t, i, k);
      if i < |a| { assert Defines(s, i, k); } else { assert Defines(s, i + 1, k); }
    }
  }

  lemma SkipValue(a: seq<Option<Style>>, b: seq<Option<Style>>, k: string)
    requires k in CombineStyles(a + b)
    ensures k in CombineStyles(a + [None] + b) && CombineStyles(a + [None] + b)[k] == CombineStyles(a + b)[k]
  {
    var s := a + [None] + b;
    var t := a + b;
    Shifted(a, b);
    SkipKeys(a, b, k);
    CombineStylesKeys(t, k);
    var m := LastDefiner(t, k);
    var m' := if m < |a| then m else m + 1;
    assert Defines(s, m', k);
    forall j | m' < j < |s|
      ensures !Defines(s, j, k)
    {
      if j < |a| { assert !Defines(t, j, k); }
      else if j > |a| { assert !Defines(t, j - 1, k); }
    }
    CombineStylesLastWins(s, k, m');
    CombineStylesLastWins(t, k, m);
  }

  /** s is the caller's style merged over a component's own: it holds
      exactly the keys of both, the caller's value wherever the caller sets
      the key, and the component's own value everywhere else. */
  predicate MergedOver(s: Style, own: Style, user: Style) {
    s.Keys == own.Keys + user.Keys
    && (forall k :: k in user ==> s[k] == user[k])
    && (forall k :: k in own && k !in user ==> s[k] == own[k])
  }

  /** Two styles merge as a map union in which the second wins. */
  lemma CombinePair(a: Style, b: Style)
    ensures CombineStyles([Some(a), Some(b)]) == a + b
  {
    var s := [Some(a), Some(b)];
    assert s[..1] == [Some(a)];
    assert [Some(a)][..0] == [];
    assert CombineStyles([Some(a)]) == map[] + a;
    assert map[] + a == a;
  }

  /** The last argument that defines a key of the merged style. */
  function LastDefiner(styles: seq<Option<Style>>, k: string): (i: nat)
    requires exists i :: 0 <= i < |styles| && Defines(styles, i, k)
    ensures i < |styles| && Defines(styles, i, k)
    ensures forall j :: i < j < |styles| ==> !Defines(styles, j, k)
  {
    var n := |styles| - 1;
    if Defines(styles, n, k) then n
    else
      assert forall i :: 0 <= i < n ==> (Defines(styles[..n], i, k) <==> Defines(styles, i, k));
      LastDefiner(styles[..n], k)
  }

  /** `parseGridValue` for a number or a string: n becomes "npx", a string
      ('auto' included) is kept verbatim. */
  function ParseScalar(v: Scalar): (r: string)
    ensures v.Str? ==> r == v.s
    ensures v.Num? ==> EndsWith(r, "px") && ParseInt(r) == Fin(v.n)
  {
    match v
    case Num(n) =>
      ParseIntOfFormatted(n, "px");
      Px(n)
    case Str(s) => s
  }

  /** `parseGridValue(value)`: a responsive object that reaches it is turned
      into a string by `toString`. */
  function ParseGridValue(v: CssValue): (r: string)
    ensures v.Plain? ==> r == ParseScalar(v.v)
    ensures v.Responsive? ==> r == "[object Object]"
  {
    match v
    case Plain(s) => ParseScalar(s)
    case Responsive(_) => "[object Object]"
  }

  /** One entry of a responsive value, rendered: the base entry bare. Any
      other entry indexes `GRID.BREAKPOINTS`, which the constants do not
      define, so it throws a TypeError (None). */
  function RenderEntry(b: Breakpoint, v: Scalar): (r: Option<string>)
    ensures r.Some? <==> b == Base
    ensures r.Some? ==> r.value == ParseScalar(v)
  {
    if b == Base then Some(ParseScalar(v)) else None
  }

  /** Some entry would be rendered under a breakpoint: a defined value
      under a key other than base. */
  predicate ReadsBreakpoints(entries: seq<(Breakpoint, Option<Scalar>)>) {
    exists i :: 0 <= i < |entries| && entries[i].0 != Base && entries[i].1.Some?
  }

  /** The rendered entries of a responsive value, the undefined ones
      dropped; None when one of them throws. */
  function RenderEntries(entries: seq<(Breakpoint, Option<Scalar>)>): (r: Option<seq<string>>)
    ensures r.None? <==> ReadsBreakpoints(entries)
    ensures r.Some? ==> |r.value| <= |entries|
    ensures r.Some? && (forall i :: 0 <= i < |entries| ==> entries[i].1.Some?) ==>
              |r.value| == |entries| && forall i :: 0 <= i < |entries| ==> r.value[i] == ParseScalar(entries[i].1.value)
    ensures (forall i :: 0 <= i < |entries| ==> entries[i].1.None?) ==> r == Some([])
  {
    if |entries| == 0 then Some([])
    else
      var rest := RenderEntries(entries[1..]);
      assert forall i :: 1 <= i < |entries| ==> entries[i] == entries[1..][i - 1];
      assert ReadsBreakpoints(entries[1..]) ==> ReadsBreakpoints(entries) by {
        if ReadsBreakpoints(entries[1..]) {
          var i :| 0 <= i < |entries[1..]| && entries[1..][i].0 != Base && entries[1..][i].1.Some?;
          assert entries[i + 1] == entries[1..][i];
        }
      }
      match entries[0].1
      case None => rest
      case Some(v) =>
        match RenderEntry(entries[0].0, v)
        case None => None
        case Some(t) => if rest.None? then None else Some([t] + rest.value)
  }

  /** What `parseResponsiveGridValue` produces: its string (undefined when
      the default is), or the TypeError of a responsive entry under a
      breakpoint. */
  datatype GridValue = Rendered(text: Option<string>) | BreakpointsUndefined

  /** `parseResponsiveGridValue(value, defaultValue)`. The default's default
      is `GRID.DEFAULTS.MAX_WIDTH`, which the constants do not define, so it
      is `undefined` (None) unless the caller passes one. */
  function ParseResponsiveGridValue(value: Option<CssValue>, default: Option<string>): (r: GridValue)
    ensures value.None? ==> r == Rendered(default)
    ensures value.Some? && value.value.Plain? ==> r == Rendered(Some(ParseScalar(value.value.v)))
    ensures r.BreakpointsUndefined? <==> value.Some? && value.value.Responsive? && ReadsBreakpoints(value.value.entries)
    ensures value.Some? && r.Rendered? ==> r.text.Some?
  {
    match value
    case None => Rendered(default)
    case Some(Plain(s)) => Rendered(Some(ParseScalar(s)))
    case Some(Responsive(entries)) =>
      match RenderEntries(entries)
      case None => BreakpointsUndefined
      case Some(texts) => Rendered(Some(Join(texts, "; ")))
  }

  /** A responsive value with only a base entry renders like the plain
      value. */
  lemma ResponsiveBaseOnly(v: Scalar, default: Option<string>)
    ensures ParseResponsiveGridValue(Some(Responsive([(Base, Some(v))])), default)
         == ParseResponsiveGridValue(Some(Plain(v)), default)
  {
    var one := [(Base, Some(v))];
    assert one[1..] == [];
    BaseThenNothing(one, v);
  }

  /** A responsive value with no defined entry renders as the empty
      string, and an undefined entry under a breakpoint is dropped without
      reading the breakpoint table. */
  lemma ResponsiveUndefinedDropped(v: Scalar, b: Breakpoint, default: Option<string>)
    ensures ParseResponsiveGridValue(Some(Responsive([(b, None)])), default) == Rendered(Some(""))
    ensures ParseResponsiveGridValue(Some(Responsive([(Base, Some(v)), (b, None)])), default)
         == Rendered(Some(ParseScalar(v)))
  {
    var none := [(b, None)];
    assert none[1..] == [];
    assert RenderEntries(none) == Some([]);
    var entries := [(Base, Some(v)), (b, None)];
    assert entries[1..] == none;
    BaseThenNothing(entries, v);
  }

  /** A base entry followed by entries that render to nothing renders as
      that entry alone. */
  lemma BaseThenNothing(entries: seq<(Breakpoint, Option<Scalar>)>, v: Scalar)
    requires |entries| > 0 && entries[0] == (Base, Some(v))
    requires RenderEntries(entries[1..]) == Some([])
    ensures RenderEntries(entries) == Some([ParseScalar(v)])
  {
    var rest := RenderEntries(entries[1..]);
    assert RenderEntry(entries[0].0, v) == Some(ParseScalar(v));
    assert rest.value == [];
    assert [ParseScalar(v)] + rest.value == [ParseScalar(v)];
  }

  /** A base entry and a defined entry under a breakpoint: rendering the
      second reads the undefined breakpoint table and throws, whatever the
      order of the entries. */
  lemma ResponsiveBreakpointThrows(a: Scalar, b: Breakpoint, v: Scalar, default: Option<string>)
    requires b != Base
    ensures ParseResponsiveGridValue(Some(Responsive([(Base, Some(a)), (b, Some(v))])), default) == BreakpointsUndefined
    ensures ParseResponsiveGridValue(Some(Responsive([(b, Some(v)), (Base, Some(a))])), default) == BreakpointsUndefined
  {
    var entries := [(Base, Some(a)), (b, Some(v))];
    assert entries[1].0 != Base && entries[1].1.Some?;
    var flipped := [(b, Some(v)), (Base, Some(a))];
    assert flipped[0].0 != Base && flipped[0].1.Some?;
  }
}

=== FILE: text.dfy ===
/** String helpers shared by the model: decimal formatting of integers (the
    `${n}` of a template literal), JavaScript `parseInt(s, 10)`, and the
    `join`, `trim` and `endsWith` of `String`/`Array`. */
module Text {
  import opened Js

  predicate IsDigit(c: char) {
    '0' <= c <= '9'
  }

  predicate AllDigits(s: string) {
    forall i :: 0 <= i < |s| ==> IsDigit(s[i])
  }

  function DigitChar(d: int): (c: char)
    requires 0 <= d < 10
    ensures IsDigit(c) && c as int - '0' as int == d
  {
    "0123456789"[d]
  }

  function DigitValue(c: char): (d: nat)
    requires IsDigit(c)
    ensures d < 10 && DigitChar(d) == c
  {
    c as int - '0' as int
  }

  /** Decimal digits of a natural number, without leading zeros. */
  function NatToString(n: nat): (s: string)
    ensures |s| > 0 && AllDigits(s)
    ensures n >= 10 <==> |s| > 1
  {
    if n < 10 then [DigitChar(n)] else NatToString(n / 10) + [DigitChar(n % 10)]
  }

  /** `${n}` for an integer n. */
  function IntToString(n: int): (s: string)
    ensures |s| > 0
    ensures n < 0 <==> s[0] == '-'
    ensures n >= 0 ==> AllDigits(s)
    ensures n < 0 ==> |s| > 1 && AllDigits(s[1..])
  {
    if n < 0 then "-" + NatToString(-n) else NatToString(n)
  }

  /** `${n}px` */
  function Px(n: int): string {
    IntToString(n) + "px"
  }

  /** `${x}` for the numbers integer arithmetic can produce. */
  function NumberToString(x: Number): string {
    match x
    case NaN => "NaN"
    case PosInf => "Infinity"
    case NegInf => "-Infinity"
    case Fin(v) => IntToString(v)
  }

  /** The value of a string of decimal digits. */
  function DigitsValue(s: string): nat
    requires AllDigits(s)
  {
    if |s| == 0 then 0 else 10 * DigitsValue(s[..|s| - 1]) + DigitValue(s[|s| - 1])
  }

  lemma {:induction false} NatToStringValue(n: nat)
    ensures DigitsValue(NatToString(n)) == n
  {
    if n >= 10 {
      var s := NatToString(n);
      assert s[..|s| - 1] == NatToString(n / 10);
      NatToStringValue(n / 10);
    }
  }

  /** Length of the longest run of digits at the front of s. */
  function DigitPrefixLength(s: string): (k: nat)
    ensures k <= |s|
    ensures AllDigits(s[..k])
    ensures k < |s| ==> !IsDigit(s[k])
  {
    if |s| == 0 || !IsDigit(s[0]) then 0
    else
      var k := 1 + DigitPrefixLength(s[1..]);
      assert s[..k] == [s[0]] + s[1..][..k - 1];
      k
  }

  /** The white space and line terminators that `parseInt` and `trim` skip:
      the ASCII ones, no-break space, the byte order mark, the Unicode space
      separators (category Zs) and the line and paragraph separators. */
  predicate IsSpace(c: char) {
    c == ' ' || c == '\t' || c == '\n' || c == '\r' || c == '\U{000B}' || c == '\U{000C}'
    || c == '\U{00A0}' || c == '\U{FEFF}' || c == '\U{2028}' || c == '\U{2029}'
    || c == '\U{1680}' || ('\U{2000}' <= c <= '\U{200A}') || c == '\U{202F}' || c == '\U{205F}' || c == '\U{3000}'
  }

  /** `trimStart`: the longest suffix of s that does not start with white
      space; what it drops is all white space. */
  function TrimStart(s: string): (t: string)
    ensures |t| <= |s| && t == s[|s| - |t|..]
    ensures |t| > 0 ==> !IsSpace(t[0])
    ensures |s| > 0 && !IsSpace(s[0]) ==> t == s
    ensures AllSpace(s[..|s| - |t|])
  {
    if |s| > 0 && IsSpace(s[0]) then
      var t := TrimStart(s[1..]);
      assert s[1..][|s| - 1 - |t|..] == s[|s| - |t|..];
      SpaceBefore(s, |s| - |t|);
      t
    else s
  }

  /** `trimEnd`: the longest prefix of s that does not end with white space;
      what it drops is all white space. */
  function TrimEnd(s: string): (t: string)
    ensures |t| <= |s| && t == s[..|t|]
    ensures |t| > 0 ==> !IsSpace(t[|t| - 1])
    ensures |s| > 0 && !IsSpace(s[|s| - 1]) ==> t == s
    ensures AllSpace(s[|t|..])
  {
    if |s| > 0 && IsSpace(s[|s| - 1]) then
      var t := TrimEnd(s[..|s| - 1]);
      SpaceAfter(s, |t|);
      t
    else s
  }

  predicate AllSpace(s: string) {
    forall i :: 0 <= i < |s| ==> IsSpace(s[i])
  }

  /** White space followed by white space is white space. */
  lemma SpaceBefore(s: string, k: int)
    requires 0 < k <= |s| && IsSpace(s[0]) && AllSpace(s[1..][..k - 1])
    ensures AllSpace(s[..k])
  {
    forall i | 0 < i < k
      ensures IsSpace(s[..k][i])
    {
      assert s[..k][i] == s[1..][..k - 1][i - 1];
    }
  }

  /** White space preceded by white space is white space. */
  lemma SpaceAfter(s: string, k: int)
    requires 0 <= k < |s| && IsSpace(s[|s| - 1]) && AllSpace(s[..|s| - 1][k..])
    ensures AllSpace(s[k..])
  {
    forall i | 0 <= i < |s| - 1 - k
      ensures IsSpace(s[k..][i])
    {
      assert s[k..][i] == s[..|s| - 1][k..][i];
    }
  }

  /** `s.trim()` */
  function Trim(s: string): string {
    TrimEnd(TrimStart(s))
  }

  /** The value of the longest run of decimal digits at the front of u;
      NaN when u does not start with a digit. */
  function LeadingDigits(u: string): (r: Number)
    ensures r.NaN? || (r.Fin? && r.v >= 0)
  {
    var k := DigitPrefixLength(u);
    if k == 0 then NaN else Fin(DigitsValue(u[..k]))
  }

  /** `parseInt(s, 10)`: skip leading white space, read an optional sign,
      then the longest run of decimal digits; no digits gives NaN. */
  function ParseInt(s: string): (r: Number)
    ensures r.NaN? || r.Fin?
  {
    var t := TrimStart(s);
    if |t| > 0 && t[0] == '-' then
      match LeadingDigits(t[1..])
      case Fin(m) => Fin(-m)
      case _ => NaN
    else if |t| > 0 && t[0] == '+' then LeadingDigits(t[1..])
    else LeadingDigits(t)
  }

  /** A string that starts with neither white space, a sign nor a digit
      reads as NaN. */
  lemma ParseIntNoDigits(s: string)
    requires |s| > 0 && !IsSpace(s[0]) && !IsDigit(s[0]) && s[0] != '-' && s[0] != '+'
    ensures ParseInt(s).NaN?
  {
    assert DigitPrefixLength(s) == 0;
  }

  /** Reading back a formatted integer: `parseInt(`${n}${rest}`)` is n
      whenever `rest` does not continue the digits. */
  lemma ParseIntOfFormatted(n: int, rest: string)
    requires |rest| == 0 || !IsDigit(rest[0])
    ensures ParseInt(IntToString(n) + rest) == Fin(n)
  {
    if n >= 0 {
      ParseUnsigned(n, rest);
      SameParse(NatToString(n) + rest, IntToString(n) + rest);
    } else {
      ParseNegative(-n, rest);
      AppendAssoc("-", NatToString(-n), rest);
      SameParse("-" + (NatToString(-n) + rest), IntToString(n) + rest);
    }
  }

  lemma SameParse(a: string, b: string)
    requires a == b
    ensures ParseInt(a) == ParseInt(b)
  {
  }

  lemma AppendAssoc(a: string, b: string, c: string)
    ensures a + b + c == a + (b + c)
  {
  }

  lemma ParseUnsigned(m: nat, rest: string)
    requires |rest| == 0 || !IsDigit(rest[0])
    ensures ParseInt(NatToString(m) + rest) == Fin(m)
  {
    UnsignedPrefix(m, rest);
    ParseIntUnsigned(NatToString(m) + rest);
  }

  lemma ParseNegative(m: nat, rest: string)
    requires |rest| == 0 || !IsDigit(rest[0])
    ensures ParseInt("-" + (NatToString(m) + rest)) == Fin(-(m as int))
  {
    UnsignedPrefix(m, rest);
    ParseIntNegative("-" + (NatToString(m) + rest), NatToString(m) + rest, m);
  }

  /** A string with no white space or sign in front parses as its leading
      digits. */
  lemma ParseIntUnsigned(u: string)
    requires TrimStart(u) == u && |u| > 0 && u[0] != '-' && u[0] != '+'
    ensures ParseInt(u) == LeadingDigits(u)
  {
  }

  /** A minus sign in front negates the leading digits after it. */
  lemma ParseIntNegative(s: string, u: string, m: nat)
    requires s == "-" + u && LeadingDigits(u) == Fin(m)
    ensures ParseInt(s) == Fin(-(m as int))
  {
    assert s[0] == '-';
    assert TrimStart(s) == s;
    assert s[1..] == u;
  }

  /** The digits of m followed by a non-digit: nothing to trim, no sign,
      and the digit run reads back as m. */
  lemma UnsignedPrefix(m: nat, rest: string)
    requires |rest| == 0 || !IsDigit(rest[0])
    ensures var u := NatToString(m) + rest;
            TrimStart(u) == u && u[0] != '-' && u[0] != '+' && LeadingDigits(u) == Fin(m)
  {
    var d := NatToString(m);
    var u := d + rest;
    assert u[0] == d[0];
    DigitRunLength(d, rest);
    assert u[..|d|] == d;
    NatToStringValue(m);
  }

  lemma {:induction false} DigitRunLength(digits: string, rest: string)
    requires AllDigits(digits)
    requires |rest| == 0 || !IsDigit(rest[0])
    ensures DigitPrefixLength(digits + rest) == |digits|
  {
    if |digits| > 0 {
      assert (digits + rest)[1..] == digits[1..] + rest;
      DigitRunLength(digits[1..], rest);
    }
  }

  function EndsWith(s: string, suffix: string): bool {
    |suffix| <= |s| && s[|s| - |suffix|..] == suffix
  }

  /** `parts.join(sep)` */
  function Join(parts: seq<string>, sep: string): string {
    if |parts| == 0 then ""
    else if |parts| == 1 then parts[0]
    else parts[0] + sep + Join(parts[1..], sep)
  }

  /** Splitting a string at every occurrence of one character, as
      `s.split(c)` does. */
  function Split(s: string, c: char): (parts: seq<string>)
    ensures |parts| > 0
  {
    if |s| == 0 then [""]
    else
      var rest := Split(s[1..], c);
      if s[0] == c then [""] + rest
      else [[s[0]] + rest[0]] + rest[1..]
  }

  lemma {:induction false} SplitPrefix(a: string, b: string, c: char)
    requires forall i :: 0 <= i < |a| ==> a[i] != c
    ensures Split(a + b, c) == [a + Split(b, c)[0]] + Split(b, c)[1..]
  {
    if |a| == 0 {
      assert a + b == b;
      var parts := Split(b, c);
      assert a + parts[0] == parts[0];
      assert parts == [parts[0]] + parts[1..];
    } else {
      assert (a + b)[1..] == a[1..] + b;
      SplitPrefix(a[1..], b, c);
      assert [a[0]] + (a[1..] + Split(b, c)[0]) == a + Split(b, c)[0];
    }
  }

  /** `join` and `split` are inverse on a non-empty list of parts none of
      which contains the separator. */
  lemma {:induction false} SplitJoin(parts: seq<string>, c: char)
    requires |parts| > 0
    requires forall i, j :: 0 <= i < |parts| && 0 <= j < |parts[i]| ==> parts[i][j] != c
    ensures Split(Join(parts, [c]), c) == parts
  {
    if |parts| == 1 {
      SplitPrefix(parts[0], "", c);
      assert parts[0] + "" == parts[0];
      assert Split("", c) == [""];
      assert parts == [parts[0]];
    } else {
      var tail := Join(parts[1..], [c]);
      SplitJoin(parts[1..], c);
      assert parts[0] + [c] + tail == parts[0] + ([c] + tail);
      SplitPrefix(parts[0], [c] + tail, c);
      assert ([c] + tail)[1..] == tail;
      assert Split([c] + tail, c) == [""] + parts[1..];
      assert Join(parts, [c]) == parts[0] + ([c] + tail);
      assert parts[0] + "" == parts[0];
      assert ([""] + parts[1..])[1..] == parts[1..];
      assert parts == [parts[0]] + parts[1..];
    }
  }
}

=== FILE: theme.dfy ===
/** The theme: root defaults and per-component defaults
    (context/theme.ts). */
module Theme {

  /** The components that read a themed config. */
  datatype ComponentKey = BoxKey | PadderKey | SpacerKey

  /** A field of a component config: a number, a string, or a small table
      of strings (the spacer's colours). */
  datatype Field = FNum(n: int) | FText(s: string) | FTable(entries: map<string, string>)

  /** The names a component config's fields go by. */
  datatype FieldName = BaseUnitField | ZIndexField | ColorField | ColorsField | VariantField | VisibilityField

  type Fields = map<FieldName, Field>

  /** `ROOT` */
  const RootBaseUnit := 8
  const RootZIndex := 0
  const RootVariants: map<string, string> := map["flat" := "flat", "line" := "line"]
  const RootVisibility: map<string, string> := map["visible" := "visible", "hidden" := "hidden", "none" := "none"]

  /** `COMPONENTS` */
  function Components(key: ComponentKey): Fields {
    match key
    case BoxKey => map[ColorField := FText("var(--box-color)"), VisibilityField := FText("hidden")]
    case PadderKey => map[ColorField := FText("var(--padder-color)"), VariantField := FText("flat"), VisibilityField := FText("hidden")]
    case SpacerKey =>
      map[ColorsField := FTable(map["line" := "var(--spacer-color-line)", "flat" := "var(--spacer-color-flat)",
                                 "indice" := "var(--spacer-color-indice)"]),
          VariantField := FText("line"), VisibilityField := FText("hidden")]
  }

  /** `THEME`: ROOT's fields, and for each component its config. */
  datatype ThemeValue = ThemeValue(
    baseUnit: int,
    zIndex: int,
    variants: map<string, string>,
    visibility: map<string, string>,
    components: ComponentKey -> Fields)

  /** The root defaults in front of a component's own fields. */
  function WithRootDefaults(own: Fields): (r: Fields)
    ensures r.Keys == own.Keys + {BaseUnitField, ZIndexField}
    ensures forall f :: f in own ==> r[f] == own[f]
    ensures BaseUnitField !in own ==> r[BaseUnitField] == FNum(RootBaseUnit)
    ensures ZIndexField !in own ==> r[ZIndexField] == FNum(RootZIndex)
  {
    map[BaseUnitField := FNum(RootBaseUnit), ZIndexField := FNum(RootZIndex)] + own
  }

  /** A component's entry in `THEME`: its own fields behind the root
      defaults. */
  function ComponentTheme(key: ComponentKey): (r: Fields)
    ensures r.Keys == Components(key).Keys + {BaseUnitField, ZIndexField}
  {
    WithRootDefaults(Components(key))
  }

  /** `THEME` built from `ROOT` and `COMPONENTS` by a fold that spreads the
      root defaults in front of each component's fields. */
  function ThemeConfig(): (t: ThemeValue)
    ensures t.baseUnit == RootBaseUnit && t.zIndex == RootZIndex
    ensures t.variants == RootVariants && t.visibility == RootVisibility
    ensures forall k :: t.components(k) == WithRootDefaults(Components(k))
  {
    ThemeValue(RootBaseUnit, RootZIndex, RootVariants, RootVisibility, ComponentTheme)
  }

  /** Every themed component has base unit 8 and z-index 0 and is hidden;
      the spacer is a line and the padder flat. */
  lemma ThemeDefaults(k: ComponentKey)
    ensures BaseUnitField in ThemeConfig().components(k) && ThemeConfig().components(k)[BaseUnitField] == FNum(8)
    ensures ZIndexField in ThemeConfig().components(k) && ThemeConfig().components(k)[ZIndexField] == FNum(0)
    ensures VisibilityField in ThemeConfig().components(k) && ThemeConfig().components(k)[VisibilityField] == FText("hidden")
    ensures VariantField in ThemeConfig().components(SpacerKey) && ThemeConfig().components(SpacerKey)[VariantField] == FText("line")
    ensures VariantField in ThemeConfig().components(PadderKey) && ThemeConfig().components(PadderKey)[VariantField] == FText("flat")
  {
    OwnFields(k);
    OwnFields(SpacerKey);
    OwnFields(PadderKey);
  }

  /** What every component's own defaults hold: no root field, and a
      hidden visibility. */
  lemma OwnFields(k: ComponentKey)
    ensures BaseUnitField !in Components(k) && ZIndexField !in Components(k)
    ensures VisibilityField in Components(k) && Components(k)[VisibilityField] == FText("hidden")
    ensures k == SpacerKey ==> VariantField in Components(k) && Components(k)[VariantField] == FText("line")
    ensures k == PadderKey ==> VariantField in Components(k) && Components(k)[VariantField] == FText("flat")
  {
  }
}

=== FILE: units.dfy ===
/** CSS unit parsing, classification, conversion to pixels and formatting
    (utils/units.ts). Lengths are exact reals here. */
module Units {
  import opened Js
  import opened Text
  import opened Css

  /** A number `parseFloat` can return on the strings the unit pattern
      admits: NaN (for ".") or a finite value. */
  datatype Float = FNaN | F(x: real)

  /** The result of `parseCSSUnit`. */
  datatype Parsed = Parsed(value: Float, unit: string)

  predicate UnitChar(c: char) {
    'a' <= c <= 'z' || c == '%'
  }

  predicate NumChar(c: char) {
    IsDigit(c) || c == '.'
  }

  predicate IsSign(c: char) {
    c == '+' || c == '-'
  }

  /** `[+-]?[\d.]+` */
  predicate NumberPart(p: string) {
    |p| > 0 &&
    var q := if IsSign(p[0]) then p[1..] else p;
    |q| > 0 && forall i :: 0 <= i < |q| ==> NumChar(q[i])
  }

  /** `[a-z%]+` */
  predicate UnitPart(u: string) {
    |u| > 0 && forall i :: 0 <= i < |u| ==> UnitChar(u[i])
  }

  /** The pattern `^([+-]?[\d.]+)([a-z%]+)$` matches s with the number
      ending at k. */
  predicate SplitsAt(s: string, k: int) {
    0 <= k <= |s| && NumberPart(s[..k]) && UnitPart(s[k..])
  }

  /** Length of the run of unit characters at the end of s. */
  function UnitRunLength(s: string): (n: nat)
    ensures n <= |s|
    ensures forall i :: |s| - n <= i < |s| ==> UnitChar(s[i])
    ensures n < |s| ==> !UnitChar(s[|s| - n - 1])
  {
    if |s| == 0 || !UnitChar(s[|s| - 1]) then 0
    else 1 + UnitRunLength(s[..|s| - 1])
  }

  function Pow10(n: nat): (r: nat)
    ensures r >= 1
  {
    if n == 0 then 1 else 10 * Pow10(n - 1)
  }

  /** `parseFloat` on an unsigned string of digits and dots: the digits up
      to the first dot, then the digits after it up to the next non-digit;
      NaN when there is no digit in either place. */
  function DecimalValue(q: string): (r: Float)
    ensures AllDigits(q) && |q| > 0 ==> r == F(DigitsValue(q) as real)
  {
    var i := DigitPrefixLength(q);
    var frac := if i < |q| && q[i] == '.' then q[i + 1..][..DigitPrefixLength(q[i + 1..])] else "";
    assert AllDigits(q) && |q| > 0 ==> i == |q| && q[..i] == q by {
      if AllDigits(q) && |q| > 0 {
        DigitRunLength(q, "");
        assert q + "" == q;
      }
    }
    if i == 0 && |frac| == 0 then FNaN
    else F(DigitsValue(q[..i]) as real + DigitsValue(frac) as real / Pow10(|frac|) as real)
  }

  /** `parseFloat(p)` on a string of sign, digits and dots: a minus sign
      negates the decimal value after it. */
  function ParseFloat(p: string): (r: Float)
    ensures AllDigits(p) && |p| > 0 ==> r == F(DigitsValue(p) as real)
  {
    if |p| > 0 && p[0] == '-' then
      match DecimalValue(p[1..])
      case F(m) => F(-m)
      case FNaN => FNaN
    else if |p| > 0 && p[0] == '+' then DecimalValue(p[1..])
    else DecimalValue(p)
  }

  /** `parseCSSUnit(value)`: null unless the whole string is a number
      followed by a unit; otherwise the number's value and the unit. As the
      two character classes are disjoint, the split point is unique. */
  function ParseCssUnit(s: string): (r: Option<Parsed>)
    ensures r.Some? <==> exists k :: SplitsAt(s, k)
    ensures forall k :: SplitsAt(s, k) ==> r == Some(Parsed(ParseFloat(s[..k]), s[k..]))
  {
    var k := |s| - UnitRunLength(s);
    forall k' | SplitsAt(s, k')
      ensures k' == k
    {
      SplitUnique(s, k');
    }
    if SplitsAt(s, k) then Some(Parsed(ParseFloat(s[..k]), s[k..])) else None
  }

  /** A match of the pattern ends its number where the trailing run of unit
      characters begins. */
  lemma SplitUnique(s: string, k: int)
    requires SplitsAt(s, k)
    ensures k == |s| - UnitRunLength(s)
  {
    NumberPartLast(s[..k]);
    assert s[k - 1] == s[..k][k - 1];
    var n := UnitRunLength(s);
    if n < |s| - k {
      assert false;
    } else if n > |s| - k {
      assert false;
    }
  }

  lemma NumberPartLast(p: string)
    requires NumberPart(p)
    ensures NumChar(p[|p| - 1])
  {
    var q := if IsSign(p[0]) then p[1..] else p;
    assert q[|q| - 1] == p[|p| - 1];
  }

  lemma NumberPartFirst(p: string)
    requires NumberPart(p)
    ensures IsSign(p[0]) || NumChar(p[0])
  {
    var q := if IsSign(p[0]) then p[1..] else p;
    assert NumChar(q[0]);
  }

  /** A string of digits is a number part. */
  lemma DigitsNumberPart(p: string)
    requires |p| > 0 && AllDigits(p)
    ensures NumberPart(p)
  {
    assert !IsSign(p[0]);
    assert forall i :: 0 <= i < |p| ==> NumChar(p[i]);
  }

  /** A formatted integer followed by "px" parses back to that integer and
      the unit "px". */
  lemma ParsePx(n: int)
    ensures ParseCssUnit(Px(n)) == Some(Parsed(F(n as real), "px"))
  {
    var digits := IntToString(n);
    var s := Px(n);
    var k := |digits|;
    assert s[..k] == digits;
    assert s[k..] == "px";
    IntNumberPart(n);
    assert SplitsAt(s, k);
    ParseFloatInt(n);
  }

  lemma IntNumberPart(n: int)
    ensures NumberPart(IntToString(n))
  {
    var digits := IntToString(n);
    if n < 0 {
      DigitsNumberPart(digits[1..]);
    } else {
      DigitsNumberPart(digits);
    }
  }

  /** `parseFloat` reads a formatted integer back. */
  lemma ParseFloatInt(n: int)
    ensures ParseFloat(IntToString(n)) == F(n as real)
  {
    var digits := IntToString(n);
    var m := if n < 0 then -n else n;
    var q := NatToString(m);
    assert q == if IsSign(digits[0]) then digits[1..] else digits;
    DigitRunLength(q, "");
    assert q + "" == q;
    assert q[..|q|] == q;
    NatToStringValue(m);
  }

  /** The unit pattern accepts the documented examples... */
  lemma ParseCssUnitAccepts()
    ensures ParseCssUnit("100px") == Some(Parsed(F(100.0), "px"))
    ensures ParseCssUnit("1.5rem") == Some(Parsed(F(1.5), "rem"))
    ensures ParseCssUnit(".8em") == Some(Parsed(F(0.8), "em"))
    ensures ParseCssUnit("-50%") == Some(Parsed(F(-50.0), "%"))
  {
    ParsePx(100);
    assert Px(100) == "100px";
    OneAndAHalfRem();
    PointEightEm();
    NegativePercent();
  }

  lemma OneAndAHalfRem()
    ensures ParseCssUnit("1.5rem") == Some(Parsed(F(1.5), "rem"))
  {
    OneAndAHalf();
    NumberThenUnit("1.5rem", "1.5", "rem", F(1.5));
  }

  lemma OneAndAHalf()
    ensures NumberPart("1.5") && ParseFloat("1.5") == F(1.5)
  {
    assert "1.5"[..1] == "1" && "1.5"[2..] == "5";
    ParseFloatFraction("1.5", 1, "5");
    assert DigitsValue("1") == 1 && DigitsValue("5") == 5;
  }

  lemma PointEightEm()
    ensures ParseCssUnit(".8em") == Some(Parsed(F(0.8), "em"))
  {
    PointEight();
    NumberThenUnit(".8em", ".8", "em", F(0.8));
  }

  lemma PointEight()
    ensures NumberPart(".8") && ParseFloat(".8") == F(0.8)
  {
    assert ".8"[..0] == "" && ".8"[1..] == "8";
    ParseFloatFraction(".8", 0, "8");
    assert DigitsValue("") == 0 && DigitsValue("8") == 8;
  }

  /** A number part followed by a unit parses as the number's value and
      the unit. */
  lemma NumberThenUnit(s: string, num: string, unit: string, x: Float)
    requires s == num + unit && NumberPart(num) && UnitPart(unit) && ParseFloat(num) == x
    ensures ParseCssUnit(s) == Some(Parsed(x, unit))
  {
    assert s[..|num|] == num && s[|num|..] == unit;
    assert SplitsAt(s, |num|);
  }

  lemma NegativePercent()
    ensures ParseCssUnit("-50%") == Some(Parsed(F(-50.0), "%"))
  {
    IntNumberPart(-50);
    ParseFloatInt(-50);
    assert IntToString(-50) == "-50";
    assert "-50%"[..3] == "-50";
    assert SplitsAt("-50%", 3);
  }

  /** ... and rejects the malformed ones. */
  lemma ParseCssUnitRejects()
    ensures ParseCssUnit("invalid") == None
    ensures ParseCssUnit("px100") == None
    ensures ParseCssUnit("100") == None
    ensures ParseCssUnit("") == None
  {
    NoNumberAtStart("invalid");
    NoNumberAtStart("px100");
    NoUnitAtEnd("100");
    NoUnitAtEnd("");
  }

  /** `parseFloat` of digits, a dot and more digits. */
  lemma ParseFloatFraction(p: string, i: nat, frac: string)
    requires i < |p| && AllDigits(p[..i]) && p[i] == '.' && !IsSign(p[0])
    requires frac == p[i + 1..] && |frac| > 0 && AllDigits(frac)
    ensures NumberPart(p)
    ensures ParseFloat(p) == F(DigitsValue(p[..i]) as real + DigitsValue(frac) as real / Pow10(|frac|) as real)
  {
    FractionNumberPart(p, i, frac);
    FractionRuns(p, i, frac);
    FractionValue(p, i, frac);
    assert ParseFloat(p) == DecimalValue(p);
  }

  lemma {:induction false} FractionValue(q: string, i: nat, frac: string)
    requires i < |q| && q[i] == '.' && DigitPrefixLength(q) == i
    requires q[i + 1..][..DigitPrefixLength(q[i + 1..])] == frac && |frac| > 0
    ensures DecimalValue(q) == F(DigitsValue(q[..i]) as real + DigitsValue(frac) as real / Pow10(|frac|) as real)
  {
  }

  lemma FractionRuns(p: string, i: nat, frac: string)
    requires i < |p| && AllDigits(p[..i]) && p[i] == '.'
    requires frac == p[i + 1..] && AllDigits(frac)
    ensures DigitPrefixLength(p) == i
    ensures p[i + 1..][..DigitPrefixLength(p[i + 1..])] == frac
  {
    DigitRunLength(p[..i], p[i..]);
    assert p[..i] + p[i..] == p;
    DigitRunLength(frac, "");
    assert frac + "" == frac;
  }

  lemma FractionNumberPart(p: string, i: nat, frac: string)
    requires i < |p| && AllDigits(p[..i]) && p[i] == '.' && !IsSign(p[0])
    requires frac == p[i + 1..] && AllDigits(frac)
    ensures NumberPart(p)
  {
    forall j | 0 <= j < |p|
      ensures NumChar(p[j])
    {
      if j < i { assert p[j] == p[..i][j]; }
      else if j > i { assert p[j] == frac[j - i - 1]; }
    }
  }

  /** No match when the string does not end with a unit character. */
  lemma NoUnitAtEnd(s: string)
    requires |s| == 0 || !UnitChar(s[|s| - 1])
    ensures ParseCssUnit(s) == None
  {
    if k :| SplitsAt(s, k) {
      assert false;
    }
  }

  /** No match when the string does not start with a sign, digit or dot. */
  lemma NoNumberAtStart(s: string)
    requires |s| > 0 && !IsSign(s[0]) && !NumChar(s[0])
    ensures ParseCssUnit(s) == None
  {
    if k :| SplitsAt(s, k) {
      NumberPartFirst(s[..k]);
      assert false;
    }
  }

  /** The context `convertToPixels` reads; an absent field takes its
      default. */
  datatype Context = Context(
    parentSize: Option<real>,
    viewportWidth: Option<real>,
    viewportHeight: Option<real>,
    rootFontSize: Option<real>,
    parentFontSize: Option<real>)

  /** The browser window the viewport defaults come from, when there is
      one. */
  datatype Window = NoWindow | Window(innerWidth: real, innerHeight: real)

  const EmptyContext := Context(None, None, None, None, None)

  function Scale(v: Float, f: real): (r: Float)
    ensures v.FNaN? <==> r.FNaN?
  {
    match v
    case FNaN => FNaN
    case F(x) => F(x * f)
  }

  function MinReal(a: real, b: real): real {
    if a <= b then a else b
  }

  function MaxReal(a: real, b: real): real {
    if a >= b then a else b
  }

  /** The absolute units `isAbsoluteUnit` recognises. */
  predicate AbsoluteUnit(u: string) {
    u in ["px", "in", "cm", "mm", "pt", "pc"]
  }

  /** The relative units `isRelativeUnit` recognises. */
  predicate RelativeUnit(u: string) {
    u in ["em", "rem", "vh", "vw", "vmin", "vmax", "%"]
  }

  /** The viewport width of the context, else the window's, else 0. */
  function ViewportWidth(ctx: Context, win: Window): real {
    ctx.viewportWidth.GetOr(if win.Window? then win.innerWidth else 0.0)
  }

  /** The viewport height of the context, else the window's, else 0. */
  function ViewportHeight(ctx: Context, win: Window): real {
    ctx.viewportHeight.GetOr(if win.Window? then win.innerHeight else 0.0)
  }

  /** The pixel size of a number in one unit, or None for `fr` and units
      that are not recognised. */
  function UnitToPixels(v: Float, unit: string, ctx: Context, win: Window): (r: Option<Float>)
    ensures r.Some? <==> AbsoluteUnit(unit) || RelativeUnit(unit)
    ensures unit == "px" ==> r == Some(v)
    ensures r.Some? ==> (r.value.FNaN? <==> v.FNaN?)
  {
    var parentSize := ctx.parentSize.GetOr(0.0);
    var viewportWidth := ViewportWidth(ctx, win);
    var viewportHeight := ViewportHeight(ctx, win);
    var rootFontSize := ctx.rootFontSize.GetOr(16.0);
    var parentFontSize := ctx.parentFontSize.GetOr(16.0);
    if unit == "px" then Some(v)
    else if unit == "in" then Some(Scale(v, 96.0))
    else if unit == "cm" then Some(Scale(v, 37.8))
    else if unit == "mm" then Some(Scale(v, 3.78))
    else if unit == "pt" then Some(Scale(v, 1.33))
    else if unit == "pc" then Some(Scale(v, 16.0))
    else if unit == "em" then Some(Scale(v, parentFontSize))
    else if unit == "rem" then Some(Scale(v, rootFontSize))
    else if unit == "vh" then Some(Scale(v, viewportHeight / 100.0))
    else if unit == "vw" then Some(Scale(v, viewportWidth / 100.0))
    else if unit == "vmin" then Some(Scale(v, MinReal(viewportWidth, viewportHeight) / 100.0))
    else if unit == "vmax" then Some(Scale(v, MaxReal(viewportWidth, viewportHeight) / 100.0))
    else if unit == "%" then Some(Scale(v, parentSize / 100.0))
    else None
  }

  /** Every unit converts by multiplying with the pixel size of one of
      it. */
  lemma ConvertsByUnitSize(v: Float, unit: string, ctx: Context, win: Window)
    requires AbsoluteUnit(unit) || RelativeUnit(unit)
    ensures UnitToPixels(F(1.0), unit, ctx, win).Some? && UnitToPixels(F(1.0), unit, ctx, win).value.F?
    ensures UnitToPixels(v, unit, ctx, win) == Some(Scale(v, UnitToPixels(F(1.0), unit, ctx, win).value.x))
  {
  }

  /** The pixel sizes of the absolute units. */
  lemma AbsoluteSizes(v: Float)
    ensures UnitToPixels(v, "in", EmptyContext, NoWindow) == Some(Scale(v, 96.0))
    ensures UnitToPixels(v, "pc", EmptyContext, NoWindow) == Some(Scale(v, 16.0))
  {
  }

  /** The font-relative units scale by the parent and the root font size. */
  lemma FontSizes(v: Float, ctx: Context, win: Window)
    ensures UnitToPixels(v, "em", ctx, win) == Some(Scale(v, ctx.parentFontSize.GetOr(16.0)))
    ensures UnitToPixels(v, "rem", ctx, win) == Some(Scale(v, ctx.rootFontSize.GetOr(16.0)))
  {
  }

  /** The viewport units and `%` take hundredths of their reference size. */
  lemma ViewportSizes(v: Float, ctx: Context, win: Window)
    ensures UnitToPixels(v, "vh", ctx, win) == Some(Scale(v, ViewportHeight(ctx, win) / 100.0))
    ensures UnitToPixels(v, "vmax", ctx, win) == Some(Scale(v, MaxReal(ViewportWidth(ctx, win), ViewportHeight(ctx, win)) / 100.0))
    ensures UnitToPixels(v, "%", ctx, win) == Some(Scale(v, ctx.parentSize.GetOr(0.0) / 100.0))
  {
  }

  /** An absolute unit converts the same whatever the context and the
      window. */
  lemma AbsoluteIgnoresContext(v: Float, unit: string, ctx: Context, win: Window, ctx': Context, win': Window)
    requires AbsoluteUnit(unit)
    ensures UnitToPixels(v, unit, ctx, win) == UnitToPixels(v, unit, ctx', win')
  {
  }

  /** `convertToPixels(value, context)`, with the `window` it falls back on
      passed in. */
  function ConvertToPixels(value: string, ctx: Context, win: Window): (r: Option<Float>)
    ensures ParseCssUnit(value).None? ==> r.None?
    ensures ParseCssUnit(value).Some? ==>
              r == UnitToPixels(ParseCssUnit(value).value.value, ParseCssUnit(value).value.unit, ctx, win)
  {
    match ParseCssUnit(value)
    case None => None
    case Some(p) => UnitToPixels(p.value, p.unit, ctx, win)
  }

  /** `isGridUnit(value)` */
  predicate IsGridUnit(value: string) {
    var p := ParseCssUnit(value);
    p.Some? && (p.value.unit == "fr" || p.value.unit == "%")
  }

  /** `isAbsoluteUnit(value)` */
  predicate IsAbsoluteUnit(value: string) {
    var p := ParseCssUnit(value);
    p.Some? && AbsoluteUnit(p.value.unit)
  }

  /** `isRelativeUnit(value)` */
  predicate IsRelativeUnit(value: string) {
    var p := ParseCssUnit(value);
    p.Some? && RelativeUnit(p.value.unit)
  }

  /** A value converts to pixels exactly when it carries an absolute or a
      relative unit, and no value is both. */
  lemma ConvertibleIffClassified(value: string, ctx: Context, win: Window)
    ensures ConvertToPixels(value, ctx, win).Some? <==> IsAbsoluteUnit(value) || IsRelativeUnit(value)
    ensures !(IsAbsoluteUnit(value) && IsRelativeUnit(value))
  {
    match ParseCssUnit(value)
    case None =>
    case Some(p) =>
      ConvertOf(value, p, ctx, win);
      UnitClassesDisjoint(p.unit);
  }

  /** No unit is both absolute and relative. */
  lemma UnitClassesDisjoint(u: string)
    ensures !(AbsoluteUnit(u) && RelativeUnit(u))
  {
  }

  /** The only grid unit that converts to pixels is `%`. */
  lemma GridUnitConverts(value: string, ctx: Context, win: Window)
    ensures IsGridUnit(value) ==> (ConvertToPixels(value, ctx, win).Some? <==> ParseCssUnit(value).value.unit == "%")
  {
    FrUnclassified();
  }

  lemma FrUnclassified()
    ensures !AbsoluteUnit("fr") && !RelativeUnit("fr") && RelativeUnit("%")
  {
  }

  /** Pixels convert to themselves. */
  lemma ConvertPxExample(win: Window)
    ensures ConvertToPixels("100px", EmptyContext, win) == Some(F(100.0))
  {
    Hundred();
    assert "100px"[..3] == "100";
    IntUnit("100px", 3, "px", 100);
    ConvertOf("100px", Parsed(F(100.0), "px"), EmptyContext, win);
  }

  /** One inch is 96 pixels. */
  lemma ConvertInchExample(win: Window)
    ensures ConvertToPixels("1in", EmptyContext, win) == Some(F(96.0))
  {
    IntUnit("1in", 1, "in", 1);
    ConvertOf("1in", Parsed(F(1.0), "in"), EmptyContext, win);
    AbsoluteSizes(F(1.0));
    AbsoluteIgnoresContext(F(1.0), "in", EmptyContext, win, EmptyContext, NoWindow);
  }

  /** One pica is 16 pixels. */
  lemma ConvertPicaExample(win: Window)
    ensures ConvertToPixels("1pc", EmptyContext, win) == Some(F(16.0))
  {
    IntUnit("1pc", 1, "pc", 1);
    ConvertOf("1pc", Parsed(F(1.0), "pc"), EmptyContext, win);
    AbsoluteSizes(F(1.0));
    AbsoluteIgnoresContext(F(1.0), "pc", EmptyContext, win, EmptyContext, NoWindow);
  }

  /** `fr` does not convert. */
  lemma ConvertFrExample(ctx: Context, win: Window)
    ensures ConvertToPixels("1fr", ctx, win) == None
  {
    IntUnit("1fr", 1, "fr", 1);
    FrUnclassified();
    ConvertOf("1fr", Parsed(F(1.0), "fr"), ctx, win);
  }

  /** A bare number does not convert. */
  lemma ConvertBareExample(ctx: Context, win: Window)
    ensures ConvertToPixels("100", ctx, win) == None
  {
    NoUnitAtEnd("100");
  }

  /** A font-relative unit defaults to 16px: `em` ... */
  lemma ConvertEmExample(win: Window)
    ensures ConvertToPixels("1em", EmptyContext, win) == Some(F(16.0))
  {
    IntUnit("1em", 1, "em", 1);
    ConvertOf("1em", Parsed(F(1.0), "em"), EmptyContext, win);
    FontSizes(F(1.0), EmptyContext, win);
  }

  /** `rem` reads the root font size, not the parent's: under a 20px root
      and a 10px parent, "1rem" is 20 pixels. */
  lemma ConvertRemExample(win: Window)
    ensures ConvertToPixels("1rem", Context(None, None, None, Some(20.0), Some(10.0)), win) == Some(F(20.0))
  {
    var ctx := Context(None, None, None, Some(20.0), Some(10.0));
    IntUnit("1rem", 1, "rem", 1);
    ConvertOf("1rem", Parsed(F(1.0), "rem"), ctx, win);
    FontSizes(F(1.0), ctx, win);
  }

  /** A percentage of the parent size. */
  lemma ConvertPercentExample(win: Window)
    ensures ConvertToPixels("100%", Context(Some(1000.0), None, None, None, None), win) == Some(F(1000.0))
  {
    Hundred();
    assert "100%"[..3] == "100";
    IntUnit("100%", 3, "%", 100);
    ConvertOf("100%", Parsed(F(100.0), "%"), Context(Some(1000.0), None, None, None, None), win);
    ViewportSizes(F(100.0), Context(Some(1000.0), None, None, None, None), win);
  }

  /** Ten per cent of a 768px viewport height. */
  lemma ConvertVhExample(win: Window)
    ensures ConvertToPixels("10vh", Context(None, Some(1024.0), Some(768.0), None, None), win) == Some(F(76.8))
  {
    var ctx := Context(None, Some(1024.0), Some(768.0), None, None);
    TenVh();
    ConvertOf("10vh", Parsed(F(10.0), "vh"), ctx, win);
    ViewportSizes(F(10.0), ctx, win);
    assert ViewportHeight(ctx, win) / 100.0 == 7.68;
  }

  lemma TenVh()
    ensures ParseCssUnit("10vh") == Some(Parsed(F(10.0), "vh"))
  {
    Ten();
    IntUnit("10vh", 2, "vh", 10);
  }

  /** Ten per cent of the larger viewport dimension. */
  lemma ConvertVmaxExample(win: Window)
    ensures ConvertToPixels("10vmax", Context(None, Some(1024.0), Some(768.0), None, None), win) == Some(F(102.4))
  {
    var ctx := Context(None, Some(1024.0), Some(768.0), None, None);
    Ten();
    IntUnit("10vmax", 2, "vmax", 10);
    ConvertOf("10vmax", Parsed(F(10.0), "vmax"), ctx, win);
    ViewportSizes(F(10.0), ctx, win);
  }

  lemma Ten()
    ensures DigitsValue("10") == 10
  {
    assert "10"[..1] == "1";
  }

  lemma Hundred()
    ensures DigitsValue("100") == 100
  {
    assert "100"[..2] == "10";
    Ten();
  }

  /** Converting a value whose parse is known. */
  lemma ConvertOf(s: string, p: Parsed, ctx: Context, win: Window)
    requires ParseCssUnit(s) == Some(p)
    ensures ConvertToPixels(s, ctx, win) == UnitToPixels(p.value, p.unit, ctx, win)
  {
  }

  /** Evaluates `parseCSSUnit` on an integer followed by a unit. */
  lemma IntUnit(s: string, k: nat, unit: string, n: nat)
    requires k < |s| && AllDigits(s[..k]) && k > 0 && s[k..] == unit && UnitPart(unit) && DigitsValue(s[..k]) == n
    ensures ParseCssUnit(s) == Some(Parsed(F(n as real), unit))
  {
    DigitsNumberPart(s[..k]);
    assert SplitsAt(s, k);
  }

  /** `formatCSSValue(value, defaultValue)`: a falsy value with a default d
      gives "dpx"; a number n gives "npx"; a string is kept verbatim (an
      `fr` string by its own branch, the others by `toString`); an
      undefined or empty value with no default gives "0". */
  function FormatCssValue(value: Option<Scalar>, default: Option<int>): (r: string)
    ensures |r| > 0
    ensures Falsy(value) && default.Some? ==> r == Px(default.value)
    ensures value.Some? && value.value.Num? && !(Falsy(value) && default.Some?) ==> r == Px(value.value.n)
    ensures value.Some? && value.value.Str? && value.value.s != "" ==> r == value.value.s
    ensures (value.None? || value == Some(Str(""))) && default.None? ==> r == "0"
  {
    if Falsy(value) && default.Some? then Px(default.value)
    else match value
      case Some(Str(s)) =>
        if s == "auto" || s == "100%" then s
        else if ParseCssUnit(s).Some? && ParseCssUnit(s).value.unit == "fr" then s
        else if s == "" then "0" else s
      case Some(Num(n)) => Px(n)
      case None => "0"
  }

  /** `!value`: undefined, 0 and the empty string. */
  predicate Falsy(value: Option<Scalar>) {
    match value
    case None => true
    case Some(Num(n)) => n == 0
    case Some(Str(s)) => s == ""
  }

  /** The decimal digits of a fraction 0 <= f < 1, at most n of them, with
      no trailing zeros. */
  function FracDigits(f: real, n: nat): string
    requires 0.0 <= f < 1.0
    decreases n
  {
    if n == 0 || f == 0.0 then ""
    else
      var d := (f * 10.0).Floor;
      assert 0 <= d < 10;
      [DigitChar(d)] + FracDigits(f * 10.0 - d as real, n - 1)
  }

  /** `${x}` for a finite number: exact for integers and for fractions of up
      to twenty decimal places. */
  function ShowReal(x: real): (s: string)
    ensures x == x.Floor as real ==> s == IntToString(x.Floor)
  {
    if x == x.Floor as real then IntToString(x.Floor)
    else
      var a := if x < 0.0 then -x else x;
      var whole := a.Floor;
      (if x < 0.0 then "-" else "") + IntToString(whole) + "." + FracDigits(a - whole as real, 20)
  }

  function ShowFloat(v: Float): string {
    match v
    case FNaN => "NaN"
    case F(x) => ShowReal(x)
  }

  /** `normalizeGridUnit(value, context)`: the pixel size followed by "px"
      when the value converts, the value unchanged otherwise. */
  function NormalizeGridUnit(value: string, ctx: Context, win: Window): (r: string)
    ensures ConvertToPixels(value, ctx, win).None? ==> r == value
    ensures ConvertToPixels(value, ctx, win).Some? ==> r == ShowFloat(ConvertToPixels(value, ctx, win).value) + "px"
    ensures ConvertToPixels(value, ctx, win) == Some(FNaN) ==> r == "NaNpx"
    ensures ConvertToPixels(value, ctx, win).Some? && ConvertToPixels(value, ctx, win).value.F? ==>
              var x := ConvertToPixels(value, ctx, win).value.x;
              x == x.Floor as real ==> r == Px(x.Floor)
  {
    match ConvertToPixels(value, ctx, win)
    case Some(p) => ShowFloat(p) + "px"
    case None => value
  }

  /** Normalizing a normalized value changes nothing, whenever the pixel
      size is whole or NaN (or there is none): "96px" converts to 96 again,
      and "NaNpx" does not parse. */
  lemma NormalizeGridUnitIdempotent(value: string, ctx: Context, win: Window)
    requires ConvertToPixels(value, ctx, win).Some? && ConvertToPixels(value, ctx, win).value.F? ==>
               ConvertToPixels(value, ctx, win).value.x == ConvertToPixels(value, ctx, win).value.x.Floor as real
    ensures NormalizeGridUnit(NormalizeGridUnit(value, ctx, win), ctx, win) == NormalizeGridUnit(value, ctx, win)
  {
    match ConvertToPixels(value, ctx, win)
    case None =>
    case Some(FNaN) =>
      NoNumberAtStart("NaNpx");
    case Some(F(x)) =>
      var n := x.Floor;
      assert NormalizeGridUnit(value, ctx, win) == Px(n);
      NormalizePxFixed(n, ctx, win);
  }

  /** A pixel string is already normal. */
  lemma NormalizePxFixed(n: int, ctx: Context, win: Window)
    ensures NormalizeGridUnit(Px(n), ctx, win) == Px(n)
  {
    ParsePx(n);
    assert (n as real).Floor == n;
  }

  /** An `fr` string is left alone. */
  lemma NormalizeFrExample(ctx: Context, win: Window)
    ensures NormalizeGridUnit("1fr", ctx, win) == "1fr"
  {
    ConvertFrExample(ctx, win);
  }

  /** An inch becomes 96 pixels. */
  lemma NormalizeInchExample(ctx: Context, win: Window)
    ensures NormalizeGridUnit("1in", ctx, win) == "96px"
  {
    IntUnit("1in", 1, "in", 1);
    ConvertOf("1in", Parsed(F(1.0), "in"), ctx, win);
    AbsoluteSizes(F(1.0));
    AbsoluteIgnoresContext(F(1.0), "in", ctx, win, EmptyContext, NoWindow);
    NinetySix();
    NormalizeOf("1in", ctx, win, F(96.0), "96");
  }

  lemma NinetySix()
    ensures ShowFloat(F(96.0)) == "96"
  {
    assert (96.0).Floor == 96;
    assert NatToString(96) == NatToString(9) + [DigitChar(6)];
  }

  /** Normalizing a value whose pixel size is known. */
  lemma NormalizeOf(s: string, ctx: Context, win: Window, v: Float, shown: string)
    requires ConvertToPixels(s, ctx, win) == Some(v) && ShowFloat(v) == shown
    ensures NormalizeGridUnit(s, ctx, win) == shown + "px"
  {
  }
}

=== FILE: validation.dfy ===
/** Runtime checks on grid column values, alignments and config objects
    (utils/validation.ts). */
module Validation {
  import opened Js
  import opened Text
  import opened Css

  /** `CSS_UNITS` of utils/constants.ts. */
  const CssUnits: seq<string> := ["px", "rem", "em", "vh", "vw", "%", "fr"]

  /** `CSS_UNITS.some((unit) => value.endsWith(unit))` */
  predicate HasCssUnitSuffix(s: string) {
    exists i :: 0 <= i < |CssUnits| && EndsWith(s, CssUnits[i])
  }

  /** `/^\d+fr$/` */
  predicate FractionLiteral(s: string) {
    |s| > 2 && EndsWith(s, "fr") && AllDigits(s[..|s| - 2])
  }

  /** `isValidGridColumnValue(value)` */
  predicate IsValidGridColumnValue(v: JsVal) {
    match v
    case JNum(_) => true
    case JStr(s) => s == "auto" || FractionLiteral(s) || HasCssUnitSuffix(s)
    case _ => false
  }

  /** Every number is a valid column value, no non-string non-number is, and
      a string is valid exactly when it is 'auto' or ends with one of the
      units: the `fr` pattern adds nothing to the suffix test. */
  lemma ColumnValueValidity(v: JsVal)
    ensures v.JNum? ==> IsValidGridColumnValue(v)
    ensures !v.JNum? && !v.JStr? ==> !IsValidGridColumnValue(v)
    ensures v.JStr? ==> (IsValidGridColumnValue(v) <==> v.s == "auto" || HasCssUnitSuffix(v.s))
  {
    if v.JStr? && FractionLiteral(v.s) {
      assert EndsWith(v.s, CssUnits[6]);
    }
  }

  /** The documented examples. */
  lemma ColumnValueExamples()
    ensures IsValidGridColumnValue(JStr("100px"))
    ensures IsValidGridColumnValue(JStr("1fr"))
    ensures IsValidGridColumnValue(JStr("50%"))
    ensures !IsValidGridColumnValue(JStr("invalid"))
    ensures !IsValidGridColumnValue(JObject(map[]))
    ensures !IsValidGridColumnValue(JNull)
  {
    UnitSuffixExamples();
    NoUnitSuffix();
  }

  lemma UnitSuffixExamples()
    ensures HasCssUnitSuffix("100px") && HasCssUnitSuffix("1fr") && HasCssUnitSuffix("50%")
  {
    assert EndsWith("100px", CssUnits[0]);
    assert EndsWith("1fr", CssUnits[6]);
    assert EndsWith("50%", CssUnits[5]);
  }

  /** A word that ends in none of the units is not a column value. */
  lemma NoUnitSuffix()
    ensures !HasCssUnitSuffix("invalid") && !FractionLiteral("invalid")
  {
    forall i | 0 <= i < |CssUnits|
      ensures !EndsWith("invalid", CssUnits[i])
    {
      assert "invalid"[|"invalid"| - |CssUnits[i]|..] != CssUnits[i];
    }
    assert !EndsWith("invalid", CssUnits[6]);
  }

  /** `isValidGridPattern(pattern)` */
  predicate IsValidGridPattern(v: JsVal) {
    v.JArray? && forall i :: 0 <= i < |v.items| ==> IsValidGridColumnValue(v.items[i])
  }

  /** A pattern is valid exactly when both of its halves are: the empty
      array is valid, and null (or any non-array) is not. */
  lemma {:induction false} PatternValidity(a: seq<JsVal>, b: seq<JsVal>, v: JsVal)
    ensures IsValidGridPattern(JArray(a + b)) <==> IsValidGridPattern(JArray(a)) && IsValidGridPattern(JArray(b))
    ensures IsValidGridPattern(JArray([]))
    ensures !v.JArray? ==> !IsValidGridPattern(v)
  {
    if IsValidGridPattern(JArray(a)) && IsValidGridPattern(JArray(b)) {
      forall i | 0 <= i < |a + b|
        ensures IsValidGridColumnValue((a + b)[i])
      {
        if i >= |a| { assert (a + b)[i] == b[i - |a|]; }
      }
    }
    if IsValidGridPattern(JArray(a + b)) {
      forall i | 0 <= i < |b|
        ensures IsValidGridColumnValue(b[i])
      {
        assert (a + b)[|a| + i] == b[i];
      }
      forall i | 0 <= i < |a|
        ensures IsValidGridColumnValue(a[i])
      {
        assert (a + b)[i] == a[i];
      }
    }
  }

  /** `isGridValue(value)`: the suffix rule without the 'auto' case. */
  predicate IsGridValue(v: JsVal) {
    v.JNum? || (v.JStr? && HasCssUnitSuffix(v.s))
  }

  /** Every grid value is a valid column value; 'auto' is a valid column
      value but not a grid value. */
  lemma GridValueIsColumnValue(v: JsVal)
    ensures IsGridValue(v) ==> IsValidGridColumnValue(v)
    ensures IsValidGridColumnValue(JStr("auto")) && !IsGridValue(JStr("auto"))
  {
    assert !HasCssUnitSuffix("auto") by {
      forall i | 0 <= i < |CssUnits|
        ensures !EndsWith("auto", CssUnits[i])
      {
        assert "auto"[|"auto"| - |CssUnits[i]|..] != CssUnits[i];
      }
    }
  }

  /** `GRID_ALIGNMENTS` of types/components.ts. */
  const GridAlignments: seq<string> := ["start", "center", "end"]

  /** `isGridAlignment(value)` */
  predicate IsGridAlignment(v: JsVal) {
    v.JStr? && v.s in GridAlignments
  }

  /** A string is an alignment exactly when it is start, center or end; no
      other value is. */
  lemma AlignmentIff(v: JsVal)
    ensures IsGridAlignment(v) <==> v == JStr("start") || v == JStr("center") || v == JStr("end")
  {
  }

  /** `typeof config === 'object' && config !== null` together with
      `key in config`; arrays carry none of the config keys. */
  predicate HasKey(v: JsVal, key: string) {
    v.JObject? && key in v.fields
  }

  /** `isGridLineConfig(config)` */
  predicate IsGridLineConfig(v: JsVal) {
    HasKey(v, "variant") && v.fields["variant"] == JStr("line")
  }

  /** `isGridColumnConfig(config)` */
  predicate IsGridColumnConfig(v: JsVal) {
    HasKey(v, "columns") && !HasKey(v, "variant")
  }

  /** `isAutoCalculatedGrid(config)` */
  predicate IsAutoCalculatedGrid(v: JsVal) {
    HasKey(v, "columnWidth") && !HasKey(v, "variant") && !HasKey(v, "columns")
  }

  /** At most one of the three config guards holds of any value. */
  lemma ConfigGuardsExclusive(v: JsVal)
    ensures !(IsGridLineConfig(v) && IsGridColumnConfig(v))
    ensures !(IsGridLineConfig(v) && IsAutoCalculatedGrid(v))
    ensures !(IsGridColumnConfig(v) && IsAutoCalculatedGrid(v))
  {
  }

  /** The documented guard examples. */
  lemma ConfigGuardExamples()
    ensures IsGridLineConfig(JObject(map["variant" := JStr("line")]))
    ensures !IsGridLineConfig(JObject(map["columns" := JNum(12)]))
    ensures IsGridColumnConfig(JObject(map["columns" := JNum(12)]))
    ensures !IsGridColumnConfig(JObject(map["variant" := JStr("line")]))
    ensures IsAutoCalculatedGrid(JObject(map["columnWidth" := JStr("100px")]))
    ensures !IsAutoCalculatedGrid(JObject(map["columns" := JNum(12)]))
  {
  }
}

=== FILE: visible_lines.dfy ===
/** The window of grid-line indices worth rendering
    (hooks/useVisibleGridLines.ts). */
module VisibleLines {
  import opened Js

  /** `VisibleRange`: render the indices start <= i < end. */
  datatype Range = Range(start: Number, end: Number)

  /** The default buffer, counted in lines on each side. */
  const DefaultBuffer := 160

  /** The state before any measurement: every line. */
  function InitialRange(totalLines: int): (r: Range)
    ensures r.start == Fin(0) && r.end == Fin(totalLines)
  {
    Range(Fin(0), Fin(totalLines))
  }

  /** `calculateRange()`. `top` is the container's `getBoundingClientRect().top`,
      None when no element is attached; `innerHeight` is the window's. The
      visible band starts at max(0, -top) and is one window high; it is
      widened by `buffer` lines on each side and cut to [0, totalLines]. */
  function CalculateRange(totalLines: int, lineHeight: int, buffer: int, top: Option<int>, innerHeight: int): (r: Range)
    ensures top.None? ==> r == InitialRange(totalLines)
    ensures top.None? || lineHeight != 0 ==>
              r.start.Fin? && r.start.v >= 0 && r.end.Fin? && r.end.v <= totalLines
    ensures top.Some? && top.value >= 0 && buffer >= 0 && lineHeight != 0 ==> r.start == Fin(0)
    ensures top.Some? && lineHeight > 0 ==>
              r.start == Fin(Bigger(0, FloorDiv(ViewportTop(top.value), lineHeight) - buffer))
              && r.end == Fin(Smaller(totalLines, CeilDiv(ViewportTop(top.value) + innerHeight, lineHeight) + buffer))
  {
    match top
    case None => InitialRange(totalLines)
    case Some(t) =>
      var viewportTop := ViewportTop(t);
      Range(RangeStart(viewportTop, lineHeight, buffer), RangeEnd(totalLines, viewportTop + innerHeight, lineHeight, buffer))
  }

  /** `Math.max(0, -rect.top)` */
  function ViewportTop(top: int): (v: int)
    ensures v >= 0 && v >= -top && (v == 0 || v == -top)
  {
    Max(Fin(0), Fin(-top)).v
  }

  /** `Math.max(0, Math.floor(viewportTop / lineHeight) - buffer)` */
  function RangeStart(viewportTop: int, lineHeight: int, buffer: int): (r: Number)
    ensures lineHeight != 0 ==> r.Fin? && r.v >= 0
    ensures lineHeight > 0 ==> r == Fin(Bigger(0, FloorDiv(viewportTop, lineHeight) - buffer))
    ensures viewportTop == 0 && buffer >= 0 && lineHeight != 0 ==> r == Fin(0)
  {
    Max(Fin(0), Add(FloorQuotient(Fin(viewportTop), Fin(lineHeight)), Fin(-buffer)))
  }

  /** `Math.min(totalLines, Math.ceil(viewportBottom / lineHeight) + buffer)` */
  function RangeEnd(totalLines: int, viewportBottom: int, lineHeight: int, buffer: int): (r: Number)
    ensures lineHeight != 0 ==> r.Fin? && r.v <= totalLines
    ensures lineHeight > 0 ==> r == Fin(Smaller(totalLines, CeilDiv(viewportBottom, lineHeight) + buffer))
  {
    Min(Fin(totalLines), Add(CeilQuotient(Fin(viewportBottom), Fin(lineHeight)), Fin(buffer)))
  }

  function Bigger(a: int, b: int): int {
    if a >= b then a else b
  }

  function Smaller(a: int, b: int): int {
    if a <= b then a else b
  }

  /** Every line inside the visible band lies in the range, whatever the
      buffer adds. */
  lemma RangeCoversVisible(totalLines: int, lineHeight: int, buffer: int, top: int, innerHeight: int, i: int)
    requires lineHeight > 0 && buffer >= 0
    requires 0 <= i < totalLines
    requires ViewportTop(top) <= i * lineHeight < ViewportTop(top) + innerHeight
    ensures var r := CalculateRange(totalLines, lineHeight, buffer, Some(top), innerHeight);
            r.start.v <= i < r.end.v
  {
    var viewportTop := ViewportTop(top);
    FloorDivAtMost(viewportTop, i, lineHeight);
    CeilDivAbove(viewportTop + innerHeight, i, lineHeight);
  }

  /** With a non-negative buffer the range reaches at least one window's
      worth of lines, or all of them. */
  lemma RangeReachesWindow(totalLines: int, lineHeight: int, buffer: int, top: int, innerHeight: int)
    requires lineHeight > 0 && buffer >= 0
    ensures CalculateRange(totalLines, lineHeight, buffer, Some(top), innerHeight).end.v
              >= Smaller(totalLines, CeilDiv(innerHeight, lineHeight))
  {
    var viewportTop := ViewportTop(top);
    FloorDivMono(-(viewportTop + innerHeight), -innerHeight, lineHeight);
    assert CeilDiv(viewportTop + innerHeight, lineHeight) >= CeilDiv(innerHeight, lineHeight);
  }

  /** Scrolled so that the container starts 400px above the viewport, with
      16px lines, a 100px window and a 2-line buffer: lines 23 to 33. */
  lemma RangeExample(top: int, lineHeight: int)
    requires top == -400 && lineHeight == 16
    ensures CalculateRange(1000, lineHeight, 2, Some(top), 100) == Range(Fin(23), Fin(34))
  {
    var v := ViewportTop(top);
    StartExample(v, lineHeight);
    EndExample(v + 100, lineHeight);
  }

  lemma StartExample(v: int, lineHeight: int)
    requires v == 400 && lineHeight == 16
    ensures RangeStart(v, lineHeight, 2) == Fin(23)
  {
    FloorDivUnique(v, lineHeight, 25);
  }

  lemma EndExample(v: int, lineHeight: int)
    requires v == 500 && lineHeight == 16
    ensures RangeEnd(1000, v, lineHeight, 2) == Fin(34)
  {
    CeilDivUnique(v, lineHeight, 32);
  }
}

=== FILE: x_grid.dfy ===
/** The standalone column grid of components/XGrid/XGrid.tsx: flat props
    straight into the column calculator, behind a `show` switch. */
module XGrid {
  import opened Js
  import opened Text
  import opened Css
  import opened Styles
  import opened GridTypes
  import Calc = GridCalculations
  import GridXGrid

  /** `GRID.DEFAULTS.BASE` */
  const DefaultBase := 8
  /** `GRID.DEFAULTS.COLUMNS` and `GRID.DEFAULTS.COLUMN_WIDTH` */
  const DefaultColumns := ColumnCount(9)
  const DefaultColumnWidth := Plain(Str("1fr"))

  /** The props the component reads; each may be undefined. `baseFromConfig`
      is the one extra prop the calculator reads from `otherProps`. */
  datatype XGProps = XGProps(
    align: Option<string>,
    color: Option<string>,
    columns: Option<Columns>,
    columnWidth: Option<CssValue>,
    gap: Option<CssValue>,
    maxWidth: Option<CssValue>,
    padding: Option<CssValue>,
    show: Option<bool>,
    style: Option<Style>,
    variant: Option<string>,
    baseFromConfig: Option<int>)

  /** `adjustedGap`: a line grid draws its lines one pixel narrower than the
      gap it is given (7 when the gap is not a number); any other variant
      keeps the gap. */
  function AdjustedGap(variant: Option<string>, gap: Option<CssValue>): (r: Option<CssValue>)
    ensures variant == Some("line") ==> r.Some? && r.value.Plain? && r.value.v.Num? && r.value.v.n >= 0
    ensures variant == Some("line") && gap.Some? && gap.value.Plain? && gap.value.v.Num? && gap.value.v.n >= 1 ==>
              r == Some(Plain(Num(gap.value.v.n - 1)))
    ensures variant == Some("line") && !(gap.Some? && gap.value.Plain? && gap.value.v.Num?) ==>
              r == Some(Plain(Num(DefaultBase - 1)))
    ensures variant != Some("line") ==> r == gap
  {
    if variant == Some("line") then
      var baseGap := if gap.Some? && gap.value.Plain? && gap.value.v.Num? then gap.value.v.n else DefaultBase;
      Some(Plain(Num(if baseGap - 1 >= 0 then baseGap - 1 else 0)))
    else gap
  }

  /** A key the props object always carries, holding undefined for an
      undefined value. */
  function Keyed<T>(o: Option<T>): (s: Slot<T>)
    ensures s.Present() && s.Read() == o
  {
    match o
    case None => Undefined
    case Some(v) => Has(v)
  }

  /** The props `useGridCalculations` receives: `columns` and `columnWidth`
      with their defaults, and `variant` and `gap` as keys even when
      undefined. */
  function CalcPropsOf(p: XGProps, width: int): (c: Calc.CalcProps)
    ensures c.columns == Has(p.columns.GetOr(DefaultColumns)) && c.variant.Present()
  {
    Calc.CalcProps(width, Keyed(AdjustedGap(p.variant, p.gap)), Has(p.columns.GetOr(DefaultColumns)),
                   Keyed(p.variant), Has(p.columnWidth.GetOr(DefaultColumnWidth)), p.baseFromConfig)
  }

  /** The calculator's answer. Since `columns` always holds a count or a
      list and `variant` is always a key, the line calculator serves the
      line variant and a column calculator every other: nothing reaches the
      auto calculator, and only a column list with an entry under a
      breakpoint throws. */
  function Calculate(p: XGProps, width: int): (r: Calc.Outcome)
    ensures p.variant == Some("line") ==> r == Calc.Ok(Calc.CalculateLine(CalcPropsOf(p, width)))
    ensures p.variant != Some("line") && p.columns.GetOr(DefaultColumns).ColumnCount? ==>
              r == Calc.Ok(Calc.CalculateFixed(CalcPropsOf(p, width), p.columns.GetOr(DefaultColumns).count))
    ensures p.variant != Some("line") && p.columns.GetOr(DefaultColumns).ColumnPattern? ==>
              r == Calc.CalculatePattern(CalcPropsOf(p, width), p.columns.GetOr(DefaultColumns).items)
    ensures r.Throws? <==>
              p.variant != Some("line") && p.columns.GetOr(DefaultColumns).ColumnPattern?
              && exists i :: 0 <= i < |p.columns.GetOr(DefaultColumns).items| &&
                   Calc.ParseColumnValue(p.columns.GetOr(DefaultColumns).items[i]).None?
  {
    Calc.CalculateGrid(CalcPropsOf(p, width))
  }

  /** A line grid given a gap of g >= 1 pixels draws as many lines as fit
      the width g pixels apart. */
  lemma LineSpacing(p: XGProps, width: int)
    requires p.variant == Some("line")
    requires p.gap.Some? && p.gap.value.Plain? && p.gap.value.v.Num? && p.gap.value.v.n >= 1
    ensures Calculate(p, width).result.count.Fin?
    ensures Calc.FitsLines(width, p.gap.value.v.n, Calculate(p, width).result.count.v)
  {
    var g := p.gap.value.v.n;
    var c := CalcPropsOf(p, width);
    assert c.gap == Has(Plain(Num(g - 1)));
    Calc.LineStep(c, g);
  }

  /** A line grid given no numeric gap draws its lines 8 pixels apart. */
  lemma DefaultLineSpacing(p: XGProps, width: int)
    requires p.variant == Some("line")
    requires !(p.gap.Some? && p.gap.value.Plain? && p.gap.value.v.Num?)
    ensures Calculate(p, width).result.count.Fin?
    ensures Calc.FitsLines(width, DefaultBase, Calculate(p, width).result.count.v)
  {
    var c := CalcPropsOf(p, width);
    assert c.gap == Has(Plain(Num(DefaultBase - 1)));
    Calc.LineStep(c, DefaultBase);
  }

  /** An 'auto' grid given no columns is drawn as the default nine `1fr`
      columns: the column count default sends it to the fixed calculator. */
  lemma AutoVariantIsFixed(p: XGProps, width: int)
    requires p.variant == Some("auto") && p.columns.None?
    ensures Calculate(p, width).result.count == Fin(9)
    ensures Calculate(p, width).result.template == "repeat(9, 1fr)"
  {
    assert IntToString(9) == "9";
  }

  /** `getColumnStyles(variant)` together with the later `if`: one pixel
      for a line grid, undefined otherwise. */
  function ColumnWidth(variant: Option<string>): (v: StyleVal)
    ensures v == SStr("1px") <==> variant == Some("line")
    ensures v != SStr("1px") ==> v == SUndefined
  {
    if variant == Some("line") then SStr("1px") else SUndefined
  }

  /** The container's own custom properties, before the caller's style is
      merged over them. The source stores the number `columnsCount` under
      `--grid-columns`; the map keeps the text React writes for it, since a
      style number here cannot hold NaN. */
  function OwnStyle(p: XGProps, r: Calc.CalcResult, maxWidth: Option<string>): (s: Style)
    ensures "--column-width" in s && "--grid-template-columns" in s && "--grid-gap" in s && "--grid-columns" in s
    ensures s["--column-width"] == ColumnWidth(p.variant)
    ensures s["--grid-template-columns"] == SStr(r.template) && s["--grid-gap"] == SStr(r.gap)
    ensures s["--grid-columns"] == SStr(NumberToString(r.count))
  {
    map[
      "--grid-template-columns" := SStr(r.template),
      "--grid-gap" := SStr(r.gap),
      "--grid-max-width" := if maxWidth.Some? then SStr(maxWidth.value) else SUndefined,
      "--grid-columns" := SStr(NumberToString(r.count)),
      "--grid-justify" := SStr(p.align.GetOr("center")),
      "--grid-padding" := if p.padding.Some? then SValue(p.padding.value) else SUndefined,
      "--column-color" := SStr(p.color.GetOr("var(--grid-color-fixed)")),
      "--column-width" := ColumnWidth(p.variant)]
  }

  /** What the component renders when shown: the container's style and its
      column elements. */
  datatype XGridView = XGridView(style: Style, columns: seq<GridXGrid.ColumnElement>)

  /** Nothing (`show` is false or undefined), the grid, the RangeError of
      a column count no array can hold, or the TypeError of a value with
      an entry under a breakpoint. */
  datatype Rendering = Nothing | Shown(view: XGridView) | TooManyColumns | Thrown(message: string)

  /** The max width has an entry under a breakpoint, so formatting it
      reads the undefined breakpoint table. */
  predicate MaxWidthThrows(p: XGProps) {
    p.maxWidth.Some? && p.maxWidth.value.Responsive? && ReadsBreakpoints(p.maxWidth.value.entries)
  }

  /** `XGrid(props)`: nothing unless shown; otherwise the calculation, then
      the container style with `maxWidth` formatted by
      `parseResponsiveGridValue` and the caller's style merged over it, then
      the column elements. */
  function Render(p: XGProps, width: int): (r: Rendering)
    ensures r.Nothing? <==> p.show != Some(true)
    ensures r.Thrown? <==> p.show == Some(true) && (Calculate(p, width).Throws? || MaxWidthThrows(p))
    ensures r.Thrown? ==> r.message == Calc.BreakpointsMessage
    ensures r.Shown? ==>
              var result := Calculate(p, width).result;
              var own := OwnStyle(p, result, ParseResponsiveGridValue(p.maxWidth, None).text);
              Some(r.view.columns) == GridXGrid.ColumnElements(result.count, p.variant)
              && MergedOver(r.view.style, own, p.style.GetOr(map[]))
              && ("--column-width" !in p.style.GetOr(map[]) ==>
                    "--column-width" in r.view.style && (r.view.style["--column-width"] == SStr("1px") <==> p.variant == Some("line")))
    ensures r.TooManyColumns? <==>
              p.show == Some(true) && Calculate(p, width).Ok? && !MaxWidthThrows(p)
              && ArrayLength(Calculate(p, width).result.count).None?
  {
    if p.show != Some(true) then Nothing
    else
      match Calculate(p, width)
      case Throws(m) => Thrown(m)
      case Ok(result) =>
        match ParseResponsiveGridValue(p.maxWidth, None)
        case BreakpointsUndefined => Thrown(Calc.BreakpointsMessage)
        case Rendered(maxWidth) =>
          var own := OwnStyle(p, result, maxWidth);
          var user := p.style.GetOr(map[]);
          CombinePair(own, user);
          var style := CombineStyles([Some(own), Some(user)]);
          match GridXGrid.ColumnElements(result.count, p.variant)
          case None => TooManyColumns
          case Some(cols) => Shown(XGridView(style, cols))
  }

  /** The `--grid-columns` property of a shown grid (unless the caller's
      style sets its own) reads back as the number of column elements
      drawn; a count that does not read as a non-negative number draws
      none. */
  lemma GridColumnsCountsElements(p: XGProps, width: int)
    requires Render(p, width).Shown? && "--grid-columns" !in p.style.GetOr(map[])
    ensures var v := Render(p, width).view;
            "--grid-columns" in v.style && v.style["--grid-columns"].SStr?
            && var n := ParseInt(v.style["--grid-columns"].s);
               (n.Fin? && n.v >= 0 ==> n == Fin(|v.columns|))
               && (!(n.Fin? && n.v >= 0) ==> v.columns == [])
  {
    var v := Render(p, width).view;
    var result := Calculate(p, width).result;
    var own := OwnStyle(p, result, ParseResponsiveGridValue(p.maxWidth, None).text);
    assert v.style["--grid-columns"] == own["--grid-columns"];
    var text := NumberToString(result.count);
    match result.count
    case Fin(c) =>
      ParseIntOfFormatted(c, "");
      assert text + "" == text;
    case NaN =>
      ParseIntNoDigits(text);
    case NegInf =>
      assert false;
    case PosInf =>
      assert false;
  }
}

=== FILE: y_grid.dfy ===
/** The standalone row grid of components/YGrid/YGrid.tsx: the rows of
    Grid/YGrid behind a `show` switch. */
module YGrid {
  import opened Js
  import opened Css
  import opened Styles
  import opened VisibleLines
  import opened GridYGrid

  /** `GRID.DEFAULTS.BASE` */
  const DefaultBase := 8

  /** The props the component reads; each may be undefined. */
  datatype YGProps = YGProps(
    base: Option<int>,
    color: Option<string>,
    show: Option<bool>,
    height: Option<Scalar>,
    variant: Option<string>,
    style: Option<Style>)

  /** `{ '--grid-height', opacity: show ? 1 : 0, visibility: show ? 'visible' : 'hidden' }`:
      the container's own style before the caller's is merged over it. */
  function ContainerStyleOf(height: Scalar, show: bool): (s: Style)
    ensures s.Keys == {"--grid-height", "opacity", "visibility"}
    ensures s["opacity"] == SNum(1) <==> show
    ensures s["opacity"] == SNum(0) <==> !show
    ensures s["visibility"] == SStr("visible") <==> show
    ensures s["visibility"] == SStr("hidden") <==> !show
    ensures s["--grid-height"] == SStr(GridHeight(height))
  {
    map[
      "--grid-height" := SStr(GridHeight(height)),
      "opacity" := SNum(if show then 1 else 0),
      "visibility" := SStr(if show then "visible" else "hidden")]
  }

  /** What the component renders when shown. */
  datatype ShownGrid = ShownGrid(style: Style, rowCount: Number, rows: seq<Row>)

  /** `YGrid(props)`: null unless `show` is true (it defaults to false);
      otherwise the container, with `style ?? {}` merged over its own
      style, and the rows of the visible window. The container is only
      ever rendered shown, so its own opacity is 1 and its visibility
      'visible', unless the caller's style sets them. */
  method Render(props: YGProps, view: Viewport) returns (r: Option<ShownGrid>)
    ensures r.Some? <==> props.show == Some(true)
    ensures r.Some? ==> MergedOver(r.value.style, ContainerStyleOf(props.height.GetOr(Str("100%")), true),
                                   props.style.GetOr(map[]))
    ensures r.Some? && "opacity" !in props.style.GetOr(map[]) ==> r.value.style["opacity"] == SNum(1)
    ensures r.Some? && "visibility" !in props.style.GetOr(map[]) ==> r.value.style["visibility"] == SStr("visible")
    ensures r.Some? ==> r.value.rowCount == RowCount(TotalHeight(props.height.GetOr(Str("100%")), view.containerHeight),
                                                     props.base.GetOr(DefaultBase))
    ensures r.Some? ==> RendersWindow(r.value.rows,
                                      RowWindow(r.value.rowCount, props.base.GetOr(DefaultBase), view.top, view.innerHeight),
                                      props.base.GetOr(DefaultBase), props.color.GetOr(DefaultColor),
                                      props.variant.GetOr("line"))
  {
    var base := props.base.GetOr(DefaultBase);
    var show := props.show.GetOr(false);
    var height := props.height.GetOr(Str("100%"));
    var rowCount := RowCount(TotalHeight(height, view.containerHeight), base);
    var range := RowWindow(rowCount, base, view.top, view.innerHeight);
    var rows := VisibleRows(range, base, props.color.GetOr(DefaultColor), props.variant.GetOr("line"));
    var own := ContainerStyleOf(height, show);
    var user := props.style.GetOr(map[]);
    CombinePair(own, user);
    var style := CombineStyles([Some(own), Some(user)]);
    if !show {
      return None;
    }
    r := Some(ShownGrid(style, rowCount, rows));
  }
}
